=== FILE: README.md ===
# Tablet kernel drivers: a Dafny model of five small cores

This project models the integer and byte logic of five drivers from a Tegra K1
tablet kernel, and proves properties of that model:

- **BQ27x00 fuel gauge** (`drivers/power/bq27x00_battery.c`). It covers:
  - choosing the register table from the firmware version;
  - the "missing register" guard;
  - converting raw readings to µAh, seconds, µWh, µA and tenths of °C;
  - the property-reporting rules;
  - the cache-replacement rule and the poll delay;
  - the SysDown interrupt decision and battery-ID classification;
  - the W/R/C/X firmware-script interpreter.
- **Steam Controller** (`drivers/hid/hid-steam.c`, `drivers/hid/hid-steam.h`). It covers:
  - the report header gate and dispatch;
  - little-endian decoding and the 16-bit "negate";
  - the in-place rewrite of a controller-state report;
  - wireless events;
  - the fixed-layout feature-report commands and the debugfs setters;
  - the button-to-keycode lookup.
- **Tegra cpufreq** (`drivers/platform/tegra/cpu-tegra12.c`). It covers:
  - both frequency-table builders (T124 and T132);
  - the step-function memory-bus (EMC) votes and the device-tree limit table;
  - both `tegra_emc_cpu_limit` variants;
  - the mselect rate and the limit-table source switch.
- **Double-tap-to-wake** (`drivers/input/touchscreen/dt2w.c`): the tap state machine and the framebuffer blank notifier that drives its screen-off flag.
- **Synaptics RMI4 I2C transport** (`drivers/input/touchscreen/synaptics_dsx/synaptics_dsx_i2c.c`): the page cache, with bounded retries for page selection, reads and writes.

Everything is pure functions over immutable datatypes. Kernel services become parameters:
- bus transfers, the clock and the ADC;
- device-tree reads;
- the clock framework's answers.

Retry loops read an oracle `nat -> X` indexed by attempt number. C integer widths are written out explicitly in `Common`:
- `ToU16`, `ToShort`, `ToU32` and `ToInt32`;
- C's truncating division, `TruncDiv`.

`unsigned long` and pointers are taken as 32 bits wide, as on the 32-bit ARM T124 build. The T132 paths use the same width (see Left out).

Files (one module each):

| file | module | what |
|---|---|---|
| common.dfy | Common | errno values, C integer conversions, little-endian bytes, first successful attempt |
| bq27_regs.dfy | Bq27Regs | register tables, guarded read/write, `is_between`, battery-ID classification |
| bq27_units.dfy | Bq27Units | unit conversions, temperature with fallback, current |
| bq27_cache.dfy | Bq27Cache | snapshot, replacement rule, poll delay, SysDown handler |
| bq27_props.dfy | Bq27Props | `get_property` rules, health, capacity forcing, charger status |
| bq27_firmware.dfy | Bq27Firmware | firmware-script parser and interpreter |
| steam_report.dfy | SteamReport | report layout, decoding, negate, state rewrite, dispatch |
| steam_commands.dfy | SteamCommands | feature-report commands, `steam_ops`, setters, input mapping |
| tegra_cpufreq.dfy | TegraCpufreq | T124/T132 frequency tables |
| tegra_emc.dfy | TegraEmc | EMC votes, device-tree table, mselect, table source |
| dt2w.dfy | DoubleTap | framebuffer notifier and tap machine |
| synaptics_i2c.dfy | SynapticsI2c | page cache and bounded retries |

Where the code's comments or names suggest one behaviour and the code does another, the model follows the code:
- `negate_short_val` maps a positive v to −v−1 (100 becomes −101), not to −v as its name suggests.
- The cache comparison in `bq27x00_update` leaves out `sim_temp`, not `current_now` as the comment above it says (see Findings). `Bq27Cache.Update` and `Bq27Cache.Poll` take a `Semantics` argument: `AsWritten` follows the code's comparison, `Intended` the corrected one.
- `TegraCpufreq.TableGetT124` takes a `Semantics` argument too: `AsWritten` builds with the code's gap fill (`BuildT124AsWritten`), `Intended` with the corrected one (`BuildT124`).
- Likewise `Bq27Props.GetProperty` takes a `Semantics` argument: `AsWritten` reports a failed temperature read as HEALTH GOOD, as the code does; `Intended` reports UNKNOWN.
- The G3 register table does not give every register its own address: RM shares 0x12 with LMD, and STBYI shares 0x2A with CC (`Bq27Regs.G3AddressesAliased`).

## Model

| member | source | states |
|---|---|---|
| Bq27Regs.SelectTable | drivers/power/bq27x00_battery.c:1687-1707 | firmware 0x0600/0x0604 select L1, 0x0324 selects G3, every other version G4 — each an if-and-only-if |
| Bq27Regs.G4AddressesDistinct | drivers/power/bq27x00_battery.c:157-192 | no two present G4 registers share a bus address |
| Bq27Regs.L1AddressesDistinct | drivers/power/bq27x00_battery.c:199-236 | no two present L1 registers share a bus address |
| Bq27Regs.G3AddressesAliased | drivers/power/bq27x00_battery.c:125-154 | the G3 table maps RM and LMD to 0x12 and STBYI and CC to 0x2A |
| Bq27Regs.G3OtherwiseDistinct | drivers/power/bq27x00_battery.c:125-154 | apart from RM and STBYI every G3 register has its own address |
| Bq27Regs.RegRead | drivers/power/bq27x00_battery.c:406-418 | no table or a 0xFF entry reads 0 without touching the bus; otherwise the bus value at the table's address |
| Bq27Regs.RegWrite | drivers/power/bq27x00_battery.c:420-426 | no table or a 0xFF entry is refused with -EPERM; otherwise the bus write's result |
| Bq27Regs.MissingRegisterInert | drivers/power/bq27x00_battery.c:406-426 | a missing register reads 0 whatever the bus holds and refuses every write |
| Bq27Regs.G3TableTooShort | drivers/power/bq27x00_battery.c:125-154 | the G3 table as written has 28 entries while the update path reads index TRUECAP beyond it |
| Bq27Regs.TablesCoverUpdate | drivers/power/bq27x00_battery.c:576-620 | with the padded G3 table every index the update reads is in range, and the padding marks registers missing |
| Bq27Regs.IsBetweenMeaning | drivers/power/bq27x00_battery.c:396-404 | the range test is symmetric in its bounds and means min ≤ value ≤ max |
| Bq27Regs.ClassifyBattery | drivers/power/bq27x00_battery.c:1635-1647 | a failed ADC read gives -EINVAL; 100..300 is ATL; any other id is LG |
| Bq27Units.Charge | drivers/power/bq27x00_battery.c:468-488 | errors pass through; BQ27500 scales by 1000; older parts by 3570/20 rounded down |
| Bq27Units.ChargeMonotone | drivers/power/bq27x00_battery.c:468-488 | the conversion preserves the order of readings |
| Bq27Units.Ilmd | drivers/power/bq27x00_battery.c:508-532 | errors pass through; ×1000 on BQ27500, ×256×3570/20 rounded down otherwise |
| Bq27Units.IlmdRegister | drivers/power/bq27x00_battery.c:508-517 | BQ27500 reads the design capacity word, older parts the ILMD byte |
| Bq27Units.Time | drivers/power/bq27x00_battery.c:549-563 | errors pass through, 65535 means -ENODATA, any other reading is minutes times 60 |
| Bq27Units.TimeErrorsDistinct | drivers/power/bq27x00_battery.c:549-563 | a time result is negative exactly for a failed read or the 65535 marker |
| Bq27Units.Energy | drivers/power/bq27x00_battery.c:829-848 | an error iff the read failed; ×1000 on BQ27500, ×29200/20 rounded down otherwise |
| Bq27Units.Voltage | drivers/power/bq27x00_battery.c:811-823 | an error iff the read failed; otherwise the millivolts times 1000 |
| Bq27Units.ToDeciCelsius | drivers/power/bq27x00_battery.c:708-711 | BQ27500: raw − 2731; older parts: (5·raw − 5463)/2 truncated toward zero |
| Bq27Units.BatteryTemperature | drivers/power/bq27x00_battery.c:700-748 | a negative cached value is the error; below −35.0 °C the internal sensor minus 20.0 °C is used and the battery is marked fake; otherwise the mark is cleared |
| Bq27Units.TemperatureFallbackThreshold | drivers/power/bq27x00_battery.c:705-721 | without a translation hook the fallback happens exactly below raw 2381 (BQ27500) or 953 (older parts) |
| Bq27Units.BatteryCurrent | drivers/power/bq27x00_battery.c:755-779 | BQ27500: the negated signed 16-bit register times 1000; older parts: the cached current, negated while charging, ×3570/20 |
| Bq27Units.CurrentSignFollowsCharging | drivers/power/bq27x00_battery.c:770-775 | on the older parts the charging flag flips the sign of the reported current |
| Bq27Cache.Snapshot | drivers/power/bq27x00_battery.c:576-648 | each of the 43 cached fields is stated: the raw or converted register reads (the second AI and TRUESOC reads come from the gauge's reread answers), the control word, the two block reads' words (zero when the firmware is older or the block read failed), `max_current` on newer firmware, and `current_now` on the older parts only |
| Bq27Cache.CurrentJitterReplacesAsWritten | drivers/power/bq27x00_battery.c:650-656 | as written, a snapshot that differs only in current_now still replaces the cache |
| Bq27Cache.CurrentJitterIgnored | drivers/power/bq27x00_battery.c:650-656 | with the intended comparison a current-only change never replaces the cache, and any other change does |
| Bq27Cache.Fresh | drivers/power/bq27x00_battery.c:576-578 | a failed flags read yields the all-zero snapshot carrying the negative flags |
| Bq27Cache.Update | drivers/power/bq27x00_battery.c:565-659 | as written the cache is replaced (and a change notified) exactly when the bytes before `sim_temp` differ or the capacity is not positive; as intended, when anything but `current_now` differs or the capacity is not positive; the design capacity is read once, after a good flags read; the temperature of the cache now held sets or clears `fake_battery` exactly as a TEMP read would |
| Bq27Cache.RereadMovesOnlyCurrent | drivers/power/bq27x00_battery.c:581-643 | a gauge that answers only the second AI read differently changes only `current_now` in the snapshot |
| Bq27Cache.ConsecutiveRefreshesJitter | drivers/power/bq27x00_battery.c:642-656 | two refreshes whose second AI read gives 100 then 101 differ only in `current_now`; the second replaces the cache as written and not as intended |
| Bq27Cache.UpdatesAgreeBeyondJitter | drivers/power/bq27x00_battery.c:650-656 | the two refreshes agree unless `current_now` or `sim_temp` alone changed; a current-only change is notified as written and ignored as intended |
| Bq27Cache.FailedFlagsReplaceCache | drivers/power/bq27x00_battery.c:576-659 | a failed flags read always replaces the cache: negative flags, capacity 0; without a translation hook its temperature of 0 marks the battery fake |
| Bq27Cache.AdvancedClockReplacesCache | drivers/power/bq27x00_battery.c:652-656 | the timestamp is compared too, so a good refresh at a new clock reading always replaces the cache |
| Bq27Cache.UpdateSettles | drivers/power/bq27x00_battery.c:652-659 | a second refresh from an unchanged gauge with positive capacity has no effect: cache and fake mark stay as the first left them |
| Bq27Cache.PollDelay | drivers/power/bq27x00_battery.c:680-689 | an interval of 0 stops polling; below 20 % capacity the delay is min(20, interval); otherwise it is the interval |
| Bq27Cache.LowBatteryPollsSooner | drivers/power/bq27x00_battery.c:682-685 | a low battery is never polled less often than a healthy one, and never later than 20 s |
| Bq27Cache.Poll | drivers/power/bq27x00_battery.c:674-693 | a refresh (under the chosen rule) happens iff polling is on, and the next delay follows the refreshed capacity |
| Bq27Cache.SysDownAsWritten | drivers/power/bq27x00_battery.c:1288-1300 | bit 1 of the raw read result switches poweroff 0 then 1 and requeues; otherwise only 0 |
| Bq27Cache.SysDownOnBusError | drivers/power/bq27x00_battery.c:1290 | as written, -EIO counts as SysDown while -ENODEV does not |
| Bq27Cache.SysDown | drivers/power/bq27x00_battery.c:1277-1305 | the shutdown path runs iff the read succeeded and its bit 1 is set |
| Bq27Cache.SysDownAgreesOnGoodReads | drivers/power/bq27x00_battery.c:1288-1300 | the handlers as written and as intended agree on every successful read |
| Bq27Props.ColdRefreshReportsCapacityOne | drivers/power/bq27x00_battery.c:722-743 | a refresh leaving a raw temperature below -35.0 °C (2381 on BQ27500, 953 otherwise) marks the battery fake and CAPACITY then reports 1; a warmer reading clears the mark and CAPACITY reports the cache |
| Bq27Props.SimpleValue | drivers/power/bq27x00_battery.c:892-901 | a negative value is the error, anything else the reported value |
| Bq27Props.HealthAsWritten | drivers/power/bq27x00_battery.c:927-936 | above 55.0 °C overheat, below 0 °C cold, otherwise good |
| Bq27Props.HealthErrorReportsGood | drivers/power/bq27x00_battery.c:928-935 | as written, a failed temperature read reports a good battery |
| Bq27Props.HealthOf | drivers/power/bq27x00_battery.c:927-936 | UNKNOWN iff the temperature read failed; otherwise the same bands |
| Bq27Props.ReportedCapacity | drivers/power/bq27x00_battery.c:952-965 | 1 while the battery is fake; errors pass through; FULL status lifts 96..99 to 100 |
| Bq27Props.CapacityForcingOnlyRaises | drivers/power/bq27x00_battery.c:957-964 | forcing never lowers a capacity and keeps 0..100 within 0..100 |
| Bq27Props.GetProperty | drivers/power/bq27x00_battery.c:906-1001 | with negative cached flags every property but PRESENT is -ENODEV; PRESENT is flags ≥ 0; every one of the 18 properties is stated: voltage, current, energy and the charge counter from fresh reads, the others from the cache with their scaling and error test, HEALTH by the code's bands as written and with UNKNOWN as intended, any other property -EINVAL |
| Bq27Props.AbsentGaugeAnswersOnlyPresent | drivers/power/bq27x00_battery.c:920-942 | with an absent gauge, a read succeeds iff it is PRESENT, and PRESENT reads 0 |
| Bq27Props.HealthFollowsTemperature | drivers/power/bq27x00_battery.c:927-968 | HEALTH updates the fake-battery mark as TEMP does; as intended it is UNKNOWN iff TEMP fails, as written a failed TEMP makes it GOOD |
| Bq27Props.ChargeNowScalesErrors | drivers/power/bq27x00_battery.c:981-983 | a failed charge read is scaled before the error test and reaches the caller as -5000 |
| Bq27Props.UpdateBatteryStatus | drivers/power/bq27x00_battery.c:781-796 | charging, done and not-charging map one-to-one onto CHARGING, FULL and DISCHARGING |
| Bq27Props.FullOnlyAfterChargingDone | drivers/power/bq27x00_battery.c:959-963 | only a "charging done" notice lets a 96..99 capacity be reported as 100 |
| Bq27Firmware.Shorts | drivers/power/bq27x00_battery.c:1470-1472 | every argument is stored as a C short |
| Bq27Firmware.TrimTrailing | drivers/power/bq27x00_battery.c:1468-1474 | the script ends at the last record with an argument; only argument-less records are dropped |
| Bq27Firmware.ParseAsWritten | drivers/power/bq27x00_battery.c:1441-1476 | every record the parser keeps has a known opcode |
| Bq27Firmware.KnownOpsKept | drivers/power/bq27x00_battery.c:1461-1467 | the parsing loop keeps only records with known opcodes |
| Bq27Firmware.Parse | drivers/power/bq27x00_battery.c:1441-1476 | a script is rejected iff a line has an unknown opcode; otherwise it is the trimmed list of records |
| Bq27Firmware.ParseAgrees | drivers/power/bq27x00_battery.c:1441-1476 | without unknown opcodes the written loop yields exactly the known records |
| Bq27Firmware.ParseAsWrittenAgrees | drivers/power/bq27x00_battery.c:1441-1476 | without unknown opcodes the parser as written and as intended agree |
| Bq27Firmware.UnknownOpcodeAsWritten | drivers/power/bq27x00_battery.c:1461-1467 | as written, an unknown opcode leaves the record count unset; the intended parser rejects it |
| Bq27Firmware.Addr7 | drivers/power/bq27x00_battery.c:1499 | the 8-bit address argument is halved into the 7-bit bus address |
| Bq27Firmware.LowBytes | drivers/power/bq27x00_battery.c:1495-1497 | each data argument is sent as its low byte |
| Bq27Firmware.WriteStep | drivers/power/bq27x00_battery.c:1485-1509 | W needs two arguments; it sends the data to the 7-bit address, is skipped off-ROM in ROM mode, and aborts on a refused write |
| Bq27Firmware.ReadStepAsWritten | drivers/power/bq27x00_battery.c:1510-1550 | R/C without arguments take their address from the next record's opcode and their register byte from its length: skipped in ROM mode off the ROM address, aborted on a refused write, stray into the 65534-byte read on an accepted one, and stray without a next record; with one argument the register byte is the next record's opcode, a refused write aborts and an accepted one strays into the 65535-byte read; a well-sized record writes the register and reads n−2 bytes without checking the read; C aborts only on a mismatching byte |
| Bq27Firmware.BareReadSkippedInRom | drivers/power/bq27x00_battery.c:1512-1531 | after any known record a bare R/C line addresses 0x2B, 0x29, 0x21 or 0x2C, so ROM mode skips it; otherwise it aborts iff its write is refused and strays iff it is accepted |
| Bq27Firmware.BareReadInRomScript | drivers/power/bq27x00_battery.c:1480-1566 | in ROM mode `R` then `W 0x16 0 1` completes as written with the one write to 0x0B and the finale; the intended loader rejects it before any transfer |
| Bq27Firmware.ReadLengthAsWritten | drivers/power/bq27x00_battery.c:1533 | the read length is the argument count minus two |
| Bq27Firmware.ShortRecordReadLength | drivers/power/bq27x00_battery.c:1533-1536 | a record with fewer than two arguments asks for 65534 or 65535 bytes, beyond the buffer |
| Bq27Firmware.ReadStep | drivers/power/bq27x00_battery.c:1510-1550 | R/C write the register, read n−2 bytes, and abort on a failed transfer; C also aborts on the first mismatching byte |
| Bq27Firmware.RunRecord | drivers/power/bq27x00_battery.c:1480-1566 | a record only moves the transfer count forward, and the intended semantics never leaves behaviour undefined |
| Bq27Firmware.Execute | drivers/power/bq27x00_battery.c:1480-1566 | records run in order until one aborts; the intended run is never undefined |
| Bq27Firmware.ExecuteAppend | drivers/power/bq27x00_battery.c:1480-1566 | running two scripts back to back runs the first with the second stored after it, and the second only if the first completed, and keeps the transfers made before an abort |
| Bq27Firmware.RomModeStaysOnRomAddress | drivers/power/bq27x00_battery.c:1499-1525 | in ROM mode every transfer goes to the ROM address 0x0B |
| Bq27Firmware.SemanticsAgree | drivers/power/bq27x00_battery.c:1510-1550 | for well-formed records on a device that acknowledges everything, both semantics run alike |
| Bq27Firmware.ReadFailureIgnoredAsWritten | drivers/power/bq27x00_battery.c:1536-1538 | as written, an R record whose read fails still succeeds; the intended one aborts |
| Bq27Firmware.LoadFirmwareAsWritten | drivers/power/bq27x00_battery.c:1422-1578 | with no script there is nothing to do; an unset record position is undefined before any transfer; a completed run appends RESET and IT_ENABLE, an abort gives -EINVAL after the transfers made, a stray access is undefined after them — each an if-and-only-if |
| Bq27Firmware.LoadFirmwareAgrees | drivers/power/bq27x00_battery.c:1422-1578 | with known opcodes, well-sized records and a device that acknowledges every transfer, the load as written equals the intended one |
| Bq27Firmware.LoadFirmware | drivers/power/bq27x00_battery.c:1422-1578 | an unknown opcode gives -EINVAL before any transfer; an abort gives -EINVAL after the transfers made; success appends RESET and IT_ENABLE |
| Bq27Firmware.SuccessEndsWithReset | drivers/power/bq27x00_battery.c:1568-1574 | a successful update ends with RESET then IT_ENABLE, and in ROM mode talks only to the ROM address |
| SteamReport.FieldsTileThePayload | drivers/hid/hid-steam.h:48-68 | the state fields lie back to back from offset 4, quaternion Z at 46, ending at header plus the 44-byte state size |
| SteamReport.DataToVal | drivers/hid/hid-steam.c:569-583 | the little-endian value of the first n bytes, below 2^(8n); more than four bytes give the u32 pattern of -EINVAL |
| SteamReport.DataToValTwoBytes | drivers/hid/hid-steam.c:569-583 | two bytes decode to low + 256·high |
| SteamReport.NegateShort | drivers/hid/hid-steam.c:585-607 | −32768 becomes 32767, v > 0 becomes −v−1, 0 stays, other negatives become −v; the result is a short |
| SteamReport.NegateShortAntitone | drivers/hid/hid-steam.c:597-602 | the negation reverses order; −32768 and −32767 are its only collision |
| SteamReport.NegateShortNeverMinusOne | drivers/hid/hid-steam.c:597-602 | −1 is never produced |
| SteamReport.NegateShortTwice | drivers/hid/hid-steam.c:597-602 | negating twice moves a value one step away from zero, and only 0 is its own negation |
| SteamReport.NegateAt | drivers/hid/hid-steam.c:595-606 | the two bytes decode to the negation of what they held; no other byte changes |
| SteamReport.ClearBit | drivers/hid/hid-steam.c:682-685 | clearing one bit of a byte leaves the other seven as they were |
| SteamReport.ReleaseCenter | drivers/hid/hid-steam.c:682-685 | an edge press on the left pad clears the centre bit (bit 1 of byte 10); nothing else changes |
| SteamReport.RewriteLeftPad | drivers/hid/hid-steam.c:687-700 | a touch zeroes bytes 16–19; otherwise the left Y word is negated and X kept |
| SteamReport.RewriteState | drivers/hid/hid-steam.c:681-703 | the centre release, the left-pad rule and the right Y negation happen, and every other byte is unchanged |
| SteamReport.ParseControllerState | drivers/hid/hid-steam.c:609-707 | a length byte below 44 or a foreign device gives -EINVAL, no inputs -ENODEV, each leaving the buffer untouched; otherwise 0 and the rewrite; the length byte is not compared with the buffer size |
| SteamReport.HeaderUntouched | drivers/hid/hid-steam.c:609-707 | the header, packet number, the first two button bytes, and everything from the triggers on (triggers, accelerometer, gyro, quaternion) are never altered, whatever the outcome |
| SteamReport.ParseControllerWireless | drivers/hid/hid-steam.c:709-768 | CONNECT alone schedules re-initialisation; the three known events return 1; anything else, or a wrong endpoint count, -EINVAL |
| SteamReport.RawEvent | drivers/hid/hid-steam.c:799-846 | another report id or header passes through with 0; missing driver data is -EINVAL; only state reports change the buffer; status gives 1; unknown types -EINVAL |
| SteamReport.OversizedLengthAccepted | drivers/hid/hid-steam.c:830-835 | a 64-byte state report whose length byte is 255 is dispatched and rewritten with 0 |
| SteamReport.RawEventRewritesStateReports | drivers/hid/hid-steam.c:833-835 | a state report is rewritten exactly as the state parser does, and stays well formed with its header |
| SteamCommands.SettingsCommand | drivers/hid/hid-steam.c:486-496 | a settings command carries report id, opcode 0x87 and a length byte of three per setting |
| SteamCommands.DecodeSettingsCommand | drivers/hid/hid-steam.c:486-496 | a command is read back iff its opcode is right and its length covers whole triples within the buffer |
| SteamCommands.TriplesRoundTrip | drivers/hid/hid-steam.c:486-496 | decoding encoded (id, lo, hi) triples gives back the settings, whatever follows them |
| SteamCommands.SettingsRoundTrip | drivers/hid/hid-steam.c:486-496 | a settings command decodes to exactly the settings it was built from |
| SteamCommands.OpcodeCommand | drivers/hid/hid-steam.c:482-512 | an opcode-only command is eight bytes: report id, opcode, zeros |
| SteamCommands.DefaultsEncode | drivers/hid/hid-steam.c:486-496 | the initialisation command has length byte 0x12 and these exact triples |
| SteamCommands.InitSettingsAreDefaults | drivers/hid/hid-steam.h:323-370 | the initialisation asks for left mode 7, right mode 0, smoothing 15, brightness 100, gyro 0x1c and a 1800 s sleep timeout |
| SteamCommands.SteamOps | drivers/hid/hid-steam.c:478-567 | no device or data, or an unknown op, gives -EINVAL with nothing sent; INIT sends clear then settings and resets was_rtp_used; other ops send one 8-byte command |
| SteamCommands.FirstCommandOpcode | drivers/hid/hid-steam.c:521-560 | each operation's first command carries its own opcode |
| SteamCommands.OpsSendDistinctCommands | drivers/hid/hid-steam.c:521-560 | operations are told apart by their first opcode, and only INIT sends a second command, the default settings |
| SteamCommands.AudioCommand | drivers/hid/hid-steam.c:314-318 | PLAY_AUDIO with length 4 and the audio index at byte 3 |
| SteamCommands.SoundSetAsWritten | drivers/hid/hid-steam.c:307-327 | the command goes out iff there is a device and (int)val ≤ 6, carrying its low byte |
| SteamCommands.NegativeSoundAccepted | drivers/hid/hid-steam.c:320 | writing 4294967295 is accepted and plays audio index 255 |
| SteamCommands.SoundSet | drivers/hid/hid-steam.c:307-327 | the command goes out iff 0 ≤ (int)val ≤ 6, always with a valid audio index |
| SteamCommands.SoundSetAgrees | drivers/hid/hid-steam.c:320 | the two setters agree on non-negative values; the corrected one refuses negatives |
| SteamCommands.RtpModeSet | drivers/hid/hid-steam.c:339-359 | the command goes out iff there is a device and 0 ≤ (int)val ≤ 8 |
| SteamCommands.RtpModeSetsRightTrackpad | drivers/hid/hid-steam.c:343-349 | an accepted mode reaches the controller as the right-trackpad setting with that value |
| SteamCommands.UsageSplit | drivers/hid/hid-steam.c:871-873 | a usage code splits into its page and its usage id |
| SteamCommands.InputMappingAsWritten | drivers/hid/hid-steam.c:848-894 | null usage, null field or another collection give −1; non-button pages give 0; button 0 reads before the table |
| SteamCommands.LastEntryUnreachableAsWritten | drivers/hid/hid-steam.c:873-882 | as written, the keymap's last entry is never looked up |
| SteamCommands.UsageZeroReadsOutsideTable | drivers/hid/hid-steam.c:874-882 | button usage 0 passes the guard and the unsigned index `key - 1` is 0xFFFFFFFF, outside the keymap |
| SteamCommands.InputMapping | drivers/hid/hid-steam.c:848-894 | 1 exactly when a used keymap entry usage − 1 is found, 0 for other pages, otherwise −1 |
| SteamCommands.EveryEntryReachable | drivers/hid/hid-steam.c:87-111 | with the intended range, every used keymap entry is reached by exactly one button usage |
| SteamCommands.InputMappingAgrees | drivers/hid/hid-steam.c:873-882 | the two mappings differ only at usage 0 and at the last entry |
| SteamCommands.AnnouncedKeys | drivers/hid/hid-steam.c:1033-1036 | every used keymap entry is announced, and KEY_RESERVED never is |
| SteamCommands.MappedKeysAnnounced | drivers/hid/hid-steam.c:882-886 | every key the mapping hook assigns was announced at setup |
| TegraCpufreq.UsedKhz | drivers/platform/tegra/cpu-tegra12.c:108-109 | the used dvfs rates, converted from Hz to kHz |
| TegraCpufreq.Step | drivers/platform/tegra/cpu-tegra12.c:113-121 | one LP rate adds G Vmin the first time it is reached, then the rate unless it repeats the last entry |
| TegraCpufreq.LpLadder | drivers/platform/tegra/cpu-tegra12.c:107-125 | the LP walk only appends G Vmin or LP rates above the backup rate, and keeps the prefix |
| TegraCpufreq.LpLadderKeepsVmin | drivers/platform/tegra/cpu-tegra12.c:107-125 | once G Vmin is in the table it stays there |
| TegraCpufreq.LpLadderAscending | drivers/platform/tegra/cpu-tegra12.c:107-125 | over a non-decreasing LP ladder the table stays strictly ascending |
| TegraCpufreq.GapFillAsWritten | drivers/platform/tegra/cpu-tegra12.c:135-141 | the fill has n + 1 entries 102 MHz apart, ending at G Vmin and starting at or above the last LP rate |
| TegraCpufreq.GapFrom | drivers/platform/tegra/cpu-tegra12.c:135-141 | the intended fill starts strictly above the last entry, within one step, and ends at G Vmin |
| TegraCpufreq.GapFillRepeatsStart | drivers/platform/tegra/cpu-tegra12.c:135-141 | the written fill equals the intended one, except that it repeats the last LP rate when the gap is a whole number of steps |
| TegraCpufreq.GLadder | drivers/platform/tegra/cpu-tegra12.c:143-152 | the G walk only appends G rates above its start |
| TegraCpufreq.GLadderAscending | drivers/platform/tegra/cpu-tegra12.c:143-152 | the G walk keeps a strictly ascending ladder strictly ascending |
| TegraCpufreq.BuildT124AsWritten | drivers/platform/tegra/cpu-tegra12.c:45-159 | no table iff the backup rate is below 1 MHz, either CPU clock lacks a dvfs ladder, or the G CPU's lowest dvfs rate is below the backup rate |
| TegraCpufreq.GapFillDuplicatesAsWritten | drivers/platform/tegra/cpu-tegra12.c:135-141 | a concrete board whose table repeats 204000 kHz |
| TegraCpufreq.LpPartKeepsVmin | drivers/platform/tegra/cpu-tegra12.c:107-125 | after the LP walk the table holds G Vmin once it has been reached |
| TegraCpufreq.RestAsWritten | drivers/platform/tegra/cpu-tegra12.c:135-152 | after the LP walk, the written code appends the gap fill to G Vmin and then the G ladder; nothing appended is below the last LP rate |
| TegraCpufreq.Rest | drivers/platform/tegra/cpu-tegra12.c:135-152 | the corrected tail appends only rates strictly above the last LP rate, and includes G Vmin when it is not yet reached |
| TegraCpufreq.RestAscending | drivers/platform/tegra/cpu-tegra12.c:135-152 | with an ascending G ladder the corrected tail is strictly ascending |
| TegraCpufreq.BuildT124 | drivers/platform/tegra/cpu-tegra12.c:45-159 | starts backup/4, backup/2, backup; throttle low 2, high count−2; the suspend slot below all later entries; the count below the bound |
| TegraCpufreq.T124BuildsAgreeOnFailure | drivers/platform/tegra/cpu-tegra12.c:66-87 | both builds refuse the same inputs |
| TegraCpufreq.VminInTable | drivers/platform/tegra/cpu-tegra12.c:113-141 | both builds always contain the G rate at minimum voltage |
| TegraCpufreq.T124Ascending | drivers/platform/tegra/cpu-tegra12.c:32-35 | with sorted dvfs ladders the corrected table is strictly ascending, as the header comment demands |
| TegraCpufreq.Granular | drivers/platform/tegra/cpu-tegra12.c:190-197 | 33 entries 204000 + 25500·j, ending at 1020000 |
| TegraCpufreq.BuildT132 | drivers/platform/tegra/cpu-tegra12.c:168-226 | no table iff the dvfs ladder is missing; the G minimum rate is 204 MHz |
| TegraCpufreq.CrossingAtNine | drivers/platform/tegra/cpu-tegra12.c:209-219 | when the first rate above 408 MHz sits at index 9, the last crossing found is index 8 |
| TegraCpufreq.T132Shape | drivers/platform/tegra/cpu-tegra12.c:194-223 | the fixed steps, then only G rates above 1020 MHz; throttle floor and suspend index both at 408 MHz, index 8 |
| TegraCpufreq.TableGetT124 | drivers/platform/tegra/cpu-tegra12.c:53-58 | a built table is returned unchanged; otherwise an automotive part is marked to keep its rate, and the build's outcome decides: no table, the size BUG with its G minimum rate, or the built table returned and kept — built with the code's gap fill as written, the corrected one as intended |
| TegraCpufreq.TableGetKeepsDuplicateAsWritten | drivers/platform/tegra/cpu-tegra12.c:135-141 | as written the board with a whole-step gap gets, keeps and returns a table with 204000 kHz twice |
| TegraCpufreq.TableGetAscendsAsIntended | drivers/platform/tegra/cpu-tegra12.c:32-35 | as intended, for sorted dvfs ladders every table the lookup returns strictly ascends, whether just built or kept from before |
| TegraCpufreq.TableBuiltOnce | drivers/platform/tegra/cpu-tegra12.c:53-55 | once a table is returned, every later call returns it again, whatever the clocks say |
| TegraEmc.StepVote | drivers/platform/tegra/cpu-tegra12.c:350-375 | the vote is 0 or the rate of a step the CPU rate reaches, and 0 when it reaches none |
| TegraEmc.StepVoteMonotone | drivers/platform/tegra/cpu-tegra12.c:350-375 | over a descending step table a higher CPU rate never gets a lower vote |
| TegraEmc.EmcToCpuRatio | drivers/platform/tegra/cpu-tegra12.c:231-253 | ≥ 1.3 GHz gives the EMC maximum; below 275 MHz gives 0; in between, one of the four fixed rates |
| TegraEmc.EmcToCpuRatioMonotone | drivers/platform/tegra/cpu-tegra12.c:239-252 | the ratio vote is its step table and never falls as the CPU rate rises (EMC max ≥ 550 MHz) |
| TegraEmc.RatioIsSteps | drivers/platform/tegra/cpu-tegra12.c:241-252 | the ratio vote equals the step table read from the top |
| TegraEmc.DefaultEmcCpuLimit | drivers/platform/tegra/cpu-tegra12.c:350-375 | ≥ 1734 MHz gives the EMC maximum; below 312 MHz gives 0; in between, 50 to 792 MHz |
| TegraEmc.DefaultEmcCpuLimitMonotone | drivers/platform/tegra/cpu-tegra12.c:355-374 | the default limit never falls as the CPU rate rises (EMC max ≥ 792 MHz) |
| TegraEmc.DefaultStepsDescending | drivers/platform/tegra/cpu-tegra12.c:355-374 | the default thresholds fall strictly and their rates never rise |
| TegraEmc.DefaultIsSteps | drivers/platform/tegra/cpu-tegra12.c:355-374 | the default limit equals its step table read from the top |
| TegraEmc.EmcTableGet | drivers/platform/tegra/cpu-tegra12.c:287-333 | a table is returned iff the property exists, is a nonzero multiple of 8 bytes, and allocation and read succeed; it holds an even, nonzero number of cells |
| TegraEmc.Scan | drivers/platform/tegra/cpu-tegra12.c:340-343 | the scan stops at the first even index whose threshold is above the CPU rate, or at the end |
| TegraEmc.DtEmcCpuLimit | drivers/platform/tegra/cpu-tegra12.c:335-348 | 0 for an empty table or a rate below the first threshold; never above the EMC maximum |
| TegraEmc.DtLimitFromLastReachedPair | drivers/platform/tegra/cpu-tegra12.c:335-348 | with ascending thresholds the limit is min(EMC max, emc·1000) of the last pair whose threshold the rate reaches |
| TegraEmc.EmcCpuLimit | drivers/platform/tegra/cpu-tegra12.c:404-430 | with no cached EMC maximum and no EMC clock the result is -ENODEV as an unsigned long; the table is fetched once and kept, even when the fetch fails; the default steps apply for the DEFAULT source or a failed table, else the DT limit |
| TegraEmc.FailedFetchNotRetried | drivers/platform/tegra/cpu-tegra12.c:416-423 | after a failed fetch, later requests never fetch again and use the default steps |
| TegraEmc.EmcCpuLimitT132 | drivers/platform/tegra/cpu-tegra12.c:377-402 | A03+ parts get 0; early parts get 600 MHz iff the CPU is above 1020 MHz, else 300 MHz; the settle delay happens iff the vote falls |
| TegraEmc.T132VoteMonotone | drivers/platform/tegra/cpu-tegra12.c:391-398 | the vote rises with the CPU rate, and a settle delay only follows a fall from 600 MHz |
| TegraEmc.MselectRate | drivers/platform/tegra/cpu-tegra12.c:448-449 | the mselect rate never exceeds 102 MHz |
| TegraEmc.MselectHalvesCpuRate | drivers/platform/tegra/cpu-tegra12.c:445-448 | up to 204 MHz the rate is half the CPU rate rounded up, in Hz |
| TegraEmc.MselectCapped | drivers/platform/tegra/cpu-tegra12.c:449 | from 204 MHz on (below the 32-bit wrap) the rate is capped at 102 MHz |
| TegraEmc.UpdateMselect | drivers/platform/tegra/cpu-tegra12.c:433-451 | no mselect clock gives -ENODEV; otherwise the capped rate is requested and the clock's answer returned |
| TegraEmc.SetTableSource | drivers/platform/tegra/cpu-tegra12.c:453-461 | DT or DEFAULT is accepted with 0 and stored; any other value returns −1 and leaves the source |
| TegraEmc.DefaultSourceUsesDefaultSteps | drivers/platform/tegra/cpu-tegra12.c:420-423 | after choosing DEFAULT, every limit request uses the default steps, whatever the table holds |
| DoubleTap.FbNotify | drivers/input/touchscreen/dt2w.c:13-36 | only a blank event with data changes the flag: UNBLANK clears it, the four blanking modes set it; the answer is always NOTIFY_OK |
| DoubleTap.FbNotifyIdempotent | drivers/input/touchscreen/dt2w.c:18-33 | a repeated notice leaves the flag as the first one set it |
| DoubleTap.FbRegister | drivers/input/touchscreen/dt2w.c:42-48 | true exactly when registration fails |
| DoubleTap.CalcFeather | drivers/input/touchscreen/dt2w.c:50-59 | the feather is an unsigned 32-bit value |
| DoubleTap.CalcFeatherIsDistance | drivers/input/touchscreen/dt2w.c:50-59 | when the difference fits in an int, the feather is the distance between the coordinates |
| DoubleTap.CalcFeatherSymmetric | drivers/input/touchscreen/dt2w.c:50-59 | the feather is symmetric in its arguments, wrap-around included |
| DoubleTap.Reset | drivers/input/touchscreen/dt2w.c:61-67 | the reset leaves no pending tap and keeps the screen flag |
| DoubleTap.NewTouch | drivers/input/touchscreen/dt2w.c:69-75 | a new touch records (x, y, jiffies) and counts one more touch |
| DoubleTap.DetectTap | drivers/input/touchscreen/dt2w.c:77-103 | screen on: no change. It wakes iff a second tap is close in place and 21..299 jiffies later, then resets. Otherwise the touch becomes the pending one |
| DoubleTap.CountStaysInRange | drivers/input/touchscreen/dt2w.c:61-101 | the touch count starts at 0 and stays 0 or 1 under every touch and notifier event |
| DoubleTap.Run | drivers/input/touchscreen/dt2w.c:77-103 | over any run of touches the touch count stays 0 or 1 |
| DoubleTap.DoubleTapWakes | drivers/input/touchscreen/dt2w.c:82-94 | with the screen off, two close taps 21..299 jiffies apart wake the device |
| DoubleTap.SingleTapNeverWakes | drivers/input/touchscreen/dt2w.c:82-85 | a first tap never wakes the device |
| DoubleTap.WrappedJiffiesRejected | drivers/input/touchscreen/dt2w.c:89-90 | if jiffies wrapped between the taps, the 64-bit difference is huge and the tap is refused |
| SynapticsI2c.PageOf | drivers/input/touchscreen/synaptics_dsx/synaptics_dsx_i2c.c:43 | the page is the 256-byte block holding the address |
| SynapticsI2c.RegisterOf | drivers/input/touchscreen/synaptics_dsx/synaptics_dsx_i2c.c:88 | the register byte is the offset within the page |
| SynapticsI2c.AddressSplits | drivers/input/touchscreen/synaptics_dsx/synaptics_dsx_i2c.c:43-88 | page and register byte recompose to the address, and determine it uniquely |
| SynapticsI2c.SetPage | drivers/input/touchscreen/synaptics_dsx/synaptics_dsx_i2c.c:34-64 | a cached page sends nothing and returns 2; otherwise up to ten [0xFF, page] frames; the cache changes iff one went through; on failure it returns the last attempt's result |
| SynapticsI2c.SetPageIdempotent | drivers/input/touchscreen/synaptics_dsx/synaptics_dsx_i2c.c:44-61 | after a successful selection the same page is served from the cache |
| SynapticsI2c.SetPageSucceedsIffSomeAttempt | drivers/input/touchscreen/synaptics_dsx/synaptics_dsx_i2c.c:47-57 | a page change succeeds iff one of the ten attempts sends the whole frame |
| SynapticsI2c.Transact | drivers/input/touchscreen/synaptics_dsx/synaptics_dsx_i2c.c:92-114 | a page failure gives -EIO with no transfer; otherwise the length after the first completed attempt, or -EIO after ten |
| SynapticsI2c.Read | drivers/input/touchscreen/synaptics_dsx/synaptics_dsx_i2c.c:66-120 | returns the length iff the page is selected and one of ten attempts completes both messages; sends the register byte |
| SynapticsI2c.Write | drivers/input/touchscreen/synaptics_dsx/synaptics_dsx_i2c.c:122-171 | the frame is the register byte then the payload; returns the length iff the page is selected and one of ten attempts completes |
| SynapticsI2c.RetriesFindSuccess | drivers/input/touchscreen/synaptics_dsx/synaptics_dsx_i2c.c:98-114 | a transaction succeeds iff the page is selected and some data attempt within ten completes |
| SynapticsI2c.PageFailureStopsTransfer | drivers/input/touchscreen/synaptics_dsx/synaptics_dsx_i2c.c:92-96 | a failed page selection gives -EIO for reads and writes alike, with no data transfer and the page cache unchanged |

## Left out

- Kernel plumbing is not modelled:
  - locks, workqueues, `msleep`/`mdelay`/`udelay` (T132 has a settle-delay flag instead);
  - `pr_info`/`pr_err`/`dev_err` output and debugfs files;
  - probe/remove, suspend/resume, interrupt and power-supply registration.
- Header values that the named files do not define are assumed, because those headers are not part of this model:
  - `MAX_DVFS_FREQS` is taken as 40.
  - `CPU_EMC_TABLE_SRC_DT` and `CPU_EMC_TABLE_SRC_DEFAULT` are taken as 1 and 2. Only their being distinct matters.
  - The synaptics `PAGE_SELECT_LEN` is taken as 2, the size of the frame it sends.
  - The framebuffer blank modes, the power-supply enumerations and the input key codes are datatypes.
- BQ27x00:
  - the `vmalloc` failure path of `load_firmware` (1437-1439);
  - the ROM-mode probe `is_rom_mode` (1061-1089), which becomes a parameter;
  - the sysfs show functions and the qpassed reporting;
  - the refresh `get_property` may run first (914-917): properties are read from a refreshed device;
  - the `pr_info` register dump.
- Bq27Firmware: the script lexer (`strsep`, `simple_strtol`, the opcode read through `*(int *)`) is abstracted to pre-tokenised lines: a comment, or an opcode character with numeric arguments. A record's stored opcode short is taken as its character's code, which is what a one-character opcode token stores.
- Bq27Firmware.LoadFirmwareAsWritten: what lies in `firmware_data` after the last executed record is taken as unknown (`SendStray`, `Stray`), even where the parser left a trimmed record or an unknown opcode there.
- Bq27Units.Charge: the 32-bit product `raw * 3570` is unbounded here, because register values are at most 16 bits and cannot overflow it.
- Bq27Cache.Snapshot: `timespec` stamps are an abstract clock reading `now`, not a time source.
- Integer width: `unsigned long`, `jiffies` and pointers are 32 bits throughout, as on the 32-bit ARM T124 configuration. The `CONFIG_ARCH_TEGRA_13x_SOC` paths (`TegraCpufreq.BuildT132`, `TegraEmc.EmcCpuLimitT132`) run on arm64, where these are 64 bits; they are modelled with the 32-bit width too. So `TegraEmc.MselectRate`, `TegraEmc.EmcCpuLimit`, `TegraEmc.DtEmcCpuLimit` and `DoubleTap.DetectTap` describe the 32-bit build only.
- Steam Controller:
  - input-device allocation and the `SEND_SENSOR_DATA` reporting path;
  - USB endpoint lookup, which becomes the endpoint count;
  - the null-report check at 806-809;
  - `pr_buffer` and the status report's field reads (the parser returns 1);
  - `steam_init_setup_func` (468-475), which only calls the INIT operation and is covered by `SteamCommands.SteamOps`.
- TegraEmc:
  - `tegra_emc_to_cpu_ratio` keeps its own lazily fetched EMC maximum; here it is the parameter `emcMax`.
  - `get_cpu_emc_limit_table_source` (463-466) only reads the stored source, which is `EmcState.source`.
  - `clk_round_rate` errors are not separated from rates.
  - `of_get_scaling_node` failing is folded into "property missing".
- TegraEmc.MselectHalvesCpuRate: stated only up to 204 MHz, where the cap is not yet reached. Above 8589934 kHz the 32-bit product wraps, and `MselectRate` models that wrap.
- TegraCpufreq:
  - the table's end markers and index fields (61-64, 178-182) are left out; the table is the sequence of frequencies;
  - `preserve_across_suspend` is only recorded;
  - the G CPU minimum rate is returned rather than stored in the clock;
  - `BUG_ON` is an overflow outcome.
- DoubleTap:
  - `fb_notifier_unregister` (38-40) only forwards to the framebuffer core.
  - `DetectTap` asks for `jiffies` below 2^32, because jiffies is an `unsigned long` on the 32-bit build.
  - `DetectTap` takes one `jiffies` value per call. The code reads `jiffies` separately in `new_touch` and twice in the case-1 test (dt2w.c:89-90), so a tick between those reads is not modelled.
  - The signed overflow of `coord - prev_coord` in `calc_feather` is modelled as a two's-complement wrap.
- Synaptics:
  - `parse_dt` and platform-device registration;
  - the I/O mutex;
  - the 20 ms sleeps; only the attempt count is kept.

## Findings

| source | as written | input that shows it | evidently intended | confidence | as-written member | corrected member |
|---|---|---|---|---|---|---|
| drivers/power/bq27x00_battery.c:125-154 | the G3 register table has 28 entries while the update reads indices up to 33 | firmware 0x0324: reading TRUECAP (index 28) runs past the table | the six missing registers marked 0xFF | high (not executed) | Bq27Regs.G3TableTooShort | Bq27Regs.TablesCoverUpdate |
| drivers/power/bq27x00_battery.c:650-656 | `memcmp` over the struct minus `sizeof(int)` skips `sim_temp`, not `current_now` | two refreshes whose second AI read gives 100 then 101 (`Bq27Cache.ConsecutiveRefreshesJitter`) | a current-only change does not replace the cache | high (not executed) | Bq27Cache.CurrentJitterReplacesAsWritten | Bq27Cache.CurrentJitterIgnored |
| drivers/power/bq27x00_battery.c:927-936 | HEALTH set to UNKNOWN is overwritten by the band chain | a failed temperature read reports GOOD | UNKNOWN when the temperature read fails | high (not executed) | Bq27Props.HealthErrorReportsGood | Bq27Props.HealthOf |
| drivers/power/bq27x00_battery.c:1536-1538 | the R/C read's result is discarded and the earlier write's result checked again | an R record whose write succeeds and read fails | a failed read aborts the script | high (not executed) | Bq27Firmware.ReadFailureIgnoredAsWritten | Bq27Firmware.ReadStep |
| drivers/power/bq27x00_battery.c:1533 | an R/C record with fewer than two arguments computes a read length of 65534 or 65535 | the record `R 0x16` | such a record is rejected | medium (not executed) | Bq27Firmware.ShortRecordReadLength | Bq27Firmware.ReadStep |
| drivers/power/bq27x00_battery.c:1461-1467 | an unknown opcode breaks out of the loop before the record count is written | the script `Z 1` then `W 0xAA 0 1` | an unknown opcode rejects the script | high (not executed) | Bq27Firmware.UnknownOpcodeAsWritten | Bq27Firmware.Parse |
| drivers/power/bq27x00_battery.c:1288-1300 | bit 1 of the flags read's return value is checked even when it is an error | a read returning -EIO (bit 1 set) powers the device off | only a successful read with bit 1 set counts | high (not executed) | Bq27Cache.SysDownOnBusError | Bq27Cache.SysDown |
| drivers/hid/hid-steam.c:873-882 | usage ids 0..22 are accepted and looked up at id − 1 | usage 0 indexes entry 0xFFFFFFFF, outside the keymap (the element before it with 32-bit pointers); usage 23 (joystick centre, entry 22) is refused | usage ids 1..23 | high (not executed) | SteamCommands.UsageZeroReadsOutsideTable | SteamCommands.EveryEntryReachable |
| drivers/hid/hid-steam.c:320 | only the upper bound of `(int)val` is checked | writing 4294967295 plays audio index 255 | 0 ≤ val ≤ 6, as for the trackpad mode | high (not executed) | SteamCommands.NegativeSoundAccepted | SteamCommands.SoundSet |
| drivers/platform/tegra/cpu-tegra12.c:135-141 | the gap fill starts at G Vmin − 102000·n, which equals the last LP rate when the gap is a whole number of steps | LP rate 204000 kHz, backup 100000 kHz, G Vmin 306000 kHz gives 204000 twice | a strictly ascending table, as the comment at lines 32-35 requires | high (not executed) | TegraCpufreq.GapFillDuplicatesAsWritten | TegraCpufreq.T124Ascending |

=== FILE: bq27_cache.dfy ===
/** BQ27x00 fuel gauge: the register cache, one refresh of it from the
    gauge (`bq27x00_update`), the rule that decides whether the next
    snapshot replaces the cached one, the poll delay and the SysDown
    interrupt handler. */
module Bq27Cache {
  import opened Common
  import opened Bq27Regs
  import opened Bq27Units

  /** `struct bq27x00_reg_cache`, fields in declaration order. The first 25
      are C `int`s; `timestamp` is the wall-clock stamp of the refresh (an
      abstract clock reading); the rest are 16-bit (`short` or `unsigned
      short`) and hold values in that type's range. */
  datatype Cache = Cache(
    temperature: int, internalTemp: int, timeToEmpty: int, timeToEmptyAvg: int,
    timeToFull: int, chargeFull: int, cycleCount: int, capacity: int,
    rawCapacity: int, flags: int, control: int, voltage: int,
    fullAvailCap: int, remainCap: int, fullChargeCap: int, averageI: int,
    stateOfHealth: int, stateOfCharge: int, instantI: int, rScale: int,
    trueCap: int, trueFcc: int, trueSoc: int, nomAvailCap: int, currentNow: int,
    qMax: int, qPassed: int, dod0: int, qStart: int, timestamp: int,
    dodFinal: int, deltaV: int, maxCurrent: int,
    qPassedHiresInt: int, qPassedHiresFraction: int, maxDodDiff: int,
    ambientTemp: int, regrDod: int, regrRes: int, rnew: int, dodDiff: int,
    sleeptime: int, simTemp: int)

  /** `struct bq27x00_reg_cache cache = {0, }`. */
  const ZeroCache: Cache := Cache(
    0, 0, 0, 0, 0, 0, 0, 0, 0, 0, 0, 0, 0, 0, 0, 0, 0, 0, 0, 0, 0,
    0, 0, 0, 0, 0, 0, 0, 0, 0, 0, 0, 0, 0, 0, 0, 0, 0, 0, 0, 0, 0, 0)

  /** First firmware version with the extended debug registers. */
  const EXTENDED_FW_VERSION: int := L1_604_FW_VERSION

  /** Length of the block read at 0x61 (Qmax, Qpassed, DOD0, Qstart, DODfinal). */
  const BLOCK_61_LEN: nat := 11
  /** Length of the block read at 0x24 (high-resolution Qpassed and the
      impedance-track debug words). */
  const BLOCK_24_LEN: nat := 26

  /** Everything one refresh observes: register reads go through the
      selected table; `bus` answers the first read of a register and
      `reread` the second one within the same refresh (the refresh reads
      AI and TRUESOC twice, and the gauge may answer differently); the
      control word and the two block reads bypass the table (`None` for a
      block read that failed); `now` is the clock reading the snapshot is
      stamped with. */
  datatype Gauge = Gauge(
    now: int,
    table: Option<TableId>,
    bus: RegBus,
    reread: RegBus,
    control: int,
    block61: Option<seq<Byte>>,
    block24: Option<seq<Byte>>)

  predicate WellFormedGauge(g: Gauge)
  {
    (g.block61.Some? ==> |g.block61.value| == BLOCK_61_LEN) &&
    (g.block24.Some? ==> |g.block24.value| == BLOCK_24_LEN)
  }

  function Read(g: Gauge, idx: nat, single: bool): int
    requires idx < REG_COUNT
  {
    RegRead(g.table, idx, g.bus, single)
  }

  /** The second read of a register within one refresh. */
  function Reread(g: Gauge, idx: nat, single: bool): int
    requires idx < REG_COUNT
  {
    RegRead(g.table, idx, g.reread, single)
  }

  /** Signed and unsigned little-endian words of a block read. */
  function S16At(b: seq<Byte>, i: nat): int
    requires i + 1 < |b|
  {
    ToShort(Le16(b[i], b[i + 1]))
  }

  function U16At(b: seq<Byte>, i: nat): int
    requires i + 1 < |b|
  {
    Le16(b[i], b[i + 1])
  }

  /** `bq27x00_battery_read_rsoc`. */
  function RelativeSoc(chip: Chip, g: Gauge): int
  {
    if chip == BQ27500 then Read(g, REG_SOC, false) else Read(g, REG_RSOC, true)
  }

  /** The snapshot `bq27x00_update` builds once the flags read succeeded,
      stamped with the clock reading `now`. */
  function Snapshot(chip: Chip, fwVer: int, g: Gauge, flags: int, now: int): (c: Cache)
    requires WellFormedGauge(g) && flags >= 0
    ensures c.flags == flags && c.timestamp == now
    ensures c.capacity == RelativeSoc(chip, g)
    ensures c.rawCapacity == Read(g, REG_TRUESOC, false) && c.trueSoc == Reread(g, REG_TRUESOC, false)
    ensures c.temperature == Read(g, REG_TEMP, false) && c.internalTemp == Read(g, REG_INT_TEMP, false)
    ensures c.timeToEmpty == Time(Read(g, REG_TTE, false))
    ensures c.timeToEmptyAvg == Time(Read(g, REG_TTES, false))
    ensures c.timeToFull == Time(Read(g, REG_TTF, false))
    ensures c.chargeFull == Charge(chip, Read(g, REG_LMD, false))
    ensures c.cycleCount == Read(g, REG_CC, false) && c.control == g.control
    ensures c.voltage == Read(g, REG_VOLT, false)
    ensures c.nomAvailCap == Read(g, REG_NAC, false) && c.fullAvailCap == Read(g, REG_FAC, false)
    ensures c.fullChargeCap == Read(g, REG_FCC, false) && c.remainCap == Read(g, REG_RM, false)
    ensures c.averageI == Read(g, REG_AI, false) && c.instantI == Read(g, REG_INSTI, false)
    ensures c.stateOfHealth == Read(g, REG_SOH, false) && c.rScale == Read(g, REG_RSCLE, false)
    ensures c.trueCap == Read(g, REG_TRUECAP, false) && c.trueFcc == Read(g, REG_TRUEFCC, false)
    ensures c.stateOfCharge == 0
    ensures chip == BQ27500 ==> c.currentNow == 0
    ensures chip == BQ27000 ==> c.currentNow == Reread(g, REG_AI, false)
    ensures !(fwVer >= EXTENDED_FW_VERSION && g.block61.Some?) ==>
              c.qMax == c.qPassed == c.dod0 == c.qStart == c.dodFinal == 0
    ensures fwVer >= EXTENDED_FW_VERSION && g.block61.Some? ==>
              var b := g.block61.value;
              c.qMax == S16At(b, 1) && c.qPassed == S16At(b, 3) && c.dod0 == U16At(b, 5) &&
              c.qStart == S16At(b, 7) && c.dodFinal == U16At(b, 9)
    ensures fwVer < EXTENDED_FW_VERSION ==> c.maxCurrent == 0
    ensures fwVer >= EXTENDED_FW_VERSION ==> c.maxCurrent == ToU16(Read(g, REG_MAX_CURRENT, false))
    ensures !(fwVer >= EXTENDED_FW_VERSION && g.block24.Some?) ==>
              c.qPassedHiresInt == c.qPassedHiresFraction == c.maxDodDiff == c.ambientTemp == 0 &&
              c.deltaV == c.regrDod == c.regrRes == c.rnew == c.dodDiff == c.sleeptime == c.simTemp == 0
    ensures fwVer >= EXTENDED_FW_VERSION && g.block24.Some? ==>
              var b := g.block24.value;
              c.qPassedHiresInt == U16At(b, 0) && c.qPassedHiresFraction == U16At(b, 3) &&
              c.maxDodDiff == S16At(b, 8) && c.ambientTemp == S16At(b, 10) &&
              c.deltaV == S16At(b, 12) && c.regrDod == U16At(b, 14) &&
              c.regrRes == S16At(b, 16) && c.rnew == S16At(b, 18) &&
              c.dodDiff == S16At(b, 20) && c.sleeptime == U16At(b, 22) && c.simTemp == S16At(b, 24)
  {
    var base := ZeroCache.(
      flags := flags,
      timestamp := now,
      capacity := RelativeSoc(chip, g),
      rawCapacity := Read(g, REG_TRUESOC, false),
      temperature := Read(g, REG_TEMP, false),
      internalTemp := Read(g, REG_INT_TEMP, false),
      timeToEmpty := Time(Read(g, REG_TTE, false)),
      timeToEmptyAvg := Time(Read(g, REG_TTES, false)),
      timeToFull := Time(Read(g, REG_TTF, false)),
      chargeFull := Charge(chip, Read(g, REG_LMD, false)),
      cycleCount := Read(g, REG_CC, false),
      control := g.control,
      voltage := Read(g, REG_VOLT, false),
      nomAvailCap := Read(g, REG_NAC, false),
      fullAvailCap := Read(g, REG_FAC, false),
      fullChargeCap := Read(g, REG_FCC, false),
      averageI := Read(g, REG_AI, false),
      remainCap := Read(g, REG_RM, false),
      stateOfHealth := Read(g, REG_SOH, false),
      instantI := Read(g, REG_INSTI, false),
      rScale := Read(g, REG_RSCLE, false),
      trueCap := Read(g, REG_TRUECAP, false),
      trueFcc := Read(g, REG_TRUEFCC, false),
      trueSoc := Reread(g, REG_TRUESOC, false));
    var withBlock61 :=
      if fwVer >= EXTENDED_FW_VERSION && g.block61.Some? then
        var b := g.block61.value;
        base.(qMax := S16At(b, 1), qPassed := S16At(b, 3), dod0 := U16At(b, 5),
              qStart := S16At(b, 7), dodFinal := U16At(b, 9))
      else base;
    var withMax :=
      if fwVer >= EXTENDED_FW_VERSION then
        withBlock61.(maxCurrent := ToU16(Read(g, REG_MAX_CURRENT, false)))
      else withBlock61;
    var withBlock24 :=
      if fwVer >= EXTENDED_FW_VERSION && g.block24.Some? then
        var b := g.block24.value;
        withMax.(qPassedHiresInt := U16At(b, 0), qPassedHiresFraction := U16At(b, 3),
                 maxDodDiff := S16At(b, 8), ambientTemp := S16At(b, 10),
                 deltaV := S16At(b, 12), regrDod := U16At(b, 14),
                 regrRes := S16At(b, 16), rnew := S16At(b, 18),
                 dodDiff := S16At(b, 20), sleeptime := U16At(b, 22),
                 simTemp := S16At(b, 24))
      else withMax;
    if chip == BQ27500 then withBlock24
    else withBlock24.(currentNow := Reread(g, REG_AI, false))
  }

  /** The comparison the source performs: `memcmp` over the struct minus
      its last `sizeof(int)` bytes. On 32-bit ARM the struct is 144 bytes
      and those last 4 bytes hold `sim_temp` and two bytes of padding, so
      every field except `sim_temp` is compared — `current_now` and the
      timestamp included. */
  predicate SameAsWritten(a: Cache, b: Cache)
  {
    a.(simTemp := 0) == b.(simTemp := 0)
  }

  /** The comparison the comment above the `memcmp` describes: everything
      except the instantaneous `current_now`. */
  predicate SameIgnoringCurrent(a: Cache, b: Cache)
  {
    a.(currentNow := 0) == b.(currentNow := 0)
  }

  /** The replacement rule as written: the new snapshot replaces the cache
      when the compared bytes differ or its capacity is not positive. */
  predicate ReplacesAsWritten(prev: Cache, next: Cache)
  {
    !SameAsWritten(prev, next) || next.capacity <= 0
  }

  /** The replacement rule as intended: a change of `current_now` alone
      does not count. */
  predicate Replaces(prev: Cache, next: Cache)
  {
    !SameIgnoringCurrent(prev, next) || next.capacity <= 0
  }

  /** As written, a snapshot that differs from the cache only in
      `current_now` still replaces it (and notifies the power-supply
      class), contrary to the comment. */
  lemma CurrentJitterReplacesAsWritten()
    ensures var prev := ZeroCache.(capacity := 50, currentNow := 100);
            var next := ZeroCache.(capacity := 50, currentNow := 101);
            SameIgnoringCurrent(prev, next) && ReplacesAsWritten(prev, next)
  {
    var prev := ZeroCache.(capacity := 50, currentNow := 100);
    var next := ZeroCache.(capacity := 50, currentNow := 101);
    assert prev.(simTemp := 0).currentNow != next.(simTemp := 0).currentNow;
  }

  /** With the intended comparison a change of `current_now` alone never
      replaces a cache whose capacity is positive, and a change of any other
      field always does. */
  lemma CurrentJitterIgnored(prev: Cache, next: Cache)
    ensures next.capacity > 0 && next == prev.(currentNow := next.currentNow) ==> !Replaces(prev, next)
    ensures next.(currentNow := 0) != prev.(currentNow := 0) ==> Replaces(prev, next)
  {
  }

  /** What a refresh leaves behind: the cache, whether it was replaced
      (`power_supply_changed` is called exactly then), the design
      capacity, and the `fake_battery` mark the temperature read at the end
      of every refresh leaves. */
  datatype UpdateOutcome = UpdateOutcome(cache: Cache, changed: bool, chargeDesignFull: int, fakeBattery: bool)

  /** The snapshot of one refresh: a failed flags read leaves an all-zero
      snapshot carrying the negative flags. */
  function Fresh(chip: Chip, fwVer: int, g: Gauge): (c: Cache)
    requires WellFormedGauge(g)
    ensures Read(g, REG_FLAGS, false) < 0 ==> c == ZeroCache.(flags := Read(g, REG_FLAGS, false))
    ensures c.flags == Read(g, REG_FLAGS, false)
  {
    var flags := Read(g, REG_FLAGS, false);
    if flags >= 0 then Snapshot(chip, fwVer, g, flags, g.now) else ZeroCache.(flags := flags)
  }

  /** The replacement rule under either semantics. */
  predicate ReplacesUnder(sem: Semantics, prev: Cache, next: Cache)
  {
    if sem == AsWritten then ReplacesAsWritten(prev, next) else Replaces(prev, next)
  }

  /** `bq27x00_update`: read a snapshot; replace the cache by the rule of
      `sem` (as written: every byte but `sim_temp` compared; intended:
      `current_now` ignored); read the design capacity once, only after a
      good flags read; finally convert the temperature of the cache now
      held, which sets or clears `fake_battery` (`translate` is the board's
      thermistor hook, `fakeBattery` the mark before the refresh). */
  function Update(sem: Semantics, chip: Chip, fwVer: int, g: Gauge, prev: Cache, chargeDesignFull: int,
                  translate: Option<int -> int>, fakeBattery: bool): (r: UpdateOutcome)
    requires WellFormedGauge(g)
    ensures sem == AsWritten ==> (r.changed <==> ReplacesAsWritten(prev, Fresh(chip, fwVer, g)))
    ensures sem == Intended ==> (r.changed <==> Replaces(prev, Fresh(chip, fwVer, g)))
    ensures r.cache == (if r.changed then Fresh(chip, fwVer, g) else prev)
    ensures chargeDesignFull > 0 || Read(g, REG_FLAGS, false) < 0 ==> r.chargeDesignFull == chargeDesignFull
    ensures chargeDesignFull <= 0 && Read(g, REG_FLAGS, false) >= 0 ==>
              r.chargeDesignFull == Ilmd(chip, Read(g, IlmdRegister(chip).0, IlmdRegister(chip).1))
    ensures r.fakeBattery == BatteryTemperature(chip, r.cache.temperature, r.cache.internalTemp, translate, fakeBattery).fakeBattery
  {
    var next := Fresh(chip, fwVer, g);
    var changed := ReplacesUnder(sem, prev, next);
    var design :=
      if next.flags >= 0 && chargeDesignFull <= 0 then
        Ilmd(chip, Read(g, IlmdRegister(chip).0, IlmdRegister(chip).1))
      else chargeDesignFull;
    var cache := if changed then next else prev;
    var temp := BatteryTemperature(chip, cache.temperature, cache.internalTemp, translate, fakeBattery);
    UpdateOutcome(cache, changed, design, temp.fakeBattery)
  }

  /** The two refreshes differ only on a snapshot whose sole change is in
      `current_now` (or `sim_temp`): there the code as written replaces the
      cache and notifies, and the intended rule keeps it when the capacity
      is positive. */
  lemma UpdatesAgreeBeyondJitter(chip: Chip, fwVer: int, g: Gauge, prev: Cache, design: int,
                                  translate: Option<int -> int>, fake: bool)
    requires WellFormedGauge(g)
    ensures var next := Fresh(chip, fwVer, g);
            next.currentNow == prev.currentNow && next.simTemp == prev.simTemp ==>
              Update(AsWritten, chip, fwVer, g, prev, design, translate, fake) == Update(Intended, chip, fwVer, g, prev, design, translate, fake)
    ensures var next := Fresh(chip, fwVer, g);
            next.capacity > 0 && next == prev.(currentNow := next.currentNow) && next.currentNow != prev.currentNow ==>
              Update(AsWritten, chip, fwVer, g, prev, design, translate, fake).changed &&
              !Update(Intended, chip, fwVer, g, prev, design, translate, fake).changed
  {
    var next := Fresh(chip, fwVer, g);
    var u1 := Update(AsWritten, chip, fwVer, g, prev, design, translate, fake);
    var u2 := Update(Intended, chip, fwVer, g, prev, design, translate, fake);
    if next.currentNow == prev.currentNow && next.simTemp == prev.simTemp {
      RulesAgreeBeyondJitter(prev, next);
      assert u1.changed == u2.changed;
      assert u1.cache == u2.cache;
      OutcomesAgree(u1, u2);
    }
    if next.capacity > 0 && next == prev.(currentNow := next.currentNow) && next.currentNow != prev.currentNow {
      assert prev.(simTemp := 0).currentNow != next.(simTemp := 0).currentNow;
    }
  }

  /** Outcomes with the same fields are the same outcome. */
  lemma OutcomesAgree(u1: UpdateOutcome, u2: UpdateOutcome)
    requires u1.cache == u2.cache && u1.changed == u2.changed
    requires u1.chargeDesignFull == u2.chargeDesignFull && u1.fakeBattery == u2.fakeBattery
    ensures u1 == u2
  {
  }

  /** The two comparisons agree on snapshots whose `current_now` and
      `sim_temp` equal the cache's. */
  lemma RulesAgreeBeyondJitter(prev: Cache, next: Cache)
    requires next.currentNow == prev.currentNow && next.simTemp == prev.simTemp
    ensures ReplacesAsWritten(prev, next) <==> Replaces(prev, next)
  {
    if SameAsWritten(prev, next) {
      assert next == next.(simTemp := 0).(simTemp := next.simTemp);
      assert prev == prev.(simTemp := 0).(simTemp := prev.simTemp);
    }
    if SameIgnoringCurrent(prev, next) {
      assert next == next.(currentNow := 0).(currentNow := next.currentNow);
      assert prev == prev.(currentNow := 0).(currentNow := prev.currentNow);
    }
  }

  /** A gauge that answers only the second reads differently gives the
      same snapshot up to `current_now` (when the TRUESOC reread agrees). */
  lemma RereadMovesOnlyCurrent(chip: Chip, fwVer: int, g: Gauge, reread: RegBus)
    requires WellFormedGauge(g)
    requires RegRead(g.table, REG_TRUESOC, reread, false) == Reread(g, REG_TRUESOC, false)
    ensures var g2 := g.(reread := reread);
            Fresh(chip, fwVer, g2) == Fresh(chip, fwVer, g).(currentNow := Fresh(chip, fwVer, g2).currentNow)
  {
  }

  /** Two refreshes of an older part on the G3 table whose gauge answers
      the second AI read with 100 and then with 101, everything else
      reading 50, give
      snapshots that differ only in `current_now`: as written the second
      refresh replaces the cache and notifies, as intended it does not. */
  lemma ConsecutiveRefreshesJitter()
    ensures var ai := Table(G3)[REG_AI];
            var g1 := Gauge(0, Some(G3), (a: Byte, single: bool) => 50,
                            (a: Byte, single: bool) => if a == ai then 100 else 50, 0, None, None);
            var g2 := g1.(reread := (a: Byte, single: bool) => if a == ai then 101 else 50);
            var prev := Fresh(BQ27000, 0, g1);
            && Fresh(BQ27000, 0, g2) == prev.(currentNow := 101) && prev.currentNow == 100
            && Update(AsWritten, BQ27000, 0, g2, prev, 1, None, false).changed
            && !Update(Intended, BQ27000, 0, g2, prev, 1, None, false).changed
  {
    var ai := Table(G3)[REG_AI];
    var r1 := (a: Byte, single: bool) => if a == ai then 100 else 50;
    var r2 := (a: Byte, single: bool) => if a == ai then 101 else 50;
    var g1 := Gauge(0, Some(G3), (a: Byte, single: bool) => 50, r1, 0, None, None);
    var g2 := g1.(reread := r2);
    assert ai != INVALID_REG_ADDR && Table(G3)[REG_TRUESOC] == INVALID_REG_ADDR;
    assert Table(G3)[REG_FLAGS] != INVALID_REG_ADDR && Table(G3)[REG_RSOC] != INVALID_REG_ADDR;
    assert Read(g1, REG_FLAGS, false) == 50 && Read(g2, REG_FLAGS, false) == 50;
    assert Reread(g1, REG_AI, false) == 100 && Reread(g2, REG_AI, false) == 101;
    var prev := Fresh(BQ27000, 0, g1);
    var next := Fresh(BQ27000, 0, g2);
    assert prev.currentNow == 100 && next.currentNow == 101;
    assert next.capacity == RelativeSoc(BQ27000, g2) == 50;
    RereadMovesOnlyCurrent(BQ27000, 0, g1, r2);
    UpdatesAgreeBeyondJitter(BQ27000, 0, g2, prev, 1, None, false);
  }

  /** A failed flags read always replaces the cache with the all-zero
      snapshot: negative flags, capacity 0. Its temperature of 0 K lies far
      below the thermistor floor, so without a translation hook the
      battery is then marked fake. */
  lemma FailedFlagsReplaceCache(sem: Semantics, chip: Chip, fwVer: int, g: Gauge, prev: Cache, design: int,
                                translate: Option<int -> int>, fake: bool)
    requires WellFormedGauge(g) && Read(g, REG_FLAGS, false) < 0
    ensures var r := Update(sem, chip, fwVer, g, prev, design, translate, fake);
            r.changed && r.cache.flags < 0 && r.cache.capacity == 0 &&
            r.cache == ZeroCache.(flags := Read(g, REG_FLAGS, false))
    ensures translate.None? ==> Update(sem, chip, fwVer, g, prev, design, translate, fake).fakeBattery
  {
    TemperatureFallbackThreshold(chip, 0, 0, fake);
  }

  /** The stamp is part of both comparisons, so a successful refresh at a
      clock reading other than the cached stamp always replaces the cache:
      the comparison can only suppress a refresh whose clock did not move. */
  lemma AdvancedClockReplacesCache(sem: Semantics, chip: Chip, fwVer: int, g: Gauge, prev: Cache, design: int,
                                    translate: Option<int -> int>, fake: bool)
    requires WellFormedGauge(g) && Read(g, REG_FLAGS, false) >= 0 && g.now != prev.timestamp
    ensures Update(sem, chip, fwVer, g, prev, design, translate, fake).changed
  {
    var next := Fresh(chip, fwVer, g);
    assert next.timestamp == g.now;
    assert next.(currentNow := 0).timestamp != prev.(currentNow := 0).timestamp;
    assert next.(simTemp := 0).timestamp != prev.(simTemp := 0).timestamp;
  }

  /** Refreshing twice from an unchanged gauge whose capacity is positive
      leaves the second refresh without effect, under either rule: the
      cache and the fake mark stay as the first refresh left them. */
  lemma UpdateSettles(sem: Semantics, chip: Chip, fwVer: int, g: Gauge, prev: Cache, design: int,
                      translate: Option<int -> int>, fake: bool)
    requires WellFormedGauge(g)
    requires Fresh(chip, fwVer, g).capacity > 0
    ensures var r1 := Update(sem, chip, fwVer, g, prev, design, translate, fake);
            var r2 := Update(sem, chip, fwVer, g, r1.cache, r1.chargeDesignFull, translate, r1.fakeBattery);
            !r2.changed && r2.cache == r1.cache && r2.fakeBattery == r1.fakeBattery
  {
    var next := Fresh(chip, fwVer, g);
    var r1 := Update(sem, chip, fwVer, g, prev, design, translate, fake);
    KeptCacheSettles(sem, prev, next, r1.cache);
    var r2 := Update(sem, chip, fwVer, g, r1.cache, r1.chargeDesignFull, translate, r1.fakeBattery);
    assert !r2.changed && r2.cache == r1.cache;
    TemperatureMarkSettles(chip, r1.cache.temperature, r1.cache.internalTemp, translate, fake);
  }

  /** The cache a refresh keeps compares equal to the snapshot it was
      refreshed from, so that snapshot does not replace it again. */
  lemma KeptCacheSettles(sem: Semantics, prev: Cache, next: Cache, kept: Cache)
    requires next.capacity > 0
    requires kept == (if ReplacesUnder(sem, prev, next) then next else prev)
    ensures !ReplacesUnder(sem, kept, next)
  {
    if !ReplacesUnder(sem, prev, next) {
      if sem == AsWritten {
        assert SameAsWritten(prev, next);
      } else {
        assert SameIgnoringCurrent(prev, next);
      }
    }
  }

  /** Converting the same temperature again leaves the fake mark where the
      first conversion put it. */
  lemma TemperatureMarkSettles(chip: Chip, temperature: int, internalTemp: int, translate: Option<int -> int>, fake: bool)
    ensures var once := BatteryTemperature(chip, temperature, internalTemp, translate, fake).fakeBattery;
            BatteryTemperature(chip, temperature, internalTemp, translate, once).fakeBattery == once
  {
  }

  /** Capacity below which the poll interval is capped at 20 s. */
  const LOW_CAPACITY: int := 20
  const LOW_CAPACITY_POLL: nat := 20

  /** `bq27x00_battery_poll`'s delay before the next poll, in seconds:
      `None` when polling is disabled (interval 0: no refresh and no
      requeue). */
  function PollDelay(interval: nat, capacity: int): (d: Option<nat>)
    ensures interval == 0 <==> d.None?
    ensures d.Some? ==> 1 <= d.value <= interval
    ensures d.Some? && capacity < LOW_CAPACITY ==> d.value == if interval < 20 then interval else 20
    ensures d.Some? && capacity >= LOW_CAPACITY ==> d.value == interval
  {
    if interval == 0 then None
    else if capacity < LOW_CAPACITY then Some(if LOW_CAPACITY_POLL < interval then LOW_CAPACITY_POLL else interval)
    else Some(if 1 > interval then 1 else interval)
  }

  /** A low battery is never polled less often than a healthy one. */
  lemma LowBatteryPollsSooner(interval: nat, low: int, high: int)
    requires interval > 0 && low < LOW_CAPACITY <= high
    ensures PollDelay(interval, low).value <= PollDelay(interval, high).value
    ensures PollDelay(interval, low).value <= LOW_CAPACITY_POLL
  {
  }

  /** One poll: refresh (only when polling is enabled), then the delay
      computed from the refreshed capacity. */
  datatype PollOutcome = PollOutcome(update: Option<UpdateOutcome>, delay: Option<nat>)

  function Poll(sem: Semantics, interval: nat, chip: Chip, fwVer: int, g: Gauge, prev: Cache, design: int,
                translate: Option<int -> int>, fake: bool): (r: PollOutcome)
    requires WellFormedGauge(g)
    ensures interval == 0 <==> r.update.None?
    ensures interval == 0 ==> r.delay.None?
    ensures r.update.Some? ==> r.update.value == Update(sem, chip, fwVer, g, prev, design, translate, fake)
    ensures r.update.Some? ==> r.delay == PollDelay(interval, r.update.value.cache.capacity)
  {
    if interval == 0 then PollOutcome(None, None)
    else
      var u := Update(sem, chip, fwVer, g, prev, design, translate, fake);
      PollOutcome(Some(u), PollDelay(interval, u.cache.capacity))
  }

  /** Flags bit 1: the gauge requests a system shutdown. */
  const SYSDOWN_BIT: nat := 1

  /** What the SysDown interrupt handler does: the sequence of states it
      gives the poweroff switch, and whether it requeues the poll at once. */
  datatype SysDownAction = SysDownAction(switchStates: seq<int>, requeueNow: bool)

  /** `soc_int_irq_threaded_handler` as written: it tests bit 1 of whatever
      the flags read returned, an errno included. */
  function SysDownAsWritten(flagsRead: int): (r: SysDownAction)
    ensures Bit(flagsRead, SYSDOWN_BIT) ==> r == SysDownAction([0, 1], true)
    ensures !Bit(flagsRead, SYSDOWN_BIT) ==> r == SysDownAction([0], false)
  {
    if Bit(flagsRead, SYSDOWN_BIT) then SysDownAction([0, 1], true)
    else SysDownAction([0], false)
  }

  /** As written, an I/O error on the flags read (-EIO, whose two's
      complement has bit 1 set) pulses the poweroff switch. */
  lemma SysDownOnBusError()
    ensures SysDownAsWritten(-EIO) == SysDownAction([0, 1], true)
    ensures SysDownAsWritten(-ENODEV) == SysDownAction([0], false)
  {
    assert Pow2(1) == 2;
    assert (-EIO / 2) % 2 == 1;
    assert (-ENODEV / 2) % 2 == 0;
  }

  /** The handler with the flags read's error path respected: only a
      successful read with the SysDown bit set pulses the switch. */
  function SysDown(flagsRead: int): (r: SysDownAction)
    ensures r.requeueNow <==> flagsRead >= 0 && Bit(flagsRead, SYSDOWN_BIT)
    ensures r.requeueNow ==> r.switchStates == [0, 1]
    ensures !r.requeueNow ==> r.switchStates == [0]
    ensures r.switchStates[0] == 0
  {
    if flagsRead >= 0 && Bit(flagsRead, SYSDOWN_BIT) then SysDownAction([0, 1], true)
    else SysDownAction([0], false)
  }

  /** The two handlers agree on every successful read. */
  lemma SysDownAgreesOnGoodReads(flagsRead: int)
    requires flagsRead >= 0
    ensures SysDown(flagsRead) == SysDownAsWritten(flagsRead)
  {
  }
}

=== FILE: bq27_firmware.dfy ===
/** BQ27x00 fuel gauge: the firmware-update script interpreter
    (`load_firmware`). A script is a list of lines; each non-comment line is
    an opcode character and numeric arguments:
      W addr b1 .. bn      write bytes b1..bn to the 7-bit address addr>>1
      R addr reg n1 .. nk  write reg, then read k bytes
      C addr reg e1 .. ek  as R, then compare the bytes read with e1..ek
      X ms                 delay
    The I2C adapter is an abstract device: transfer number k succeeds when
    `accepts(k)` holds, and byte j of the buffer after transfer k is
    `byteAt(k, j)`. */
module Bq27Firmware {
  import opened Common
  import opened Bq27Regs

  /** The 7-bit address the gauge answers on in ROM (update) mode. */
  const ROM_ADDR: int := 0x0B
  /** Size of the staging buffer `data[MAX_DATA_LEN - 2]`. */
  const DATA_BUF_LEN: int := 198

  /** A script line after tokenising: a comment (leading ';'), or an opcode
      character with the numeric values of its arguments. */
  datatype Line = Comment | Tokens(op: char, args: seq<int>)

  /** A parsed record: opcode and arguments as stored (C `short`). */
  datatype Record = Record(op: char, args: seq<int>)

  predicate KnownOp(c: char)
  {
    c == 'W' || c == 'R' || c == 'C' || c == 'X'
  }

  function Shorts(xs: seq<int>): (r: seq<int>)
    ensures |r| == |xs|
    ensures forall j :: 0 <= j < |xs| ==> r[j] == ToShort(xs[j])
  {
    if |xs| == 0 then [] else [ToShort(xs[0])] + Shorts(xs[1..])
  }

  /** Records after the last one with at least one argument are never
      executed: the parser only advances `firmware_size` past records that
      have arguments. */
  function TrimTrailing(rs: seq<Record>): (r: seq<Record>)
    ensures |r| <= |rs| && r == rs[..|r|]
    ensures |r| > 0 ==> |r[|r| - 1].args| > 0
    ensures forall j :: |r| <= j < |rs| ==> |rs[j].args| == 0
  {
    if |rs| == 0 then []
    else if |rs[|rs| - 1].args| > 0 then rs
    else TrimTrailing(rs[..|rs| - 1])
  }

  /** The result of parsing as written: the records, or the point where the
      parser takes the next record's position from a length slot nothing
      wrote (an unknown opcode breaks out before its length is stored). */
  datatype ParseOutcome = Script(records: seq<Record>) | LengthUnset

  /** The parsing loop as written. `pending` records that a comment line
      has stored the length -2 at the current position, which is all an
      unknown opcode at that position can then pick up: it advances by 0
      and the next line overwrites it. */
  function ParseLinesAsWritten(lines: seq<Line>, pending: bool): (r: ParseOutcome)
    decreases |lines|
  {
    if |lines| == 0 then Script([])
    else match lines[0]
      case Comment => ParseLinesAsWritten(lines[1..], true)
      case Tokens(op, args) =>
        if KnownOp(op) then
          match ParseLinesAsWritten(lines[1..], false)
          case Script(rs) => Script([Record(op, Shorts(args))] + rs)
          case LengthUnset => LengthUnset
        else if pending then ParseLinesAsWritten(lines[1..], true)
        else LengthUnset
  }

  predicate AllKnown(rs: seq<Record>)
  {
    forall j :: 0 <= j < |rs| ==> KnownOp(rs[j].op)
  }

  function ParseAsWritten(lines: seq<Line>): (r: ParseOutcome)
    ensures r.Script? ==> AllKnown(r.records)
  {
    match ParseLinesAsWritten(lines, false)
    case Script(rs) => KnownOpsKept(lines, false); Script(TrimTrailing(rs))
    case LengthUnset => LengthUnset
  }

  lemma {:induction false} KnownOpsKept(lines: seq<Line>, pending: bool)
    ensures ParseLinesAsWritten(lines, pending).Script? ==> AllKnown(ParseLinesAsWritten(lines, pending).records)
    decreases |lines|
  {
    if |lines| > 0 {
      match lines[0]
      case Comment => KnownOpsKept(lines[1..], true);
      case Tokens(op, args) =>
        if KnownOp(op) {
          KnownOpsKept(lines[1..], false);
          match ParseLinesAsWritten(lines[1..], false)
          case Script(rs) =>
            var all := [Record(op, Shorts(args))] + rs;
            assert forall j :: 0 < j < |all| ==> all[j] == rs[j - 1];
            assert ParseLinesAsWritten(lines, pending) == Script(all);
          case LengthUnset =>
        } else if pending {
          KnownOpsKept(lines[1..], true);
        }
    }
  }

  predicate HasUnknownOp(lines: seq<Line>)
  {
    exists j :: 0 <= j < |lines| && lines[j].Tokens? && !KnownOp(lines[j].op)
  }

  /** The records of the known-opcode lines, in order. */
  function KnownRecords(lines: seq<Line>): (r: seq<Record>)
    ensures |r| <= |lines|
    ensures forall j :: 0 <= j < |r| ==> KnownOp(r[j].op)
  {
    if |lines| == 0 then []
    else match lines[0]
      case Comment => KnownRecords(lines[1..])
      case Tokens(op, args) =>
        if KnownOp(op) then [Record(op, Shorts(args))] + KnownRecords(lines[1..])
        else KnownRecords(lines[1..])
  }

  /** Parsing as intended: a line with an unknown opcode rejects the
      script. */
  function Parse(lines: seq<Line>): (r: Option<seq<Record>>)
    ensures r.None? <==> HasUnknownOp(lines)
    ensures r.Some? ==> r.value == TrimTrailing(KnownRecords(lines))
  {
    if HasUnknownOp(lines) then None else Some(TrimTrailing(KnownRecords(lines)))
  }

  /** On scripts without unknown opcodes the two parsers agree. */
  lemma {:induction false} ParseAgrees(lines: seq<Line>, pending: bool)
    requires !HasUnknownOp(lines)
    ensures ParseLinesAsWritten(lines, pending) == Script(KnownRecords(lines))
    decreases |lines|
  {
    if |lines| > 0 {
      assert !HasUnknownOp(lines[1..]) by {
        forall j | 0 <= j < |lines[1..]| && lines[1..][j].Tokens?
          ensures KnownOp(lines[1..][j].op)
        {
          assert lines[1..][j] == lines[j + 1];
        }
      }
      match lines[0]
      case Comment => ParseAgrees(lines[1..], true);
      case Tokens(op, args) =>
        assert KnownOp(op) by { assert lines[0].Tokens?; }
        ParseAgrees(lines[1..], false);
    }
  }

  lemma ParseAsWrittenAgrees(lines: seq<Line>)
    requires !HasUnknownOp(lines)
    ensures ParseAsWritten(lines) == Script(Parse(lines).value)
  {
    ParseAgrees(lines, false);
  }

  /** As written, an unknown opcode on the first line leaves the next
      record's position undefined; after a comment, the same line is
      silently dropped. The intended parser rejects both scripts. */
  lemma UnknownOpcodeAsWritten()
    ensures ParseAsWritten([Tokens('Z', [1]), Tokens('W', [0xAA, 0, 1])]) == LengthUnset
    ensures ParseAsWritten([Comment, Tokens('Z', [1]), Tokens('W', [0xAA, 0, 1])])
            == Script([Record('W', [0xAA, 0, 1])])
    ensures Parse([Tokens('Z', [1]), Tokens('W', [0xAA, 0, 1])]).None?
    ensures Parse([Comment, Tokens('Z', [1]), Tokens('W', [0xAA, 0, 1])]).None?
  {
    var s1 := [Tokens('Z', [1]), Tokens('W', [0xAA, 0, 1])];
    var s2 := [Comment, Tokens('Z', [1]), Tokens('W', [0xAA, 0, 1])];
    assert s1[0].Tokens? && !KnownOp(s1[0].op);
    assert s2[1].Tokens? && !KnownOp(s2[1].op);
    assert s2[1..] == s1;
    assert s1[1..] == [Tokens('W', [0xAA, 0, 1])];
    assert s1[1..][1..] == [];
    assert Shorts([0xAA, 0, 1]) == [0xAA, 0, 1];
  }

  /** What a script does on the bus. */
  datatype Transfer =
    | Send(addr: int, bytes: seq<Byte>)
    | SendStray(addr: int)
    | Receive(addr: int, len: int)
    | Control(subcmd: int)

  datatype Device = Device(accepts: nat -> bool, byteAt: (nat, nat) -> Byte)

  /** `short >> 1` (arithmetic) stored into the 16-bit `msg.addr`. */
  function Addr7(a: int): (r: int)
    ensures 0 <= r < 0x1_0000
    ensures 0 <= a < 0x2_0000 ==> r == a / 2
  {
    ToU16(a / 2)
  }

  /** Shorts stored into `unsigned char`. */
  function LowBytes(xs: seq<int>): (r: seq<Byte>)
    ensures |r| == |xs|
    ensures forall j :: 0 <= j < |xs| ==> r[j] == xs[j] % 256
  {
    if |xs| == 0 then [] else [xs[0] % 256] + LowBytes(xs[1..])
  }

  /** The bytes of read transfer `k` equal the expected values. */
  predicate Matches(dev: Device, k: nat, wanted: seq<int>)
  {
    forall j :: 0 <= j < |wanted| ==> dev.byteAt(k, j) == wanted[j]
  }

  predicate Skipped(rom: bool, r: Record)
    requires |r.args| > 0
  {
    rom && Addr7(r.args[0]) != ROM_ADDR
  }

  /** One record's effect: the transfers it attempted and whether the
      script goes on (with the next transfer number), aborts with -EINVAL,
      or reaches memory outside its record or buffer. */
  datatype Step = Next(sent: seq<Transfer>, k: nat) | Abort(sent: seq<Transfer>) | Stray(sent: seq<Transfer>)

  /** A W record: at least two arguments; the bytes after the address go
      out in one write (skipped in ROM mode unless addressed to the ROM). */
  function WriteStep(sem: Semantics, r: Record, rom: bool, dev: Device, k: nat): (s: Step)
    requires r.op == 'W'
    ensures |r.args| <= 1 ==> s == Abort([])
    ensures s.Next? && s.sent != [] ==>
              s.sent == [Send(Addr7(r.args[0]), LowBytes(r.args[1..]))] && dev.accepts(k) && s.k == k + 1
    ensures s.Next? && s.sent == [] ==> rom && Addr7(r.args[0]) != ROM_ADDR && s.k == k
    ensures s.Abort? && |r.args| >= 2 && |r.args| - 1 <= DATA_BUF_LEN ==>
              s.sent == [Send(Addr7(r.args[0]), LowBytes(r.args[1..]))] && !dev.accepts(k)
  {
    if |r.args| <= 1 then Abort([])
    else if |r.args| - 1 > DATA_BUF_LEN then (if sem == AsWritten then Stray([]) else Abort([]))
    else if Skipped(rom, r) then Next([], k)
    else
      var t := Send(Addr7(r.args[0]), LowBytes(r.args[1..]));
      if dev.accepts(k) then Next([t], k + 1) else Abort([t])
  }

  /** As written, the read length of an R/C record is its argument count
      minus two, stored into the 16-bit `msg.len`. */
  function ReadLengthAsWritten(argCount: nat): (len: int)
    ensures 2 <= argCount < 0x1_0002 ==> len == argCount - 2
  {
    ToU16(argCount - 2)
  }

  /** A record with fewer than two arguments asks for 65534 or 65535
      bytes, far beyond the staging buffer. */
  lemma ShortRecordReadLength()
    ensures ReadLengthAsWritten(1) == 65535 && ReadLengthAsWritten(0) == 65534
    ensures ReadLengthAsWritten(1) > DATA_BUF_LEN
  {
  }

  /** The short a record's opcode is stored as, which is where the record
      before it reads past its own end: the opcode's character code (the
      high byte holds the terminator after a one-character opcode token). */
  function StoredOp(f: Record): int
  {
    f.op as int
  }

  /** An R or C record as written: the register write, then a read of
      `ReadLengthAsWritten` bytes whose outcome is not checked (the test
      after it looks at the write's result again). `follower` is the record
      stored right after this one, when the script has one. A record
      without arguments takes its address from the follower's opcode and
      its register byte from the follower's length; one with a single
      argument takes its register byte from the follower's opcode. In both
      the ROM-mode skip and a refused write behave as usual, and an
      accepted write goes on to read 65534 or 65535 bytes into the buffer
      (`ShortRecordReadLength`), which is `Stray`. Without a follower the
      missing values lie beyond the script (`Stray`, `SendStray`). */
  function ReadStepAsWritten(r: Record, follower: Option<Record>, rom: bool, dev: Device, k: nat): (s: Step)
    requires r.op == 'R' || r.op == 'C'
    ensures |r.args| == 0 && follower.None? ==> s == Stray([])
    ensures |r.args| == 0 && follower.Some? ==>
              var addr := Addr7(StoredOp(follower.value));
              var w := Send(addr, [|follower.value.args| % 256]);
              s == (if rom && addr != ROM_ADDR then Next([], k) else if dev.accepts(k) then Stray([w]) else Abort([w]))
    ensures |r.args| == 1 && !Skipped(rom, r) ==>
              var addr := Addr7(r.args[0]);
              var w := if follower.Some? then Send(addr, [StoredOp(follower.value) % 256]) else SendStray(addr);
              s == (if dev.accepts(k) then Stray([w]) else Abort([w]))
    ensures |r.args| >= 2 && |r.args| - 2 <= DATA_BUF_LEN && !Skipped(rom, r) && dev.accepts(k) ==>
              && s.sent == [Send(Addr7(r.args[0]), [r.args[1] % 256]), Receive(Addr7(r.args[0]), |r.args| - 2)]
              && (s.Next? <==> r.op == 'R' || Matches(dev, k + 1, r.args[2..]))
    ensures s.Next? && s.sent != [] ==> s.k == k + 2
  {
    if |r.args| == 0 then
      match follower
      case None => Stray([])
      case Some(f) =>
        var addr := Addr7(StoredOp(f));
        if rom && addr != ROM_ADDR then Next([], k)
        else
          var w := Send(addr, [|f.args| % 256]);
          if dev.accepts(k) then Stray([w]) else Abort([w])
    else if Skipped(rom, r) then Next([], k)
    else if |r.args| == 1 then
      var addr := Addr7(r.args[0]);
      var w := match follower
               case None => SendStray(addr)
               case Some(f) => Send(addr, [StoredOp(f) % 256]);
      if dev.accepts(k) then Stray([w]) else Abort([w])
    else
      var addr := Addr7(r.args[0]);
      var w := Send(addr, [r.args[1] % 256]);
      if !dev.accepts(k) then Abort([w])
      else if |r.args| - 2 > DATA_BUF_LEN then Stray([w])
      else
        var rd := Receive(addr, ReadLengthAsWritten(|r.args|));
        if r.op == 'R' || Matches(dev, k + 1, r.args[2..]) then Next([w, rd], k + 2)
        else Abort([w, rd])
  }

  /** A record without arguments followed by another record: the stored
      opcodes of W, R, C and X shift to 0x2B, 0x29, 0x21 and 0x2C, never the
      ROM address, so in ROM mode it is skipped; otherwise its register
      write is made, and it aborts if the write is refused and reads 65534
      bytes into the buffer if it is accepted. */
  lemma BareReadSkippedInRom(op: char, f: Record, dev: Device, k: nat)
    requires (op == 'R' || op == 'C') && KnownOp(f.op)
    ensures ReadStepAsWritten(Record(op, []), Some(f), true, dev, k) == Next([], k)
    ensures var s := ReadStepAsWritten(Record(op, []), Some(f), false, dev, k);
            (s.Abort? <==> !dev.accepts(k)) && (s.Stray? <==> dev.accepts(k))
  {
    assert Addr7(StoredOp(f)) in {0x2B, 0x29, 0x21, 0x2C} by {
      assert StoredOp(f) in {0x57, 0x52, 0x43, 0x58};
    }
  }

  /** An R or C record as intended: fewer than two arguments, or more
      expected bytes than the buffer holds, rejects the script; a failed read
      aborts it. */
  function ReadStep(r: Record, rom: bool, dev: Device, k: nat): (s: Step)
    requires r.op == 'R' || r.op == 'C'
    ensures |r.args| < 2 || |r.args| - 2 > DATA_BUF_LEN ==> s == Abort([])
    ensures s.Next? && s.sent != [] ==>
              && s.sent == [Send(Addr7(r.args[0]), [r.args[1] % 256]), Receive(Addr7(r.args[0]), |r.args| - 2)]
              && dev.accepts(k) && dev.accepts(k + 1) && s.k == k + 2
              && (r.op == 'C' ==> Matches(dev, k + 1, r.args[2..]))
    ensures s.Next? && s.sent == [] ==> rom && Addr7(r.args[0]) != ROM_ADDR && s.k == k
    ensures s.Abort? && |s.sent| == 2 && dev.accepts(k + 1) ==> r.op == 'C' && !Matches(dev, k + 1, r.args[2..])
    ensures !s.Stray?
  {
    if |r.args| < 2 || |r.args| - 2 > DATA_BUF_LEN then Abort([])
    else if Skipped(rom, r) then Next([], k)
    else
      var addr := Addr7(r.args[0]);
      var w := Send(addr, [r.args[1] % 256]);
      var rd := Receive(addr, |r.args| - 2);
      if !dev.accepts(k) then Abort([w])
      else if !dev.accepts(k + 1) then Abort([w, rd])
      else if r.op == 'R' || Matches(dev, k + 1, r.args[2..]) then Next([w, rd], k + 2)
      else Abort([w, rd])
  }

  /** One record under either semantics. X only delays; any other opcode
      aborts. */
  function RunRecord(sem: Semantics, r: Record, follower: Option<Record>, rom: bool, dev: Device, k: nat): (s: Step)
    ensures s.Next? ==> s.k >= k
    ensures sem == Intended ==> !s.Stray?
  {
    if r.op == 'W' then WriteStep(sem, r, rom, dev, k)
    else if r.op == 'R' || r.op == 'C' then
      (if sem == AsWritten then ReadStepAsWritten(r, follower, rom, dev, k) else ReadStep(r, rom, dev, k))
    else if r.op == 'X' then Next([], k)
    else Abort([])
  }

  datatype Status = Completed | Aborted | Undefined

  /** The records run in order until one aborts or strays. */
  datatype Exec = Exec(status: Status, trace: seq<Transfer>, k: nat)

  /** The record stored after the first of `rs`: the second of `rs`, or
      `after`, what follows the whole script. */
  function FollowerOf(rs: seq<Record>, after: Option<Record>): Option<Record>
    requires |rs| > 0
  {
    if |rs| > 1 then Some(rs[1]) else after
  }

  /** What follows `rs` when `rest` is stored after it. */
  function Ahead(rest: seq<Record>, after: Option<Record>): Option<Record>
  {
    if |rest| > 0 then Some(rest[0]) else after
  }

  function Execute(sem: Semantics, rs: seq<Record>, after: Option<Record>, rom: bool, dev: Device, k: nat): (e: Exec)
    decreases |rs|
    ensures sem == Intended ==> e.status != Undefined
    ensures e.status == Completed ==> e.k >= k
  {
    if |rs| == 0 then Exec(Completed, [], k)
    else match RunRecord(sem, rs[0], FollowerOf(rs, after), rom, dev, k)
      case Next(sent, k') =>
        var rest := Execute(sem, rs[1..], after, rom, dev, k');
        Exec(rest.status, sent + rest.trace, rest.k)
      case Abort(sent) => Exec(Aborted, sent, k)
      case Stray(sent) => Exec(Undefined, sent, k)
  }

  /** The records run in order by an arbitrary per-record step, which sees
      the record stored after the one it runs. */
  function RunAll(step: (Record, Option<Record>, nat) -> Step, rs: seq<Record>, after: Option<Record>, k: nat): (e: Exec)
    ensures rs == [] ==> e == Exec(Completed, [], k)
    decreases |rs|
  {
    if |rs| == 0 then Exec(Completed, [], k)
    else match step(rs[0], FollowerOf(rs, after), k)
      case Next(sent, k') =>
        var rest := RunAll(step, rs[1..], after, k');
        Exec(rest.status, sent + rest.trace, rest.k)
      case Abort(sent) => Exec(Aborted, sent, k)
      case Stray(sent) => Exec(Undefined, sent, k)
  }

  /** Appending scripts, for any step: the first script runs with the
      second stored after it, and the second runs only when the first
      completes, from where it left off. */
  lemma {:induction false} RunAllAppend(step: (Record, Option<Record>, nat) -> Step, r1: seq<Record>, r2: seq<Record>,
                                        after: Option<Record>, k: nat)
    ensures var e1 := RunAll(step, r1, Ahead(r2, after), k);
            var e := RunAll(step, r1 + r2, after, k);
            if e1.status == Completed then
              var e2 := RunAll(step, r2, after, e1.k);
              e == Exec(e2.status, e1.trace + e2.trace, e2.k)
            else e == e1
    decreases |r1|
  {
    if |r1| == 0 {
      assert r1 + r2 == r2;
    } else {
      assert (r1 + r2)[0] == r1[0];
      assert (r1 + r2)[1..] == r1[1..] + r2;
      assert FollowerOf(r1 + r2, after) == FollowerOf(r1, Ahead(r2, after));
      var s := step(r1[0], FollowerOf(r1, Ahead(r2, after)), k);
      if s.Next? {
        RunAllAppend(step, r1[1..], r2, after, s.k);
        var rest1 := RunAll(step, r1[1..], Ahead(r2, after), s.k);
        if rest1.status == Completed {
          var e2 := RunAll(step, r2, after, rest1.k);
          assert s.sent + (rest1.trace + e2.trace) == (s.sent + rest1.trace) + e2.trace;
        }
      }
    }
  }

  /** The interpreter is the generic runner with `RunRecord` as its step. */
  lemma {:induction false} ExecuteIsRunAll(sem: Semantics, rs: seq<Record>, after: Option<Record>, rom: bool, dev: Device, k: nat)
    ensures Execute(sem, rs, after, rom, dev, k) ==
            RunAll((r: Record, f: Option<Record>, k': nat) => RunRecord(sem, r, f, rom, dev, k'), rs, after, k)
    decreases |rs|
  {
    if |rs| > 0 {
      var s := RunRecord(sem, rs[0], FollowerOf(rs, after), rom, dev, k);
      if s.Next? {
        ExecuteIsRunAll(sem, rs[1..], after, rom, dev, s.k);
      }
    }
  }

  /** Running two scripts back to back is running the first (with the
      second stored after it), then — only if it completed — the second
      from where the first left off. In particular, transfers made before
      an abort stay made. */
  lemma ExecuteAppend(sem: Semantics, r1: seq<Record>, r2: seq<Record>, after: Option<Record>, rom: bool, dev: Device, k: nat)
    ensures var e1 := Execute(sem, r1, Ahead(r2, after), rom, dev, k);
            var e := Execute(sem, r1 + r2, after, rom, dev, k);
            if e1.status == Completed then
              var e2 := Execute(sem, r2, after, rom, dev, e1.k);
              e == Exec(e2.status, e1.trace + e2.trace, e2.k)
            else e == e1
  {
    var step := (r: Record, f: Option<Record>, k': nat) => RunRecord(sem, r, f, rom, dev, k');
    ExecuteIsRunAll(sem, r1, Ahead(r2, after), rom, dev, k);
    ExecuteIsRunAll(sem, r1 + r2, after, rom, dev, k);
    RunAllAppend(step, r1, r2, after, k);
    var e1 := Execute(sem, r1, Ahead(r2, after), rom, dev, k);
    if e1.status == Completed {
      ExecuteIsRunAll(sem, r2, after, rom, dev, e1.k);
    }
  }

  predicate OnRomAddress(t: Transfer)
  {
    (t.Send? || t.SendStray? || t.Receive?) ==> t.addr == ROM_ADDR
  }

  /** In ROM mode the script only ever talks to the ROM address. */
  lemma {:induction false} RomModeStaysOnRomAddress(sem: Semantics, rs: seq<Record>, after: Option<Record>, dev: Device, k: nat)
    ensures forall j :: 0 <= j < |Execute(sem, rs, after, true, dev, k).trace| ==>
              OnRomAddress(Execute(sem, rs, after, true, dev, k).trace[j])
    decreases |rs|
  {
    if |rs| > 0 {
      var s := RunRecord(sem, rs[0], FollowerOf(rs, after), true, dev, k);
      if s.Next? {
        RomModeStaysOnRomAddress(sem, rs[1..], after, dev, s.k);
      }
    }
  }

  /** On a device that acknowledges every transfer, a script whose records
      are all well formed runs the same under both semantics. */
  predicate WellFormedRecord(r: Record)
  {
    && KnownOp(r.op)
    && (r.op == 'W' ==> |r.args| - 1 <= DATA_BUF_LEN)
    && (r.op == 'R' || r.op == 'C' ==> 2 <= |r.args| && |r.args| - 2 <= DATA_BUF_LEN)
  }

  lemma {:induction false} SemanticsAgree(rs: seq<Record>, after: Option<Record>, rom: bool, dev: Device, k: nat)
    requires forall j :: 0 <= j < |rs| ==> WellFormedRecord(rs[j])
    requires forall n: nat :: dev.accepts(n)
    ensures Execute(AsWritten, rs, after, rom, dev, k) == Execute(Intended, rs, after, rom, dev, k)
    decreases |rs|
  {
    if |rs| > 0 {
      var f := FollowerOf(rs, after);
      assert WellFormedRecord(rs[0]);
      assert RunRecord(AsWritten, rs[0], f, rom, dev, k) == RunRecord(Intended, rs[0], f, rom, dev, k);
      var s := RunRecord(Intended, rs[0], f, rom, dev, k);
      if s.Next? {
        SemanticsAgree(rs[1..], after, rom, dev, s.k);
      }
    }
  }

  /** As written, an R record whose read fails still counts as done. */
  lemma ReadFailureIgnoredAsWritten()
    ensures var dev := Device((n: nat) => n == 0, (n: nat, j: nat) => 0);
            var r := Record('R', [0x16, 0x04, 0, 0]);
            && RunRecord(AsWritten, r, None, false, dev, 0).Next?
            && RunRecord(Intended, r, None, false, dev, 0).Abort?
  {
  }

  /** Result of `load_firmware`: a status and the transfers made, or
      behaviour the source leaves undefined (after the transfers listed). */
  datatype Run = Finished(status: int, trace: seq<Transfer>) | UndefinedRun(trace: seq<Transfer>)

  const Finale: seq<Transfer> := [Control(RESET_SUBCMD), Control(IT_ENABLE_SUBCMD)]

  /** `load_firmware` as written: no script means nothing to do; a parse
      that leaves a record position unset is undefined before any
      transfer; otherwise the records run with the as-written R/C
      handling, an abort returns -EINVAL after the transfers made, a stray
      access is undefined after them, and a complete run resets the gauge
      and re-enables Impedance Track. */
  function LoadFirmwareAsWritten(script: Option<seq<Line>>, rom: bool, dev: Device): (r: Run)
    ensures script.None? ==> r == Finished(0, [])
    ensures script.Some? && ParseAsWritten(script.value).LengthUnset? ==> r == UndefinedRun([])
    ensures script.Some? && ParseAsWritten(script.value).Script? ==>
              var e := Execute(AsWritten, ParseAsWritten(script.value).records, None, rom, dev, 0);
              && (r == Finished(0, e.trace + Finale) <==> e.status == Completed)
              && (r == Finished(-EINVAL, e.trace) <==> e.status == Aborted)
              && (r == UndefinedRun(e.trace) <==> e.status == Undefined)
  {
    if script.None? then Finished(0, [])
    else match ParseAsWritten(script.value)
      case LengthUnset => UndefinedRun([])
      case Script(rs) =>
        var e := Execute(AsWritten, rs, None, rom, dev, 0);
        match e.status
        case Completed => Finished(0, e.trace + Finale)
        case Aborted => Finished(-EINVAL, e.trace)
        case Undefined => UndefinedRun(e.trace)
  }

  /** `load_firmware` with the intended parsing and R/C handling: no script
      means nothing to do; an unknown opcode rejects the script before any
      transfer; any abort returns -EINVAL after the transfers made so far;
      a complete run resets the gauge and re-enables Impedance Track. */
  function LoadFirmware(script: Option<seq<Line>>, rom: bool, dev: Device): (r: Run)
    ensures r.Finished?
    ensures script.None? ==> r == Finished(0, [])
    ensures r.status == 0 || r.status == -EINVAL
    ensures script.Some? && HasUnknownOp(script.value) ==> r == Finished(-EINVAL, [])
    ensures script.Some? && !HasUnknownOp(script.value) ==>
              var e := Execute(Intended, Parse(script.value).value, None, rom, dev, 0);
              (r.status == 0 <==> e.status == Completed) &&
              r.trace == (if r.status == 0 then e.trace + Finale else e.trace)
  {
    if script.None? then Finished(0, [])
    else match Parse(script.value)
      case None => Finished(-EINVAL, [])
      case Some(rs) =>
        var e := Execute(Intended, rs, None, rom, dev, 0);
        if e.status == Completed then Finished(0, e.trace + Finale)
        else Finished(-EINVAL, e.trace)
  }

  /** On a script without unknown opcodes whose records are all well
      formed, sent to a device that acknowledges every transfer, the code
      as written loads exactly as intended. */
  lemma LoadFirmwareAgrees(script: seq<Line>, rom: bool, dev: Device)
    requires !HasUnknownOp(script)
    requires forall j :: 0 <= j < |Parse(script).value| ==> WellFormedRecord(Parse(script).value[j])
    requires forall n: nat :: dev.accepts(n)
    ensures LoadFirmwareAsWritten(Some(script), rom, dev) == LoadFirmware(Some(script), rom, dev)
  {
    ParseAsWrittenAgrees(script);
    SemanticsAgree(Parse(script).value, None, rom, dev, 0);
  }

  /** In ROM mode a bare R line ahead of a write to the ROM is skipped as
      written, so the write is made and the update completes; as intended
      the bare R line rejects the script before any transfer. */
  lemma BareReadInRomScript(dev: Device)
    requires dev.accepts(0)
    ensures var script := [Tokens('R', []), Tokens('W', [0x16, 0, 1])];
            && LoadFirmwareAsWritten(Some(script), true, dev) == Finished(0, [Send(ROM_ADDR, [0, 1])] + Finale)
            && LoadFirmware(Some(script), true, dev) == Finished(-EINVAL, [])
  {
    var script := [Tokens('R', []), Tokens('W', [0x16, 0, 1])];
    var w := Record('W', [0x16, 0, 1]);
    var rs := [Record('R', []), w];
    assert Shorts([]) == [];
    assert Shorts([0x16, 0, 1]) == [0x16, 0, 1];
    assert script[1..] == [Tokens('W', [0x16, 0, 1])];
    assert script[1..][1..] == [];
    assert ParseLinesAsWritten(script[1..], false) == Script([w]);
    assert ParseLinesAsWritten(script, false) == Script(rs);
    assert TrimTrailing(rs) == rs;
    BareReadSkippedInRom('R', w, dev, 0);
    assert rs[1..] == [w];
    assert LowBytes([0, 1]) == [0, 1];
    assert Execute(AsWritten, [w], None, true, dev, 0) == Exec(Completed, [Send(ROM_ADDR, [0, 1])], 1);
    assert Execute(AsWritten, rs, None, true, dev, 0) == Exec(Completed, [Send(ROM_ADDR, [0, 1])], 1);
    assert KnownRecords(script) == rs;
    assert Execute(Intended, rs, None, true, dev, 0) == Exec(Aborted, [], 0);
  }

  /** A successful update always ends with RESET followed by IT_ENABLE, and
      in ROM mode every data transfer before them is to the ROM address. */
  lemma SuccessEndsWithReset(script: seq<Line>, rom: bool, dev: Device)
    requires LoadFirmware(Some(script), rom, dev).status == 0
    ensures var t := LoadFirmware(Some(script), rom, dev).trace;
            |t| >= 2 && t[|t| - 2] == Control(RESET_SUBCMD) && t[|t| - 1] == Control(IT_ENABLE_SUBCMD)
    ensures rom ==> var t := LoadFirmware(Some(script), rom, dev).trace;
                    forall j :: 0 <= j < |t| - 2 ==> OnRomAddress(t[j])
  {
    var rs := Parse(script).value;
    var e := Execute(Intended, rs, None, rom, dev, 0);
    var t := e.trace + Finale;
    assert LoadFirmware(Some(script), rom, dev).trace == t;
    if rom {
      RomModeStaysOnRomAddress(Intended, rs, None, dev, 0);
      forall j | 0 <= j < |t| - 2
        ensures OnRomAddress(t[j])
      {
        assert t[j] == e.trace[j];
      }
    }
  }
}

=== FILE: bq27_props.dfy ===
/** BQ27x00 fuel gauge: what the power-supply class sees when it asks for a
    property (`bq27x00_battery_get_property`), and the charger's status
    callback that feeds the STATUS property. */
module Bq27Props {
  import opened Common
  import opened Bq27Regs
  import opened Bq27Units
  import opened Bq27Cache

  /** Values of the power-supply class's enumerations, as defined by the
      kernel's power-supply header (which is not part of this model). */
  const STATUS_CHARGING: int := 1
  const STATUS_DISCHARGING: int := 2
  const STATUS_FULL: int := 4
  const HEALTH_UNKNOWN: int := 0
  const HEALTH_GOOD: int := 1
  const HEALTH_OVERHEAT: int := 2
  const HEALTH_COLD: int := 6
  const TECHNOLOGY_LION: int := 2

  /** Temperatures (0.1 °C) bounding the healthy band. */
  const OVERHEAT_ABOVE: int := 550
  const COLD_BELOW: int := 0

  /** The properties the driver registers, plus any other identifier. */
  datatype Property =
    | Status | Health | Present | VoltageNow | CurrentNow | Capacity | Temp
    | TimeToEmptyNow | TimeToEmptyAvg | TimeToFullNow | Technology
    | ChargeFull | ChargeNow | ChargeFullDesign | ChargeCounter | CycleCount
    | EnergyNow | CapacityLevel
    | Unsupported(id: int)

  /** The driver state a property read consults. `translate` is the board's
      optional thermistor hook. */
  datatype Device = Device(
    chip: Chip,
    cache: Cache,
    fakeBattery: bool,
    batStatus: int,
    chargeDesignFull: int,
    translate: Option<int -> int>)

  /** The bus as seen by the reads a property makes afresh: register reads
      through the selected table, and the 10 bytes the charge-counter block
      read leaves in its buffer (whatever they are if that read failed). */
  datatype Bus = Bus(table: Option<TableId>, regs: RegBus, qData: seq<Byte>)

  /** A property read: the reported value or errno, and the driver's new
      `fake_battery` flag. */
  datatype PropOutcome = PropOutcome(result: Reading, fakeBattery: bool)

  /** `bq27x00_simple_value`. */
  function SimpleValue(value: int): (r: Reading)
    ensures value < 0 <==> r.Error?
    ensures r.Error? ==> r.code == value
    ensures r.Value? ==> r.v == value
  {
    if value < 0 then Error(value) else Value(value)
  }

  /** The health bands applied to a temperature reading as written: an
      error is first turned into HEALTH_UNKNOWN, then the value goes
      through the bands — and HEALTH_UNKNOWN (0) lies in the good band. */
  function HealthAsWritten(t: Reading): (h: int)
    ensures t.Value? && t.v > OVERHEAT_ABOVE ==> h == HEALTH_OVERHEAT
    ensures t.Value? && t.v < COLD_BELOW ==> h == HEALTH_COLD
    ensures t.Value? && COLD_BELOW <= t.v <= OVERHEAT_ABOVE ==> h == HEALTH_GOOD
  {
    var v := if t.Error? then HEALTH_UNKNOWN else t.v;
    if v > OVERHEAT_ABOVE then HEALTH_OVERHEAT
    else if v < COLD_BELOW then HEALTH_COLD
    else HEALTH_GOOD
  }

  /** As written, a failed temperature read reports a good battery. */
  lemma HealthErrorReportsGood(code: int)
    ensures HealthAsWritten(Error(code)) == HEALTH_GOOD
  {
  }

  /** The health bands with the unknown case kept: a failed temperature read
      reports HEALTH_UNKNOWN. */
  function HealthOf(t: Reading): (h: int)
    ensures h == HEALTH_UNKNOWN <==> t.Error?
    ensures t.Value? ==> h == HealthAsWritten(t)
    ensures h in {HEALTH_UNKNOWN, HEALTH_GOOD, HEALTH_OVERHEAT, HEALTH_COLD}
  {
    if t.Error? then HEALTH_UNKNOWN
    else if t.v > OVERHEAT_ABOVE then HEALTH_OVERHEAT
    else if t.v < COLD_BELOW then HEALTH_COLD
    else HEALTH_GOOD
  }

  /** Capacity to report: 1 while the battery is judged fake, a cached error
      passed through, and a reading just short of full lifted to 100 once
      the charger says charging is done. */
  function ReportedCapacity(fakeBattery: bool, capacity: int, batStatus: int): (r: Reading)
    ensures fakeBattery ==> r == Value(1)
    ensures !fakeBattery && capacity < 0 ==> r == Error(capacity)
    ensures !fakeBattery && capacity >= 0 && batStatus == STATUS_FULL && 95 < capacity < 100 ==> r == Value(100)
    ensures !fakeBattery && capacity >= 0 && !(batStatus == STATUS_FULL && 95 < capacity < 100) ==> r == Value(capacity)
  {
    if fakeBattery then Value(1)
    else
      var s := SimpleValue(capacity);
      if s.Value? && batStatus == STATUS_FULL && s.v < 100 && s.v > 95 then Value(100) else s
  }

  /** The forced values never lower a capacity, and a capacity in 0..100
      stays in 0..100. */
  lemma CapacityForcingOnlyRaises(capacity: int, batStatus: int)
    requires 0 <= capacity <= 100
    ensures var r := ReportedCapacity(false, capacity, batStatus);
            r.Value? && capacity <= r.v <= 100
  {
  }

  function TemperatureOf(d: Device): TempOutcome
  {
    BatteryTemperature(d.chip, d.cache.temperature, d.cache.internalTemp, d.translate, d.fakeBattery)
  }

  /** The health bands under either semantics. */
  function HealthUnder(sem: Semantics, t: Reading): int
  {
    if sem == AsWritten then HealthAsWritten(t) else HealthOf(t)
  }

  /** `bq27x00_battery_get_property` once any pending refresh has run. The
      HEALTH bands follow `sem`: as written a failed temperature read
      reports GOOD (`HealthAsWritten`), as intended UNKNOWN (`HealthOf`). */
  function GetProperty(sem: Semantics, p: Property, d: Device, bus: Bus): (r: PropOutcome)
    requires |bus.qData| == 10
    ensures p != Present && d.cache.flags < 0 ==> r == PropOutcome(Error(-ENODEV), d.fakeBattery)
    ensures p == Present ==> r == PropOutcome(Value(if d.cache.flags < 0 then 0 else 1), d.fakeBattery)
    ensures p !in {Temp, Health} ==> r.fakeBattery == d.fakeBattery
    ensures p in {Temp, Health} && d.cache.flags >= 0 ==> r.fakeBattery == TemperatureOf(d).fakeBattery
    ensures p.Unsupported? && d.cache.flags >= 0 ==> r.result == Error(-EINVAL)
    ensures d.cache.flags >= 0 ==>
      match p
      case Status => r.result == Value(d.batStatus)
      case Health =>
        && (sem == AsWritten ==> r.result == Value(HealthAsWritten(TemperatureOf(d).reading)))
        && (sem == Intended ==> r.result == Value(HealthOf(TemperatureOf(d).reading)))
      case VoltageNow => r.result == Voltage(RegRead(bus.table, REG_VOLT, bus.regs, false))
      case Present => r.result == Value(1)
      case CurrentNow =>
        && (d.chip == BQ27500 ==>
              r.result == Value(BatteryCurrent(d.chip, RegRead(bus.table, REG_AI, bus.regs, false), d.cache.currentNow, d.cache.flags)))
        && (d.chip == BQ27000 ==> r.result == Value(BatteryCurrent(d.chip, 0, d.cache.currentNow, d.cache.flags)))
      case CapacityLevel => r.result == SimpleValue(d.cache.rawCapacity)
      case ChargeCounter => r.result == Value(Le16(bus.qData[3], bus.qData[4]))
      case Capacity => r.result == ReportedCapacity(d.fakeBattery, d.cache.capacity, d.batStatus)
      case Temp => r.result == TemperatureOf(d).reading
      case TimeToEmptyNow => r.result == SimpleValue(d.cache.timeToEmpty)
      case TimeToEmptyAvg => r.result == SimpleValue(d.cache.timeToEmptyAvg)
      case TimeToFullNow => r.result == SimpleValue(d.cache.timeToFull)
      case Technology => r.result == Value(TECHNOLOGY_LION)
      case ChargeNow => r.result == SimpleValue(1000 * d.cache.trueCap)
      case ChargeFull => r.result == SimpleValue(1000 * d.cache.trueFcc)
      case ChargeFullDesign => r.result == SimpleValue(d.chargeDesignFull)
      case CycleCount => r.result == SimpleValue(d.cache.cycleCount)
      case EnergyNow => r.result == Energy(d.chip, RegRead(bus.table, REG_AE, bus.regs, false))
      case Unsupported(_) => r.result == Error(-EINVAL)
  {
    if p != Present && d.cache.flags < 0 then PropOutcome(Error(-ENODEV), d.fakeBattery)
    else
      var keep := d.fakeBattery;
      match p
      case Status => PropOutcome(Value(d.batStatus), keep)
      case Health =>
        var t := TemperatureOf(d);
        PropOutcome(Value(HealthUnder(sem, t.reading)), t.fakeBattery)
      case VoltageNow => PropOutcome(Voltage(RegRead(bus.table, REG_VOLT, bus.regs, false)), keep)
      case Present => PropOutcome(Value(if d.cache.flags < 0 then 0 else 1), keep)
      case CurrentNow =>
        var ai := if d.chip == BQ27500 then RegRead(bus.table, REG_AI, bus.regs, false) else 0;
        PropOutcome(Value(BatteryCurrent(d.chip, ai, d.cache.currentNow, d.cache.flags)), keep)
      case CapacityLevel => PropOutcome(SimpleValue(d.cache.rawCapacity), keep)
      case ChargeCounter => PropOutcome(Value(Le16(bus.qData[3], bus.qData[4])), keep)
      case Capacity => PropOutcome(ReportedCapacity(d.fakeBattery, d.cache.capacity, d.batStatus), keep)
      case Temp =>
        var t := TemperatureOf(d);
        PropOutcome(t.reading, t.fakeBattery)
      case TimeToEmptyNow => PropOutcome(SimpleValue(d.cache.timeToEmpty), keep)
      case TimeToEmptyAvg => PropOutcome(SimpleValue(d.cache.timeToEmptyAvg), keep)
      case TimeToFullNow => PropOutcome(SimpleValue(d.cache.timeToFull), keep)
      case Technology => PropOutcome(Value(TECHNOLOGY_LION), keep)
      case ChargeNow => PropOutcome(SimpleValue(1000 * d.cache.trueCap), keep)
      case ChargeFull => PropOutcome(SimpleValue(1000 * d.cache.trueFcc), keep)
      case ChargeFullDesign => PropOutcome(SimpleValue(d.chargeDesignFull), keep)
      case CycleCount => PropOutcome(SimpleValue(d.cache.cycleCount), keep)
      case EnergyNow => PropOutcome(Energy(d.chip, RegRead(bus.table, REG_AE, bus.regs, false)), keep)
      case Unsupported(_) => PropOutcome(Error(-EINVAL), keep)
  }

  /** A property read succeeds or fails together with the gauge: once the
      last flags read failed, only PRESENT answers, and it answers 0. */
  lemma AbsentGaugeAnswersOnlyPresent(sem: Semantics, p: Property, d: Device, bus: Bus)
    requires |bus.qData| == 10 && d.cache.flags < 0
    ensures GetProperty(sem, p, d, bus).result.Value? <==> p == Present
    ensures GetProperty(sem, Present, d, bus).result == Value(0)
  {
  }

  /** A read of HEALTH leaves `fake_battery` exactly as a read of TEMP does.
      With the intended bands it reports UNKNOWN exactly when TEMP fails; as
      written, a failed TEMP makes HEALTH report GOOD. */
  lemma HealthFollowsTemperature(sem: Semantics, d: Device, bus: Bus)
    requires |bus.qData| == 10 && d.cache.flags >= 0
    ensures GetProperty(sem, Health, d, bus).fakeBattery == GetProperty(sem, Temp, d, bus).fakeBattery
    ensures sem == Intended ==>
              (GetProperty(sem, Health, d, bus).result == Value(HEALTH_UNKNOWN) <==> GetProperty(sem, Temp, d, bus).result.Error?)
    ensures sem == AsWritten && GetProperty(sem, Temp, d, bus).result.Error? ==>
              GetProperty(sem, Health, d, bus).result == Value(HEALTH_GOOD)
  {
  }

  /** The charge values are scaled before the error test, so a failed true
      capacity read surfaces as a thousand times its errno. */
  lemma ChargeNowScalesErrors(sem: Semantics, d: Device, bus: Bus)
    requires |bus.qData| == 10 && d.cache.flags >= 0 && d.cache.trueCap == -EIO
    ensures GetProperty(sem, ChargeNow, d, bus).result == Error(-5000)
  {
  }

  /** The raw temperature readings below -35.0 °C, in each chip's units. */
  predicate ColdRaw(chip: Chip, raw: int)
  {
    0 <= raw && (if chip == BQ27500 then raw < 2381 else raw < 953)
  }

  /** A refresh that leaves a cache whose raw thermistor reading lies below
      -35.0 °C marks the battery fake, so CAPACITY then reports 1 without a
      TEMP read in between; a warmer reading clears the mark, and CAPACITY
      reports the cached capacity again. */
  lemma ColdRefreshReportsCapacityOne(sem: Semantics, chip: Chip, fwVer: int, g: Gauge, prev: Cache, design: int,
                                      fake: bool, batStatus: int, bus: Bus)
    requires WellFormedGauge(g) && |bus.qData| == 10
    ensures var r := Update(sem, chip, fwVer, g, prev, design, None, fake);
            var d := Device(chip, r.cache, r.fakeBattery, batStatus, r.chargeDesignFull, None);
            r.cache.flags >= 0 && ColdRaw(chip, r.cache.temperature) ==>
              r.fakeBattery && GetProperty(sem, Capacity, d, bus).result == Value(1)
    ensures var r := Update(sem, chip, fwVer, g, prev, design, None, fake);
            var d := Device(chip, r.cache, r.fakeBattery, batStatus, r.chargeDesignFull, None);
            r.cache.flags >= 0 && r.cache.temperature >= 0 && !ColdRaw(chip, r.cache.temperature) ==>
              !r.fakeBattery && GetProperty(sem, Capacity, d, bus).result == ReportedCapacity(false, r.cache.capacity, batStatus)
  {
    var r := Update(sem, chip, fwVer, g, prev, design, None, fake);
    if r.cache.temperature >= 0 {
      TemperatureFallbackThreshold(chip, r.cache.temperature, r.cache.internalTemp, fake);
    }
  }

  /** The charger's notification, as the battery-gauge framework reports it. */
  datatype ChargerStatus = Charging | ChargingDone | NotCharging

  /** `bq27x00_update_battery_status`: the new `bat_status`. */
  function UpdateBatteryStatus(s: ChargerStatus): (status: int)
    ensures status == STATUS_CHARGING <==> s == Charging
    ensures status == STATUS_FULL <==> s == ChargingDone
    ensures status == STATUS_DISCHARGING <==> s == NotCharging
  {
    match s
    case Charging => STATUS_CHARGING
    case ChargingDone => STATUS_FULL
    case NotCharging => STATUS_DISCHARGING
  }

  /** Only a "charging done" notification lets CAPACITY be lifted to 100. */
  lemma FullOnlyAfterChargingDone(s: ChargerStatus, capacity: int)
    requires 95 < capacity < 100
    ensures ReportedCapacity(false, capacity, UpdateBatteryStatus(s)) == Value(100) <==> s == ChargingDone
  {
  }
}

=== FILE: bq27_regs.dfy ===
/** BQ27x00 fuel gauge: the logical register indices, the three per-firmware
    register tables, the choice of table from the firmware version, the
    guarded register read/write and the battery-id classification. */
module Bq27Regs {
  import opened Common

  /* Firmware versions reported by the CONTROL FW_VER sub-command. */
  const G3_FW_VERSION: int := 0x0324
  const G4_FW_VERSION: int := 0x0329
  const L1_600_FW_VERSION: int := 0x0600
  const L1_604_FW_VERSION: int := 0x0604

  /* CONTROL register and its sub-commands. */
  const CONTROL_CMD: int := 0x00
  const DEV_TYPE_SUBCMD: int := 0x0001
  const FW_VER_SUBCMD: int := 0x0002
  const DF_VER_SUBCMD: int := 0x001F
  const IT_ENABLE_SUBCMD: int := 0x0021
  const RESET_SUBCMD: int := 0x0041

  /** Table entry marking a register the firmware does not have. */
  const INVALID_REG_ADDR: int := 0xFF

  /* Logical register indices (enum bq27x00_reg_index). */
  const REG_TEMP: nat := 0
  const REG_INT_TEMP: nat := 1
  const REG_VOLT: nat := 2
  const REG_AI: nat := 3
  const REG_FLAGS: nat := 4
  const REG_TTE: nat := 5
  const REG_TTF: nat := 6
  const REG_TTES: nat := 7
  const REG_TTECP: nat := 8
  const REG_NAC: nat := 9
  const REG_LMD: nat := 10
  const REG_CC: nat := 11
  const REG_AE: nat := 12
  const REG_RSOC: nat := 13
  const REG_ILMD: nat := 14
  const REG_SOC: nat := 15
  const REG_DCAP: nat := 16
  const REG_CTRL: nat := 17
  const REG_AR: nat := 18
  const REG_ARTE: nat := 19
  const REG_FAC: nat := 20
  const REG_RM: nat := 21
  const REG_FCC: nat := 22
  const REG_STBYI: nat := 23
  const REG_SOH: nat := 24
  const REG_INSTI: nat := 25
  const REG_RSCLE: nat := 26
  const REG_OC: nat := 27
  const REG_TRUECAP: nat := 28
  const REG_TRUEFCC: nat := 29
  const REG_TRUESOC: nat := 30
  const REG_MAX_CURRENT: nat := 31
  const REG_QPASSED_HIRES_INT: nat := 32
  const REG_QPASSED_HIRES_FRACTION: nat := 33

  /** Number of logical registers in the index enumeration. */
  const REG_COUNT: nat := 34

  /** The chip family: BQ27500 reports in mA/mAh/0.1 K, the older parts in
      sense-resistor units. */
  datatype Chip = BQ27000 | BQ27500

  /** The register table for TI G3 firmware exactly as the source declares
      it: 28 entries, six short of the index enumeration. */
  const G3RegsAsWritten: seq<Byte> := [
    0x06, 0x36, 0x08, 0x14, 0x0A, 0x16, 0x18, 0x1c, 0x26, 0x0C,
    0x12, 0x2A, 0x22, 0x0B, 0x76, 0x2C, 0x3C, 0x00, 0xFF, 0x0E,
    0x10, 0x12, 0x28, 0x2A, 0x3A, 0xFF, 0xFF, 0xFF]

  /** The G3 table with the six registers G3 firmware lacks marked missing,
      so that every logical index has an entry. */
  const G3Regs: seq<Byte> := [
    0x06, 0x36, 0x08, 0x14, 0x0A, 0x16, 0x18, 0x1c, 0x26, 0x0C,
    0x12, 0x2A, 0x22, 0x0B, 0x76, 0x2C, 0x3C, 0x00, 0xFF, 0x0E,
    0x10, 0x12, 0x28, 0x2A, 0x3A, 0xFF, 0xFF, 0xFF, 0xFF, 0xFF,
    0xFF, 0xFF, 0xFF, 0xFF]

  const G4Regs: seq<Byte> := [
    0x06, 0x28, 0x08, 0x14, 0x0A, 0x16, 0xFF, 0x1A, 0xFF, 0x0C,
    0xFF, 0x1E, 0xFF, 0xFF, 0xFF, 0x20, 0x2E, 0x00, 0x02, 0x04,
    0x0E, 0x10, 0x12, 0x18, 0x1C, 0x22, 0x2A, 0x2C, 0x6C, 0x70,
    0x74, 0xFF, 0xFF, 0xFF]

  const L1Regs: seq<Byte> := [
    0x06, 0x28, 0x08, 0x14, 0x0A, 0x16, 0xFF, 0x1A, 0xFF, 0x0C,
    0xFF, 0x1E, 0xFF, 0xFF, 0xFF, 0x20, 0x2E, 0x00, 0x02, 0x04,
    0x0E, 0x10, 0x12, 0x18, 0x1C, 0x22, 0x2A, 0x2C, 0x6C, 0x70,
    0x74, 0x76, 0x24, 0x26]

  datatype TableId = G3 | G4 | L1

  function Table(id: TableId): (t: seq<Byte>)
    ensures |t| == REG_COUNT
  {
    match id
    case G3 => G3Regs
    case G4 => G4Regs
    case L1 => L1Regs
  }

  /** `bq27x00_reset_registers`: the table chosen for a firmware version;
      an unknown version falls back to G4. */
  function SelectTable(fwVer: int): (id: TableId)
    ensures id == L1 <==> fwVer == L1_600_FW_VERSION || fwVer == L1_604_FW_VERSION
    ensures id == G3 <==> fwVer == G3_FW_VERSION
    ensures id == G4 <==> fwVer !in {L1_600_FW_VERSION, L1_604_FW_VERSION, G3_FW_VERSION}
  {
    if fwVer == L1_600_FW_VERSION || fwVer == L1_604_FW_VERSION then L1
    else if fwVer == G3_FW_VERSION then G3
    else G4
  }

  /** Index of the first entry of `t` equal to `a` (|t| when there is none). */
  function Position(t: seq<Byte>, a: Byte): (p: nat)
    ensures p <= |t|
    ensures p < |t| ==> t[p] == a
    ensures forall k :: 0 <= k < p ==> t[k] != a
  {
    if |t| == 0 then 0 else if t[0] == a then 0 else 1 + Position(t[1..], a)
  }

  lemma {:induction false} PositionOfFirst(t: seq<Byte>, i: nat)
    requires i < |t| && forall k :: 0 <= k < i ==> t[k] != t[i]
    ensures Position(t, t[i]) == i
  {
    if i > 0 { PositionOfFirst(t[1..], i - 1); }
  }

  /** Every present entry of `t` from `lo` up to `hi` is the first of its
      value. */
  predicate FirstInRange(t: seq<Byte>, lo: nat, hi: nat)
    requires lo <= hi <= |t|
  {
    forall i :: lo <= i < hi && t[i] != INVALID_REG_ADDR ==> Position(t, t[i]) == i
  }

  lemma FirstInRangeFromPairs(t: seq<Byte>, lo: nat, hi: nat)
    requires lo <= hi <= |t|
    requires forall i, k :: lo <= i < hi && 0 <= k < i && t[i] != INVALID_REG_ADDR ==> t[k] != t[i]
    ensures FirstInRange(t, lo, hi)
  {
    forall i | lo <= i < hi && t[i] != INVALID_REG_ADDR
      ensures Position(t, t[i]) == i
    {
      PositionOfFirst(t, i);
    }
  }

  /** No two logical registers of the table share a bus address. */
  predicate AddressesDistinct(t: seq<Byte>)
  {
    forall i, j :: 0 <= i < j < |t| && t[i] != INVALID_REG_ADDR ==> t[i] != t[j]
  }

  lemma DistinctFromPositions(t: seq<Byte>)
    requires forall i :: 0 <= i < |t| && t[i] != INVALID_REG_ADDR ==> Position(t, t[i]) == i
    ensures AddressesDistinct(t)
  {
  }

  lemma DistinctFromRanges(t: seq<Byte>)
    requires |t| == REG_COUNT
    requires FirstInRange(t, 0, 10) && FirstInRange(t, 10, 18) && FirstInRange(t, 18, 24)
    requires FirstInRange(t, 24, 29) && FirstInRange(t, 29, REG_COUNT)
    ensures AddressesDistinct(t)
  {
    DistinctFromPositions(t);
  }

  /** The G4 table gives every present register its own address. */
  lemma G4AddressesDistinct()
    ensures AddressesDistinct(G4Regs)
  {
    G4Part0();
    G4Part1();
    G4Part2();
    G4Part3();
    G4Part4();
    DistinctFromRanges(G4Regs);
  }

  lemma G4Part0() ensures FirstInRange(G4Regs, 0, 10) { FirstInRangeFromPairs(G4Regs, 0, 10); }
  lemma G4Part1() ensures FirstInRange(G4Regs, 10, 18) { FirstInRangeFromPairs(G4Regs, 10, 18); }
  lemma G4Part2() ensures FirstInRange(G4Regs, 18, 24) { FirstInRangeFromPairs(G4Regs, 18, 24); }
  lemma G4Part3() ensures FirstInRange(G4Regs, 24, 29) { FirstInRangeFromPairs(G4Regs, 24, 29); }
  lemma G4Part4() ensures FirstInRange(G4Regs, 29, REG_COUNT) { FirstInRangeFromPairs(G4Regs, 29, REG_COUNT); }

  /** The L1 table gives every present register its own address. */
  lemma L1AddressesDistinct()
    ensures AddressesDistinct(L1Regs)
  {
    L1Part0();
    L1Part1();
    L1Part2();
    L1Part3();
    L1Part4();
    DistinctFromRanges(L1Regs);
  }

  lemma L1Part0() ensures FirstInRange(L1Regs, 0, 10) { FirstInRangeFromPairs(L1Regs, 0, 10); }
  lemma L1Part1() ensures FirstInRange(L1Regs, 10, 18) { FirstInRangeFromPairs(L1Regs, 10, 18); }
  lemma L1Part2() ensures FirstInRange(L1Regs, 18, 24) { FirstInRangeFromPairs(L1Regs, 18, 24); }
  lemma L1Part3() ensures FirstInRange(L1Regs, 24, 29) { FirstInRangeFromPairs(L1Regs, 24, 29); }
  lemma L1Part4() ensures FirstInRange(L1Regs, 29, REG_COUNT) { FirstInRangeFromPairs(L1Regs, 29, REG_COUNT); }

  /** The G3 table does not: RM shares 0x12 with LMD and STBYI shares 0x2A
      with CC. */
  lemma G3AddressesAliased()
    ensures !AddressesDistinct(G3Regs)
    ensures G3Regs[REG_RM] == G3Regs[REG_LMD] != INVALID_REG_ADDR
    ensures G3Regs[REG_STBYI] == G3Regs[REG_CC] != INVALID_REG_ADDR
  {
    assert G3Regs[REG_LMD] == G3Regs[REG_RM];
  }

  /** Those are the only shared addresses: with RM and STBYI marked missing,
      the G3 table gives every present register its own address. */
  lemma G3OtherwiseDistinct()
    ensures AddressesDistinct(G3Regs[REG_RM := INVALID_REG_ADDR][REG_STBYI := INVALID_REG_ADDR])
  {
    assert G3Unaliased == G3Regs[REG_RM := INVALID_REG_ADDR][REG_STBYI := INVALID_REG_ADDR];
    G3Part0();
    G3Part1();
    G3Part2();
    G3Part3();
    G3Part4();
    DistinctFromRanges(G3Unaliased);
  }

  /** The G3 table with RM and STBYI marked missing. */
  const G3Unaliased: seq<Byte> := [
    0x06, 0x36, 0x08, 0x14, 0x0A, 0x16, 0x18, 0x1c, 0x26, 0x0C,
    0x12, 0x2A, 0x22, 0x0B, 0x76, 0x2C, 0x3C, 0x00, 0xFF, 0x0E,
    0x10, 0xFF, 0x28, 0xFF, 0x3A, 0xFF, 0xFF, 0xFF, 0xFF, 0xFF,
    0xFF, 0xFF, 0xFF, 0xFF]

  lemma G3Part0() ensures FirstInRange(G3Unaliased, 0, 10) { FirstInRangeFromPairs(G3Unaliased, 0, 10); }
  lemma G3Part1() ensures FirstInRange(G3Unaliased, 10, 18) { FirstInRangeFromPairs(G3Unaliased, 10, 18); }
  lemma G3Part2() ensures FirstInRange(G3Unaliased, 18, 24) { FirstInRangeFromPairs(G3Unaliased, 18, 24); }
  lemma G3Part3() ensures FirstInRange(G3Unaliased, 24, 29) { FirstInRangeFromPairs(G3Unaliased, 24, 29); }
  lemma G3Part4() ensures FirstInRange(G3Unaliased, 29, REG_COUNT) { FirstInRangeFromPairs(G3Unaliased, 29, REG_COUNT); }

  /** A read of the register bus: `(address, single byte?)` to the value the
      transfer returned, negative for an errno. */
  type RegBus = (Byte, bool) -> int

  /** `bq27x00_read`: a register that is missing from the table (or when
      no table is selected yet) reads as 0 without touching the bus. */
  function RegRead(table: Option<TableId>, idx: nat, bus: RegBus, single: bool): (v: int)
    requires idx < REG_COUNT
    ensures table.None? ==> v == 0
    ensures table.Some? && Table(table.value)[idx] == INVALID_REG_ADDR ==> v == 0
    ensures table.Some? && Table(table.value)[idx] != INVALID_REG_ADDR ==>
              v == bus(Table(table.value)[idx], single)
  {
    match table
    case None => 0
    case Some(id) =>
      var addr := Table(id)[idx];
      if addr == INVALID_REG_ADDR then 0 else bus(addr, single)
  }

  /** The result of a register write as the bus reports it. */
  type WriteBus = (Byte, int, bool) -> int

  /** `bq27x00_write`: a missing register refuses the write with -EPERM. */
  function RegWrite(table: Option<TableId>, idx: nat, value: int, bus: WriteBus, single: bool): (r: int)
    requires idx < REG_COUNT
    ensures table.None? ==> r == -EPERM
    ensures table.Some? && Table(table.value)[idx] == INVALID_REG_ADDR ==> r == -EPERM
    ensures table.Some? && Table(table.value)[idx] != INVALID_REG_ADDR ==>
              r == bus(Table(table.value)[idx], value, single)
  {
    match table
    case None => -EPERM
    case Some(id) =>
      var addr := Table(id)[idx];
      if addr == INVALID_REG_ADDR then -EPERM else bus(addr, value, single)
  }

  /** A missing register is the same register for reads and writes: it reads
      as 0 whatever the bus holds and refuses every write. */
  lemma MissingRegisterInert(id: TableId, idx: nat, rb1: RegBus, rb2: RegBus, wb: WriteBus, value: int, single: bool)
    requires idx < REG_COUNT && Table(id)[idx] == INVALID_REG_ADDR
    ensures RegRead(Some(id), idx, rb1, single) == RegRead(Some(id), idx, rb2, single) == 0
    ensures RegWrite(Some(id), idx, value, wb, single) == -EPERM
  {
  }

  /** The logical registers `bq27x00_update` may read through the table, in
      source order (only one of SOC and RSOC is read, by chip). */
  const UpdateRegisters: seq<nat> := [
    REG_FLAGS, REG_SOC, REG_RSOC, REG_TRUESOC, REG_TEMP, REG_INT_TEMP,
    REG_TTE, REG_TTES, REG_TTF, REG_LMD, REG_CC, REG_VOLT, REG_NAC,
    REG_FAC, REG_FCC, REG_AI, REG_RM, REG_SOH, REG_INSTI, REG_RSCLE,
    REG_TRUECAP, REG_TRUEFCC, REG_TRUESOC]

  /** As written, the G3 table is too short for the indices the update path
      reads: index 28 (TRUECAP) and beyond lie past its last entry, so with G3
      firmware the C reads outside the array. */
  lemma G3TableTooShort()
    ensures |G3RegsAsWritten| == 28
    ensures REG_TRUECAP in UpdateRegisters && REG_TRUECAP >= |G3RegsAsWritten|
    ensures exists i :: 0 <= i < |UpdateRegisters| && UpdateRegisters[i] >= |G3RegsAsWritten|
  {
    assert UpdateRegisters[20] == REG_TRUECAP;
  }

  /** With the padded G3 table every index the update path reads is in range
      for every table, and G3 reports the extra registers as missing. */
  lemma TablesCoverUpdate(id: TableId)
    ensures forall i :: 0 <= i < |UpdateRegisters| ==> UpdateRegisters[i] < |Table(id)|
    ensures forall idx :: |G3RegsAsWritten| <= idx < REG_COUNT ==> G3Regs[idx] == INVALID_REG_ADDR
    ensures G3Regs[..|G3RegsAsWritten|] == G3RegsAsWritten
  {
  }

  /* Battery-id resistor windows read on the fuel gauge's ADC channel. */
  const LG_ID_MIN: int := 850
  const LG_ID_MAX: int := 1100
  const ATL_ID_MIN: int := 100
  const ATL_ID_MAX: int := 300

  /** `is_between`: the inclusive range test with the bounds given in either
      order. */
  predicate IsBetween(left: int, right: int, value: int)
  {
    (left >= right && left >= value && value >= right) ||
    (left <= right && left <= value && value <= right)
  }

  lemma IsBetweenMeaning(left: int, right: int, value: int)
    ensures IsBetween(left, right, value) <==> IsBetween(right, left, value)
    ensures IsBetween(left, right, value) <==>
              (if left <= right then left <= value <= right else right <= value <= left)
  {
  }

  datatype BatteryVendor = LGC | ATL

  /** The battery type chosen in `update_firmware`: a failed ADC read is
      -EINVAL, the LG window wins over the ATL one and anything else falls
      back to LG. */
  function ClassifyBattery(batId: int): (r: Result)
    ensures batId < 0 <==> r == IdError(-EINVAL)
    ensures r == Vendor(ATL) <==> ATL_ID_MIN <= batId <= ATL_ID_MAX
    ensures r == Vendor(LGC) <==> batId >= 0 && !(ATL_ID_MIN <= batId <= ATL_ID_MAX)
  {
    if batId < 0 then IdError(-EINVAL)
    else if IsBetween(LG_ID_MIN, LG_ID_MAX, batId) then Vendor(LGC)
    else if IsBetween(ATL_ID_MIN, ATL_ID_MAX, batId) then Vendor(ATL)
    else Vendor(LGC)
  }

  datatype Result = Vendor(vendor: BatteryVendor) | IdError(code: int)
}

=== FILE: bq27_units.dfy ===
/** BQ27x00 fuel gauge: conversion of raw register readings into the units
    the power-supply class reports (µAh, seconds, µWh, µA, mV·1000 and
    tenths of a degree Celsius). A negative raw value is an errno from the
    bus and passes through unchanged. */
module Bq27Units {
  import opened Common
  import opened Bq27Regs

  /** Sense resistor of the older parts, in mΩ. */
  const BQ27000_RS: int := 20

  /** Flag bit: BQ27000 is charging (its current must be negated). */
  const BQ27000_FLAG_CHGS_BIT: nat := 7

  /** A reported property value, or the errno the driver returns instead. */
  datatype Reading = Value(v: int) | Error(code: int)

  /** `bq27x00_battery_read_charge`: a capacity register in µAh. */
  function Charge(chip: Chip, raw: int): (r: int)
    ensures raw < 0 ==> r == raw
    ensures raw >= 0 ==> r >= 0
    ensures raw >= 0 && chip == BQ27500 ==> r == 1000 * raw
    ensures raw >= 0 && chip == BQ27000 ==> r * BQ27000_RS <= raw * 3570 < (r + 1) * BQ27000_RS
  {
    if raw < 0 then raw
    else if chip == BQ27500 then raw * 1000
    else TruncDiv(raw * 3570, BQ27000_RS)
  }

  /** Charge conversion keeps the order of readings. */
  lemma ChargeMonotone(chip: Chip, a: int, b: int)
    requires 0 <= a <= b
    ensures Charge(chip, a) <= Charge(chip, b)
  {
    if chip == BQ27000 {
      assert a * 3570 <= b * 3570;
      DivMonotone(a * 3570, b * 3570, BQ27000_RS);
    }
  }

  lemma DivMonotone(x: int, y: int, d: int)
    requires 0 <= x <= y && d > 0
    ensures x / d <= y / d
  {
    if x / d > y / d {
      assert d * (x / d) >= d * (y / d + 1) by {
        MulMonotone(d, y / d + 1, x / d);
      }
      assert false;
    }
  }

  lemma MulMonotone(d: int, a: int, b: int)
    requires d > 0 && a <= b
    ensures d * a <= d * b
  {
  }

  /** `bq27x00_battery_read_ilmd`: initial last measured discharge in µAh
      (the older parts read a single byte in units of 256 counts). */
  function Ilmd(chip: Chip, raw: int): (r: int)
    ensures raw < 0 ==> r == raw
    ensures raw >= 0 && chip == BQ27500 ==> r == 1000 * raw
    ensures raw >= 0 && chip == BQ27000 ==> r * BQ27000_RS <= raw * 256 * 3570 < (r + 1) * BQ27000_RS
  {
    if raw < 0 then raw
    else if chip == BQ27500 then raw * 1000
    else TruncDiv(raw * 256 * 3570, BQ27000_RS)
  }

  /** The logical register the ILMD conversion reads, and whether it is a
      single-byte read. */
  function IlmdRegister(chip: Chip): (r: (nat, bool))
    ensures r.0 < REG_COUNT
    ensures chip == BQ27500 ==> r.0 == REG_DCAP && !r.1
    ensures chip == BQ27000 ==> r.0 == REG_ILMD && r.1
  {
    if chip == BQ27500 then (REG_DCAP, false) else (REG_ILMD, true)
  }

  /** `bq27x00_battery_read_time`: minutes to seconds, with 65535 meaning
      "no data". */
  function Time(raw: int): (r: int)
    ensures raw < 0 ==> r == raw
    ensures raw == 65535 ==> r == -ENODATA
    ensures raw >= 0 && raw != 65535 ==> r >= 0 && r % 60 == 0 && r / 60 == raw
  {
    if raw < 0 then raw
    else if raw == 65535 then -ENODATA
    else raw * 60
  }

  /** A valid time reading is never mistaken for an error. */
  lemma TimeErrorsDistinct(raw: int)
    ensures Time(raw) < 0 <==> raw < 0 || raw == 65535
  {
  }

  /** `bq27x00_battery_energy`: available energy in µWh. */
  function Energy(chip: Chip, raw: int): (r: Reading)
    ensures raw < 0 <==> r.Error?
    ensures r.Error? ==> r.code == raw
    ensures r.Value? && chip == BQ27500 ==> r.v == 1000 * raw
    ensures r.Value? && chip == BQ27000 ==> r.v * BQ27000_RS <= raw * 29200 < (r.v + 1) * BQ27000_RS
  {
    if raw < 0 then Error(raw)
    else if chip == BQ27500 then Value(raw * 1000)
    else Value(TruncDiv(raw * 29200, BQ27000_RS))
  }

  /** `bq27x00_battery_voltage`: millivolts reported as µV. */
  function Voltage(raw: int): (r: Reading)
    ensures raw < 0 <==> r.Error?
    ensures r.Error? ==> r.code == raw
    ensures r.Value? ==> r.v >= 0 && r.v % 1000 == 0 && r.v / 1000 == raw
  {
    if raw < 0 then Error(raw) else Value(raw * 1000)
  }

  /** Tenths of a kelvin (BQ27500) or the older parts' 0.25 K units, as
      tenths of a degree Celsius, with C's truncating division. */
  function ToDeciCelsius(chip: Chip, raw: int): (t: int)
    ensures chip == BQ27500 ==> t == raw - 2731
    ensures chip == BQ27000 && raw * 5 >= 5463 ==> 2 * t <= raw * 5 - 5463 < 2 * t + 2
    ensures chip == BQ27000 && raw * 5 < 5463 ==> 2 * t - 2 < raw * 5 - 5463 <= 2 * t
  {
    if chip == BQ27500 then raw - 2731 else TruncDiv(raw * 5 - 5463, 2)
  }

  /** Readings below this (in 0.1 °C) mean the thermistor is missing. */
  const THERMISTOR_FLOOR: int := -350

  /** Offset applied to the gauge's internal temperature, since the board
      runs hotter than the battery. */
  const INTERNAL_TEMP_OFFSET: int := 200

  /** The outcome of `bq27x00_battery_temperature`: the reading and the new
      value of the driver's `fake_battery` flag. */
  datatype TempOutcome = TempOutcome(reading: Reading, fakeBattery: bool)

  /** `bq27x00_battery_temperature`: a negative cached temperature is
      returned as the error; a thermistor reading below -35.0 °C switches to
      the internal sensor minus 20.0 °C and marks the battery as fake; any
      other reading clears the mark. `translate` is the board's optional
      thermistor translation hook. */
  function BatteryTemperature(chip: Chip, temperature: int, internalTemp: int,
                              translate: Option<int -> int>, fakeBattery: bool): (r: TempOutcome)
    ensures temperature < 0 <==> r.reading.Error?
    ensures temperature < 0 ==> r.reading.code == temperature && r.fakeBattery == fakeBattery
    ensures temperature >= 0 ==>
              var t := if translate.Some? then translate.value(ToDeciCelsius(chip, temperature))
                       else ToDeciCelsius(chip, temperature);
              && (r.fakeBattery <==> t < THERMISTOR_FLOOR)
              && (!r.fakeBattery ==> r.reading.v == t)
              && (r.fakeBattery ==> r.reading.v == ToDeciCelsius(chip, internalTemp) - INTERNAL_TEMP_OFFSET)
  {
    if temperature < 0 then TempOutcome(Error(temperature), fakeBattery)
    else
      var converted := ToDeciCelsius(chip, temperature);
      var t := match translate
               case Some(f) => f(converted)
               case None => converted;
      if t < THERMISTOR_FLOOR then
        TempOutcome(Value(ToDeciCelsius(chip, internalTemp) - INTERNAL_TEMP_OFFSET), true)
      else
        TempOutcome(Value(t), false)
  }

  /** Without a translation hook the internal-sensor fallback is taken
      exactly for raw readings below 2381 (BQ27500, 0.1 K units) or 953 (the
      older parts), the raw values that convert to less than -35.0 °C. */
  lemma TemperatureFallbackThreshold(chip: Chip, temperature: int, internalTemp: int, fake: bool)
    requires temperature >= 0
    ensures BatteryTemperature(chip, temperature, internalTemp, None, fake).fakeBattery <==>
              (if chip == BQ27500 then temperature < 2381 else temperature < 953)
  {
    if chip == BQ27000 {
      var t := ToDeciCelsius(chip, temperature);
      if temperature >= 953 {
        assert temperature * 5 - 5463 >= -698;
        assert t >= -349;
      } else {
        assert temperature * 5 - 5463 <= -703;
        assert t <= -351;
      }
    }
  }

  /** `bq27x00_battery_current`: average current in µA. BQ27500 reads the
      register afresh, takes it as a signed 16-bit value and negates it;
      the older parts use the cached value, negated while charging. */
  function BatteryCurrent(chip: Chip, freshAi: int, cachedCurrentNow: int, flags: int): (r: int)
    ensures chip == BQ27500 ==> r % 1000 == 0 && r / 1000 == -ToShort(freshAi)
    ensures chip == BQ27500 ==> (r > 0 <==> ToShort(freshAi) < 0)
    ensures chip == BQ27000 ==>
              var c := if Bit(flags, BQ27000_FLAG_CHGS_BIT) then -cachedCurrentNow else cachedCurrentNow;
              r == TruncDiv(c * 3570, BQ27000_RS)
  {
    if chip == BQ27500 then ToShort(freshAi) * 1000 * -1
    else
      var c := if Bit(flags, BQ27000_FLAG_CHGS_BIT) then -cachedCurrentNow else cachedCurrentNow;
      TruncDiv(c * 3570, BQ27000_RS)
  }

  /** On the older parts the charging flag flips the sign of the reported
      current and nothing else. */
  lemma CurrentSignFollowsCharging(cur: int, flags: int)
    requires Bit(flags, BQ27000_FLAG_CHGS_BIT)
    ensures BatteryCurrent(BQ27000, 0, cur, flags) == -BatteryCurrent(BQ27000, 0, cur, flags - 128)
  {
    assert !Bit(flags - 128, BQ27000_FLAG_CHGS_BIT) by {
      assert Pow2(7) == 128;
      assert (flags - 128) / 128 == flags / 128 - 1;
    }
  }
}

=== FILE: common.dfy ===
/** Shared vocabulary: the Linux error numbers the drivers return, C integer
    widths written out explicitly, truncating division, little-endian bytes,
    an Option type and bounded retry over an abstract sequence of bus
    outcomes. */
module Common {

  /** Linux errno values (the drivers return their negation). */
  const EPERM: int := 1
  const EIO: int := 5
  const ENODEV: int := 19
  const EINVAL: int := 22
  const ENODATA: int := 61

  type Byte = b: int | 0 <= b < 256

  datatype Option<+T> = None | Some(value: T)

  /** Which behaviour a member follows where the code departs from what it
      evidently intends: the code as written, or the corrected rule. */
  datatype Semantics = AsWritten | Intended

  /** C's `/` on signed integers: the quotient is truncated toward zero. */
  function TruncDiv(a: int, b: int): (q: int)
    requires b > 0
    ensures a >= 0 ==> q == a / b
    ensures a < 0 ==> q == -((-a) / b)
    ensures -a / b == -q || a >= 0
  {
    if a >= 0 then a / b else -((-a) / b)
  }

  /** Conversion of an int to C `unsigned short` (reduction modulo 2^16). */
  function ToU16(x: int): (r: int)
    ensures 0 <= r < 0x1_0000
    ensures (r - x) % 0x1_0000 == 0
    ensures 0 <= x < 0x1_0000 ==> r == x
  {
    x % 0x1_0000
  }

  /** Conversion of an int to C `short` (two's complement, 16 bits). */
  function ToShort(x: int): (r: int)
    ensures -0x8000 <= r < 0x8000
    ensures (r - x) % 0x1_0000 == 0
    ensures -0x8000 <= x < 0x8000 ==> r == x
  {
    var u := x % 0x1_0000;
    if u >= 0x8000 then u - 0x1_0000 else u
  }

  /** Conversion of an int to C `u32` (reduction modulo 2^32). */
  function ToU32(x: int): (r: int)
    ensures 0 <= r < 0x1_0000_0000
    ensures (r - x) % 0x1_0000_0000 == 0
  {
    x % 0x1_0000_0000
  }

  /** Conversion of an int to C `int` (two's complement, 32 bits). */
  function ToInt32(x: int): (r: int)
    ensures -0x8000_0000 <= r < 0x8000_0000
    ensures (r - x) % 0x1_0000_0000 == 0
  {
    var u := x % 0x1_0000_0000;
    if u >= 0x8000_0000 then u - 0x1_0000_0000 else u
  }

  /** Bit `n` of `x` in two's complement (Dafny's `%` is Euclidean, so this
      is also right for negative `x`). */
  predicate Bit(x: int, n: nat)
  {
    (x / Pow2(n)) % 2 == 1
  }

  function Pow2(n: nat): (r: nat)
    ensures r >= 1
  {
    if n == 0 then 1 else 2 * Pow2(n - 1)
  }

  /** Little-endian value of the bytes of `s`, least significant first. */
  function LittleEndian(s: seq<Byte>): (r: nat)
    ensures r < Pow2(8 * |s|)
  {
    if |s| == 0 then 0
    else
      var rest := LittleEndian(s[1..]);
      assert Pow2(8 * |s|) == 256 * Pow2(8 * |s[1..]|) by { Pow2Add8(|s[1..]|); }
      s[0] + 256 * rest
  }

  lemma Pow2Add8(n: nat)
    ensures Pow2(8 * (n + 1)) == 256 * Pow2(8 * n)
  {
    var k := 8 * n;
    assert Pow2(k + 8) == 2 * Pow2(k + 7);
    assert Pow2(k + 7) == 2 * Pow2(k + 6);
    assert Pow2(k + 6) == 2 * Pow2(k + 5);
    assert Pow2(k + 5) == 2 * Pow2(k + 4);
    assert Pow2(k + 4) == 2 * Pow2(k + 3);
    assert Pow2(k + 3) == 2 * Pow2(k + 2);
    assert Pow2(k + 2) == 2 * Pow2(k + 1);
    assert Pow2(k + 1) == 2 * Pow2(k);
  }

  /** The two bytes, low byte first, of a 16-bit two's complement value
      (`put_unaligned_le16`, or `dest[0] = v & 0xff; dest[1] = (v >> 8) & 0xff`). */
  function Le16Bytes(v: int): (r: seq<Byte>)
    ensures |r| == 2
    ensures r[0] as int + 256 * (r[1] as int) == ToU16(v)
  {
    var u := ToU16(v);
    [u % 256, u / 256]
  }

  /** `get_unaligned_le16` of two bytes. */
  function Le16(lo: Byte, hi: Byte): (r: int)
    ensures 0 <= r < 0x1_0000
    ensures r % 256 == lo && r / 256 == hi
  {
    lo as int + 256 * (hi as int)
  }

  /** Writing a 16-bit value little-endian and reading it back as a signed
      short gives the value back. */
  lemma Le16RoundTrip(v: int)
    requires -0x8000 <= v < 0x8000
    ensures var b := Le16Bytes(v); ToShort(Le16(b[0], b[1])) == v
  {
  }

  /** Index of the first attempt, among `tries` attempts starting at `from`,
      whose outcome is a success — the shape of every bounded retry loop in
      these drivers. */
  function FirstSuccess(ok: nat -> bool, from: nat, tries: nat): (r: Option<nat>)
    decreases tries
    ensures r.Some? ==> from <= r.value < from + tries && ok(r.value)
    ensures r.Some? ==> forall k :: from <= k < r.value ==> !ok(k)
    ensures r.None? ==> forall k :: from <= k < from + tries ==> !ok(k)
  {
    if tries == 0 then None
    else if ok(from) then Some(from)
    else FirstSuccess(ok, from + 1, tries - 1)
  }
}

=== FILE: dt2w.dfy ===
/** Double-tap-to-wake: a two-state tap machine over (x, y, time) that
    only listens while the framebuffer is blanked. Time is `jiffies`, an
    `unsigned long` (32 bits on this platform); the last tap time is kept
    as `unsigned long long`. */
module DoubleTap {
  import opened Common

  const DT2W_MIN_TIME_BETWEEN_TOUCHES: nat := 20
  const DT2W_MAX_TIME_BETWEEN_TOUCHES: nat := 300
  const DT2W_SECOND_TOUCH_RADIUS: nat := 60

  /** Conversion to C `unsigned long long` (reduction modulo 2^64). */
  function ToU64(x: int): (r: nat)
    ensures r < 0x1_0000_0000_0000_0000
    ensures (r - x) % 0x1_0000_0000_0000_0000 == 0
  {
    x % 0x1_0000_0000_0000_0000
  }

  predicate IsInt32(x: int)
  {
    -0x8000_0000 <= x < 0x8000_0000
  }

  // ---------------------------------------------------------------------
  // Framebuffer blank events
  // ---------------------------------------------------------------------

  /** The framebuffer notifier events, as far as this detector tells them
      apart. */
  datatype FbEvent = EventBlank | OtherEvent

  /** The blank mode carried by a blank event. */
  datatype BlankMode = Unblank | Normal | VsyncSuspend | HsyncSuspend | Powerdown | OtherMode(code: int)

  /** What the notifier is handed: `hasEvent` and `hasData` are whether the
      event record and its data pointer are non-null. */
  datatype FbNotice = FbNotice(hasEvent: bool, hasData: bool, mode: BlankMode)

  /** The notifier's answer; the callback always answers "ok". */
  datatype NotifyResult = NotifyOk

  /** `fb_notifier_callback`: the new screen-off flag and the answer. */
  function FbNotify(screenOff: bool, event: FbEvent, notice: FbNotice): (r: (NotifyResult, bool))
    ensures r.0 == NotifyOk
    ensures r.1 != screenOff ==> event == EventBlank && notice.hasEvent && notice.hasData
    ensures event == EventBlank && notice.hasEvent && notice.hasData ==>
              (notice.mode == Unblank ==> !r.1) &&
              (notice.mode in {Normal, VsyncSuspend, HsyncSuspend, Powerdown} ==> r.1) &&
              (notice.mode.OtherMode? ==> r.1 == screenOff)
  {
    if notice.hasEvent && notice.hasData && event == EventBlank then
      match notice.mode
      case Unblank => (NotifyOk, false)
      case Normal => (NotifyOk, true)
      case VsyncSuspend => (NotifyOk, true)
      case HsyncSuspend => (NotifyOk, true)
      case Powerdown => (NotifyOk, true)
      case OtherMode(_) => (NotifyOk, screenOff)
    else (NotifyOk, screenOff)
  }

  /** Blank events are idempotent: a repeated notice leaves the flag as the
      first one set it. */
  lemma FbNotifyIdempotent(screenOff: bool, event: FbEvent, notice: FbNotice)
    ensures var once := FbNotify(screenOff, event, notice).1;
            FbNotify(once, event, notice).1 == once
  {
  }

  /** `fb_notifier_register`: `registration` is what the framebuffer client
      registration returns; the result is true when it failed. */
  function FbRegister(registration: int): (failed: bool)
    ensures failed <==> registration != 0
  {
    if registration != 0 then true else false
  }

  // ---------------------------------------------------------------------
  // The tap machine
  // ---------------------------------------------------------------------

  /** The detector's statics. */
  datatype TapState = TapState(screenOff: bool, lastTapTime: nat, lastX: int, lastY: int, touchCount: int)

  const InitialTapState: TapState := TapState(false, 0, 0, 0, 0)

  /** No tap pending: the state `doubletap2wake_reset` leaves. */
  predicate Idle(s: TapState)
  {
    s.touchCount == 0 && s.lastTapTime == 0 && s.lastX == 0 && s.lastY == 0
  }

  /** `calc_feather`: the distance between two coordinates, computed in
      `int` with two's-complement wrap and returned as `unsigned int`. */
  function CalcFeather(coord: int, prevCoord: int): (r: nat)
    ensures r < 0x1_0000_0000
  {
    var d := ToInt32(coord - prevCoord);
    ToU32(if d < 0 then -d else d)
  }

  /** Whenever the difference fits in an `int` the feather is the distance. */
  lemma CalcFeatherIsDistance(coord: int, prevCoord: int)
    requires IsInt32(coord - prevCoord)
    ensures CalcFeather(coord, prevCoord) == if coord >= prevCoord then coord - prevCoord else prevCoord - coord
  {
  }

  /** The feather is symmetric, wrap included. */
  lemma CalcFeatherSymmetric(a: int, b: int)
    ensures CalcFeather(a, b) == CalcFeather(b, a)
  {
    var d := ToInt32(a - b);
    var e := ToInt32(b - a);
    assert d == -e || d == e == -0x8000_0000;
  }

  /** `doubletap2wake_reset`. */
  function Reset(s: TapState): (r: TapState)
    ensures Idle(r) && r.screenOff == s.screenOff
  {
    TapState(s.screenOff, 0, 0, 0, 0)
  }

  /** `new_touch`: remember the touch at the current jiffies. */
  function NewTouch(s: TapState, x: int, y: int, jiffies: nat): (r: TapState)
    ensures r.screenOff == s.screenOff
    ensures (r.lastX, r.lastY, r.lastTapTime) == (x, y, jiffies)
    ensures r.touchCount == s.touchCount + 1
  {
    TapState(s.screenOff, jiffies, x, y, s.touchCount + 1)
  }

  /** Whether a touch at (x, y) at `jiffies` is the second tap of a
      double tap after the remembered one. */
  predicate SecondTap(s: TapState, x: int, y: int, jiffies: nat)
  {
    var elapsed := ToU64(jiffies - s.lastTapTime);
    CalcFeather(x, s.lastX) < DT2W_SECOND_TOUCH_RADIUS &&
    CalcFeather(y, s.lastY) < DT2W_SECOND_TOUCH_RADIUS &&
    elapsed < DT2W_MAX_TIME_BETWEEN_TOUCHES &&
    elapsed > DT2W_MIN_TIME_BETWEEN_TOUCHES
  }

  /** `detect_dt2w_event`: whether the touch completes a double tap, and
      the statics after it. */
  function DetectTap(s: TapState, x: int, y: int, jiffies: nat): (r: (bool, TapState))
    requires jiffies < 0x1_0000_0000
    ensures !s.screenOff ==> r == (false, s)
    ensures r.0 <==> s.screenOff && s.touchCount == 1 && SecondTap(s, x, y, jiffies)
    ensures r.0 ==> Idle(r.1) && r.1.screenOff
    ensures s.screenOff && s.touchCount in {0, 1} && !r.0 ==>
              r.1 == TapState(true, jiffies, x, y, 1)
    ensures !(s.touchCount in {0, 1}) ==> r == (false, s)
  {
    if !s.screenOff then (false, s)
    else if s.touchCount == 0 then (false, NewTouch(s, x, y, jiffies))
    else if s.touchCount == 1 then
      if SecondTap(s, x, y, jiffies) then (true, Reset(s))
      else (false, NewTouch(Reset(s), x, y, jiffies))
    else (false, s)
  }

  /** The tap count only ever takes the values 0 and 1. */
  predicate CountInRange(s: TapState)
  {
    s.touchCount == 0 || s.touchCount == 1
  }

  /** Every step of the machine keeps the tap count in range, and the
      initial state starts there. */
  lemma CountStaysInRange(s: TapState, x: int, y: int, jiffies: nat, event: FbEvent, notice: FbNotice)
    requires CountInRange(s) && jiffies < 0x1_0000_0000
    ensures CountInRange(InitialTapState)
    ensures CountInRange(DetectTap(s, x, y, jiffies).1)
    ensures CountInRange(s.(screenOff := FbNotify(s.screenOff, event, notice).1))
  {
  }

  /** A run of touches from some state: whether any of them woke the
      device, and the final state. */
  function Run(s: TapState, touches: seq<(int, int, nat)>): (r: (bool, TapState))
    requires forall i :: 0 <= i < |touches| ==> touches[i].2 < 0x1_0000_0000
    ensures CountInRange(s) ==> CountInRange(r.1)
    decreases |touches|
  {
    if |touches| == 0 then (false, s)
    else
      var step := DetectTap(s, touches[0].0, touches[0].1, touches[0].2);
      var rest := Run(step.1, touches[1..]);
      (step.0 || rest.0, rest.1)
  }

  /** With the screen off, two taps close in place and 21 to 299 jiffies
      apart wake the device from any state with no pending tap. */
  lemma DoubleTapWakes(s: TapState, x1: int, y1: int, t1: nat, x2: int, y2: int, t2: nat)
    requires Idle(s) && s.screenOff
    requires IsInt32(x2 - x1) && IsInt32(y2 - y1)
    requires t1 <= t2 < 0x1_0000_0000
    requires -60 < x2 - x1 < 60 && -60 < y2 - y1 < 60
    requires 20 < t2 - t1 < 300
    ensures var first := DetectTap(s, x1, y1, t1);
            !first.0 && DetectTap(first.1, x2, y2, t2).0
  {
    CalcFeatherIsDistance(x2, x1);
    CalcFeatherIsDistance(y2, y1);
  }

  /** A single touch never wakes the device from a state with no pending
      tap. */
  lemma SingleTapNeverWakes(s: TapState, x: int, y: int, t: nat)
    requires Idle(s) && t < 0x1_0000_0000
    ensures !DetectTap(s, x, y, t).0
  {
  }

  /** When jiffies wrapped between the two taps, the elapsed time in
      `unsigned long long` is huge and the second tap is not accepted. */
  lemma WrappedJiffiesRejected(s: TapState, x: int, y: int, jiffies: nat)
    requires s.screenOff && s.touchCount == 1 && jiffies < s.lastTapTime < 0x1_0000_0000
    ensures !DetectTap(s, x, y, jiffies).0
  {
  }
}

=== FILE: steam_commands.dfy ===
/** Steam Controller: the feature reports the driver sends (`steam_ops`, the
    audio and right-trackpad-mode debugfs setters), the settings encoding
    they share, and the button keymap used by `steam_input_mapping`. */
module SteamCommands {
  import opened Common

  /** Feature-report opcodes (second byte of every command). */
  const CLEAR_DIGITAL_MAPPINGS: Byte := 0x81
  const SET_SETTINGS_VALUES: Byte := 0x87
  const TURN_OFF_CONTROLLER: Byte := 0x9F
  const ENABLE_PAIRING: Byte := 0xAD
  const DONGLE_DISCONNECT_DEVICE: Byte := 0xB2
  const DONGLE_COMMIT_DEVICE: Byte := 0xB3
  const PLAY_AUDIO: Byte := 0xB6

  /** Setting identifiers. */
  const SETTING_LEFT_TRACKPAD_MODE: Byte := 7
  const SETTING_RIGHT_TRACKPAD_MODE: Byte := 8
  const SETTING_SMOOTH_ABSOLUTE_MOUSE: Byte := 24
  const SETTING_LED_USER_BRIGHTNESS: Byte := 45
  const SETTING_GYRO_MODE: Byte := 48
  const SETTING_SLEEP_INACTIVITY_TIMEOUT: Byte := 50

  const RIGHT_TRACKPAD_MODE_MIN: int := 0
  const RIGHT_TRACKPAD_MODE_MAX: int := 8

  /** The highest audio index (sounds 0..6: startup … normal mode). */
  const STEAM_AUDIO_TYPES: int := 6

  const REPORT_ID: Byte := 0

  /** The `steam_controller_ops` enumeration. */
  const INIT_SETTING: int := 0
  const START_PAIRING: int := 1
  const DONGLE_COMMIT: int := 2
  const DONGLE_DISCONNECT: int := 3
  const TURNOFF: int := 4

  /** `n` zero bytes. */
  function Zeros(n: nat): (r: seq<Byte>)
    ensures |r| == n && forall i :: 0 <= i < n ==> r[i] == 0
  {
    seq(n, _ => 0)
  }

  /** A command of fixed size: `s` followed by zero bytes. */
  function Pad(s: seq<Byte>, size: nat): (r: seq<Byte>)
    requires |s| <= size
    ensures |r| == size && r[..|s|] == s
    ensures forall i :: |s| <= i < size ==> r[i] == 0
  {
    s + Zeros(size - |s|)
  }

  // ---------------------------------------------------------------------
  // The settings encoding
  // ---------------------------------------------------------------------

  /** One setting: an identifier and a 16-bit value. */
  datatype Setting = Setting(id: Byte, value: int)

  predicate ValidSettings(settings: seq<Setting>)
  {
    forall i :: 0 <= i < |settings| ==> 0 <= settings[i].value < 0x1_0000
  }

  /** Each setting as three bytes: identifier, value low byte, high byte. */
  function EncodeTriples(settings: seq<Setting>): (r: seq<Byte>)
    ensures |r| == 3 * |settings|
  {
    if |settings| == 0 then []
    else
      var b := Le16Bytes(settings[0].value);
      [settings[0].id, b[0], b[1]] + EncodeTriples(settings[1..])
  }

  /** Reading `count` triples back. */
  function DecodeTriples(bytes: seq<Byte>, count: nat): (r: seq<Setting>)
    requires 3 * count <= |bytes|
    ensures |r| == count && ValidSettings(r)
  {
    if count == 0 then []
    else [Setting(bytes[0], Le16(bytes[1], bytes[2]))] + DecodeTriples(bytes[3..], count - 1)
  }

  /** A SET_SETTINGS_VALUES command of `size` bytes: report id, opcode, the
      byte count of the triples, the triples, zero padding. */
  function SettingsCommand(settings: seq<Setting>, size: nat): (r: seq<Byte>)
    requires 3 * |settings| < 256 && 3 + 3 * |settings| <= size
    ensures |r| == size
    ensures r[0] == REPORT_ID && r[1] == SET_SETTINGS_VALUES && r[2] == 3 * |settings|
  {
    Pad([REPORT_ID, SET_SETTINGS_VALUES, 3 * |settings|] + EncodeTriples(settings), size)
  }

  /** What a SET_SETTINGS_VALUES command asks for: the triples its count
      byte announces, or None when it is not such a command. */
  function DecodeSettingsCommand(cmd: seq<Byte>): (r: Option<seq<Setting>>)
    ensures r.Some? ==> |cmd| >= 3 && cmd[1] == SET_SETTINGS_VALUES && 3 * |r.value| == cmd[2] <= |cmd| - 3
    ensures r.None? <==> |cmd| < 3 || cmd[1] != SET_SETTINGS_VALUES || cmd[2] % 3 != 0 || cmd[2] > |cmd| - 3
  {
    if |cmd| < 3 || cmd[1] != SET_SETTINGS_VALUES || cmd[2] % 3 != 0 || cmd[2] > |cmd| - 3 then None
    else Some(DecodeTriples(cmd[3..], cmd[2] / 3))
  }

  lemma {:induction false} TriplesRoundTrip(settings: seq<Setting>, tail: seq<Byte>)
    requires ValidSettings(settings)
    ensures DecodeTriples(EncodeTriples(settings) + tail, |settings|) == settings
  {
    if |settings| > 0 {
      var b := Le16Bytes(settings[0].value);
      var whole := EncodeTriples(settings) + tail;
      assert whole == [settings[0].id, b[0], b[1]] + (EncodeTriples(settings[1..]) + tail);
      assert whole[3..] == EncodeTriples(settings[1..]) + tail;
      assert ValidSettings(settings[1..]) by {
        forall i | 0 <= i < |settings[1..]|
          ensures 0 <= settings[1..][i].value < 0x1_0000
        {
          assert settings[1..][i] == settings[i + 1];
        }
      }
      TriplesRoundTrip(settings[1..], tail);
      assert Le16(b[0], b[1]) == settings[0].value;
      assert DecodeTriples(whole, |settings|)[0] == settings[0];
    }
  }

  /** A settings command decodes to exactly the settings it was built from. */
  lemma SettingsRoundTrip(settings: seq<Setting>, size: nat)
    requires ValidSettings(settings) && 3 * |settings| < 256 && 3 + 3 * |settings| <= size
    ensures DecodeSettingsCommand(SettingsCommand(settings, size)) == Some(settings)
  {
    var cmd := SettingsCommand(settings, size);
    var body := [REPORT_ID, SET_SETTINGS_VALUES, 3 * |settings|] + EncodeTriples(settings);
    assert cmd == body + Zeros(size - |body|);
    assert cmd[3..] == EncodeTriples(settings) + Zeros(size - |body|);
    TriplesRoundTrip(settings, Zeros(size - |body|));
  }

  // ---------------------------------------------------------------------
  // steam_ops
  // ---------------------------------------------------------------------

  /** The eight-byte command carrying only an opcode. */
  function OpcodeCommand(opcode: Byte): (r: seq<Byte>)
    ensures |r| == 8 && r[0] == REPORT_ID && r[1] == opcode
    ensures forall i :: 2 <= i < 8 ==> r[i] == 0
  {
    Pad([REPORT_ID, opcode], 8)
  }

  /** The settings the initialisation asks for: left pad mode 7, right pad
      mode 0, smoothing 15, LED brightness 100, gyro mode 0x1c and a sleep
      timeout of 1800 seconds. */
  const DefaultSettings: seq<Setting> := [
    Setting(SETTING_LEFT_TRACKPAD_MODE, 7),
    Setting(SETTING_RIGHT_TRACKPAD_MODE, 0),
    Setting(SETTING_SMOOTH_ABSOLUTE_MOUSE, 15),
    Setting(SETTING_LED_USER_BRIGHTNESS, 100),
    Setting(SETTING_GYRO_MODE, 0x1c),
    Setting(SETTING_SLEEP_INACTIVITY_TIMEOUT, 1800)]

  /** The 32-byte initialisation command. */
  const InitSettingsCommand: seq<Byte> := SettingsCommand(DefaultSettings, 32)

  /** The triples of the initialisation command, byte for byte: the count
      byte is 0x12 and the sleep timeout goes out as 0x08, 0x07. */
  lemma DefaultsEncode()
    ensures InitSettingsCommand[2] == 0x12
    ensures EncodeTriples(DefaultSettings) == [
      SETTING_LEFT_TRACKPAD_MODE, 0x07, 0x00,
      SETTING_RIGHT_TRACKPAD_MODE, 0x00, 0x00,
      SETTING_SMOOTH_ABSOLUTE_MOUSE, 0x0f, 0x00,
      SETTING_LED_USER_BRIGHTNESS, 0x64, 0x00,
      SETTING_GYRO_MODE, 0x1c, 0x00,
      SETTING_SLEEP_INACTIVITY_TIMEOUT, 0x08, 0x07]
  {
    var d := DefaultSettings;
    DefaultsEncodeTail();
    assert Le16Bytes(15) == [0x0f, 0x00] && Le16Bytes(0) == [0x00, 0x00] && Le16Bytes(7) == [0x07, 0x00];
    assert EncodeTriples(d[2..]) == [SETTING_SMOOTH_ABSOLUTE_MOUSE, 0x0f, 0x00] + EncodeTriples(d[3..]) by {
      assert d[2..][1..] == d[3..];
    }
    assert EncodeTriples(d[1..]) == [SETTING_RIGHT_TRACKPAD_MODE, 0x00, 0x00] + EncodeTriples(d[2..]) by {
      assert d[1..][1..] == d[2..];
    }
    assert EncodeTriples(d) == [SETTING_LEFT_TRACKPAD_MODE, 0x07, 0x00] + EncodeTriples(d[1..]);
  }

  /** The last three default settings, encoded. */
  lemma DefaultsEncodeTail()
    ensures EncodeTriples(DefaultSettings[3..]) == [
      SETTING_LED_USER_BRIGHTNESS, 0x64, 0x00,
      SETTING_GYRO_MODE, 0x1c, 0x00,
      SETTING_SLEEP_INACTIVITY_TIMEOUT, 0x08, 0x07]
  {
    var d := DefaultSettings;
    assert Le16Bytes(1800) == [0x08, 0x07] && Le16Bytes(0x1c) == [0x1c, 0x00] && Le16Bytes(100) == [0x64, 0x00];
    assert EncodeTriples(d[5..]) == [SETTING_SLEEP_INACTIVITY_TIMEOUT, 0x08, 0x07] by {
      assert d[5..][1..] == [];
    }
    assert EncodeTriples(d[4..]) == [SETTING_GYRO_MODE, 0x1c, 0x00] + EncodeTriples(d[5..]) by {
      assert d[4..][1..] == d[5..];
    }
    assert EncodeTriples(d[3..]) == [SETTING_LED_USER_BRIGHTNESS, 0x64, 0x00] + EncodeTriples(d[4..]) by {
      assert d[3..][1..] == d[4..];
    }
  }

  /** The initialisation command asks for exactly the six default settings. */
  lemma InitSettingsAreDefaults()
    ensures DecodeSettingsCommand(InitSettingsCommand) == Some(DefaultSettings)
  {
    SettingsRoundTrip(DefaultSettings, 32);
  }

  /** Outcome of `steam_ops`: the return value, the commands sent in order,
      and whether `was_rtp_used` was cleared. */
  datatype OpsOutcome = OpsOutcome(ret: int, sent: seq<seq<Byte>>, rtpCleared: bool)

  /** `steam_ops`. `hasDevice`/`hasData` say whether the HID device and its
      driver data exist; `send(k)` is the return of the k-th transfer. */
  function SteamOps(hasDevice: bool, hasData: bool, ops: int, send: nat -> int): (r: OpsOutcome)
    ensures !hasDevice || !hasData || !(INIT_SETTING <= ops <= TURNOFF) ==> r == OpsOutcome(-EINVAL, [], false)
    ensures r.rtpCleared <==> hasDevice && hasData && ops == INIT_SETTING
    ensures r.rtpCleared ==>
              r.sent == [OpcodeCommand(CLEAR_DIGITAL_MAPPINGS), InitSettingsCommand] && r.ret == send(1)
    ensures hasDevice && hasData && START_PAIRING <= ops <= TURNOFF ==>
              |r.sent| == 1 && |r.sent[0]| == 8 && r.ret == send(0)
    ensures forall k :: 0 <= k < |r.sent| ==> r.sent[k][0] == REPORT_ID
  {
    if !hasDevice || !hasData then OpsOutcome(-EINVAL, [], false)
    else if ops == INIT_SETTING then
      var _ := send(0);
      OpsOutcome(send(1), [OpcodeCommand(CLEAR_DIGITAL_MAPPINGS), InitSettingsCommand], true)
    else if ops == START_PAIRING then OpsOutcome(send(0), [OpcodeCommand(ENABLE_PAIRING)], false)
    else if ops == DONGLE_COMMIT then OpsOutcome(send(0), [OpcodeCommand(DONGLE_COMMIT_DEVICE)], false)
    else if ops == DONGLE_DISCONNECT then OpsOutcome(send(0), [OpcodeCommand(DONGLE_DISCONNECT_DEVICE)], false)
    else if ops == TURNOFF then OpsOutcome(send(0), [OpcodeCommand(TURN_OFF_CONTROLLER)], false)
    else OpsOutcome(-EINVAL, [], false)
  }

  /** Opcode of the first command each operation sends. */
  function FirstOpcode(ops: int): Byte
    requires INIT_SETTING <= ops <= TURNOFF
  {
    [CLEAR_DIGITAL_MAPPINGS, ENABLE_PAIRING, DONGLE_COMMIT_DEVICE, DONGLE_DISCONNECT_DEVICE, TURN_OFF_CONTROLLER][ops]
  }

  lemma FirstCommandOpcode(ops: int, send: nat -> int)
    requires INIT_SETTING <= ops <= TURNOFF
    ensures SteamOps(true, true, ops, send).sent[0] == OpcodeCommand(FirstOpcode(ops))
  {
  }

  /** The operations are told apart by what reaches the controller: each
      sends a different first command, the initialisation alone sends a
      second one, and that one asks for the default settings. */
  lemma OpsSendDistinctCommands(ops1: int, ops2: int, send: nat -> int)
    requires INIT_SETTING <= ops1 <= TURNOFF && INIT_SETTING <= ops2 <= TURNOFF
    ensures SteamOps(true, true, ops1, send).sent[0][1] == SteamOps(true, true, ops2, send).sent[0][1] <==> ops1 == ops2
    ensures ops1 != INIT_SETTING ==> SteamOps(true, true, ops1, send).sent == [OpcodeCommand(FirstOpcode(ops1))]
    ensures DecodeSettingsCommand(SteamOps(true, true, INIT_SETTING, send).sent[1]) == Some(DefaultSettings)
  {
    FirstCommandOpcode(ops1, send);
    FirstCommandOpcode(ops2, send);
    InitSettingsAreDefaults();
  }

  // ---------------------------------------------------------------------
  // Debugfs setters
  // ---------------------------------------------------------------------

  /** Outcome of a setter: return value and the command sent, if any. */
  datatype SetOutcome = SetOutcome(ret: int, sent: Option<seq<Byte>>)

  /** The PLAY_AUDIO command for an audio index. */
  function AudioCommand(index: Byte): (r: seq<Byte>)
    ensures |r| == 16 && r[1] == PLAY_AUDIO && r[2] == 4 && r[3] == index
  {
    Pad([REPORT_ID, PLAY_AUDIO, 0x04, index], 16)
  }

  /** `steam_sound_set` as written: the written value `val` (a u64) is cut
      to `int`; any value not above STEAM_AUDIO_TYPES is accepted, and its
      low byte is sent as the audio index. The transfer's result is
      discarded. */
  function SoundSetAsWritten(hasDevice: bool, val: nat): (r: SetOutcome)
    ensures r.ret == 0 <==> r.sent.Some?
    ensures r.ret != 0 ==> r.ret == -EINVAL
    ensures r.sent.Some? <==> hasDevice && ToInt32(val) <= STEAM_AUDIO_TYPES
    ensures r.sent.Some? ==> r.sent.value == AudioCommand(ToInt32(val) % 256)
  {
    var index := ToInt32(val) % 256;
    if !hasDevice || ToInt32(val) > STEAM_AUDIO_TYPES then SetOutcome(-EINVAL, None)
    else SetOutcome(0, Some(AudioCommand(index)))
  }

  /** Writing 4294967295 (the int -1) is accepted and plays audio index
      255, which is not one of the seven sounds. */
  lemma NegativeSoundAccepted()
    ensures SoundSetAsWritten(true, 0xFFFF_FFFF) == SetOutcome(0, Some(AudioCommand(255)))
  {
  }

  /** `steam_sound_set` with the lower bound the right-trackpad setter
      applies as well: only the indices 0..STEAM_AUDIO_TYPES are sent. */
  function SoundSet(hasDevice: bool, val: nat): (r: SetOutcome)
    ensures r.ret == 0 <==> r.sent.Some?
    ensures r.ret != 0 ==> r.ret == -EINVAL
    ensures r.sent.Some? <==> hasDevice && 0 <= ToInt32(val) <= STEAM_AUDIO_TYPES
    ensures r.sent.Some? ==> exists index :: 0 <= index <= STEAM_AUDIO_TYPES && r.sent.value == AudioCommand(index)
  {
    var n := ToInt32(val);
    if !hasDevice || n > STEAM_AUDIO_TYPES || n < 0 then SetOutcome(-EINVAL, None)
    else SetOutcome(0, Some(AudioCommand(n)))
  }

  /** The two agree on every value the intended bound admits. */
  lemma SoundSetAgrees(hasDevice: bool, val: nat)
    ensures ToInt32(val) >= 0 ==> SoundSet(hasDevice, val) == SoundSetAsWritten(hasDevice, val)
    ensures ToInt32(val) < 0 ==> SoundSet(hasDevice, val).sent.None?
  {
  }

  /** `steam_rtp_mode_set`: the value cut to `int` must lie in the mode
      range; the mode goes out as a one-setting SET_SETTINGS_VALUES
      command, and the transfer's result is discarded. */
  function RtpModeSet(hasDevice: bool, val: nat): (r: SetOutcome)
    ensures r.ret == 0 <==> r.sent.Some?
    ensures r.ret != 0 ==> r.ret == -EINVAL
    ensures r.sent.Some? <==> hasDevice && RIGHT_TRACKPAD_MODE_MIN <= ToInt32(val) <= RIGHT_TRACKPAD_MODE_MAX
    ensures r.sent.Some? ==> |r.sent.value| == 16
  {
    var mode := ToInt32(val) % 256;
    var cmd := [REPORT_ID, SET_SETTINGS_VALUES, 0x03, SETTING_RIGHT_TRACKPAD_MODE, mode, 0x00,
                0x00, 0x00, 0x00, 0x00, 0x00, 0x00, 0x00, 0x00, 0x00, 0x00];
    if !hasDevice || ToInt32(val) > RIGHT_TRACKPAD_MODE_MAX || ToInt32(val) < RIGHT_TRACKPAD_MODE_MIN then
      SetOutcome(-EINVAL, None)
    else SetOutcome(0, Some(cmd))
  }

  /** An accepted mode reaches the controller as the right-trackpad setting
      with exactly that value. */
  lemma RtpModeSetsRightTrackpad(val: nat)
    requires RIGHT_TRACKPAD_MODE_MIN <= ToInt32(val) <= RIGHT_TRACKPAD_MODE_MAX
    ensures var r := RtpModeSet(true, val);
            r.sent == Some(SettingsCommand([Setting(SETTING_RIGHT_TRACKPAD_MODE, ToInt32(val))], 16)) &&
            DecodeSettingsCommand(r.sent.value) == Some([Setting(SETTING_RIGHT_TRACKPAD_MODE, ToInt32(val))])
  {
    var s := [Setting(SETTING_RIGHT_TRACKPAD_MODE, ToInt32(val))];
    assert EncodeTriples(s) == [SETTING_RIGHT_TRACKPAD_MODE, ToInt32(val), 0] by {
      assert s[1..] == [];
    }
    var body := [REPORT_ID, SET_SETTINGS_VALUES, 3] + EncodeTriples(s);
    var cmd := RtpModeSet(true, val).sent.value;
    assert cmd[..6] == body;
    assert cmd[6..] == Zeros(10);
    assert cmd == cmd[..6] + cmd[6..];
    SettingsRoundTrip(s, 16);
  }

  // ---------------------------------------------------------------------
  // Input mapping
  // ---------------------------------------------------------------------

  /** The input key codes of the keymap. */
  datatype KeyCode =
    | BtnTR2 | BtnTL2 | BtnTR | BtnTL | BtnY | BtnB | BtnX | BtnA
    | KeyUp | KeyRight | KeyLeft | KeyDown | KeyBack | KeyPower | BtnStart
    | KeyVolumeDown | KeyVolumeUp | BtnThumbL | BtnThumbR | KeyReserved

  const STEAM_KEYMAP_SIZE: int := 23

  /** `steam_keymap`: entry i is the key for button usage i + 1; entries
      19..21 are unused and 22 is the joystick centre button. */
  const Keymap: seq<KeyCode> := [
    BtnTR2, BtnTL2, BtnTR, BtnTL, BtnY, BtnB, BtnX, BtnA,
    KeyUp, KeyRight, KeyLeft, KeyDown, KeyBack, KeyPower, BtnStart,
    KeyVolumeDown, KeyVolumeUp, BtnThumbL, BtnThumbR,
    KeyReserved, KeyReserved, KeyReserved,
    BtnA]

  const HID_USAGE_PAGE: int := 0xFFFF_0000
  const HID_USAGE: int := 0x0000_FFFF
  const HID_UP_BUTTON: int := 0x0009_0000

  /** A usage as the HID core hands it over. */
  datatype Usage = Usage(collectionIndex: int, hid: int)

  /** The page part (`hid & HID_USAGE_PAGE`) and usage part of a 32-bit
      usage code. */
  function UsagePage(hid: int): int
    requires 0 <= hid < 0x1_0000_0000
  {
    hid - hid % 0x1_0000
  }

  function UsageId(hid: int): int
    requires 0 <= hid < 0x1_0000_0000
  {
    hid % 0x1_0000
  }

  /** A usage code splits into its page and its usage id. */
  lemma UsageSplit(page: nat, id: nat)
    requires page < 0x1_0000 && id < 0x1_0000
    ensures UsagePage(page * 0x1_0000 + id) == page * 0x1_0000
    ensures UsageId(page * 0x1_0000 + id) == id
  {
  }

  /** Outcome of the mapping hook: a return value with the keymap entry used
      (return 1), or a read outside the keymap. */
  datatype Mapping =
    | Returned(ret: int, entry: Option<nat>)
    | OutOfTable

  /** `steam_input_mapping` as written: button usages below the keymap size
      are looked up at usage − 1, so usage 0 reads outside the table and the
      last entry is never looked up. */
  function InputMappingAsWritten(usage: Option<Usage>, hasField: bool): (r: Mapping)
    requires usage.Some? ==> 0 <= usage.value.hid < 0x1_0000_0000
    ensures usage.None? || !hasField ==> r == Returned(-1, None)
    ensures r.OutOfTable? <==> usage.Some? && hasField && usage.value.collectionIndex == 1 &&
                               UsagePage(usage.value.hid) == HID_UP_BUTTON && UsageId(usage.value.hid) == 0
    ensures r.Returned? && r.entry.Some? ==>
              r.ret == 1 && r.entry.value < STEAM_KEYMAP_SIZE && Keymap[r.entry.value] != KeyReserved &&
              r.entry.value == UsageId(usage.value.hid) - 1
    ensures r == Returned(0, None) <==> usage.Some? && hasField && usage.value.collectionIndex == 1 &&
                                        UsagePage(usage.value.hid) != HID_UP_BUTTON
  {
    if usage.None? || !hasField then Returned(-1, None)
    else if usage.value.collectionIndex != 1 then Returned(-1, None)
    else
      var key := UsageId(usage.value.hid);
      if UsagePage(usage.value.hid) == HID_UP_BUTTON then
        if key >= STEAM_KEYMAP_SIZE then Returned(-1, None)
        else if key == 0 then OutOfTable
        else if Keymap[key - 1] == KeyReserved then Returned(-1, None)
        else Returned(1, Some(key - 1))
      else Returned(0, None)
  }

  /** As written, the joystick centre button (the keymap's last entry) can
      never be mapped. */
  lemma LastEntryUnreachableAsWritten(usage: Usage, hasField: bool)
    requires 0 <= usage.hid < 0x1_0000_0000
    ensures InputMappingAsWritten(Some(usage), hasField) != Returned(1, Some(STEAM_KEYMAP_SIZE - 1))
  {
  }

  /** Button usage 0 on the main collection passes the guard, and the
      unsigned index `key - 1` is 0xFFFFFFFF: an element outside the keymap
      (the one just before it when pointers are 32 bits wide). */
  lemma UsageZeroReadsOutsideTable()
    ensures InputMappingAsWritten(Some(Usage(1, HID_UP_BUTTON)), true) == OutOfTable
    ensures ToU32(UsageId(HID_UP_BUTTON) - 1) == 0xFFFF_FFFF
  {
  }

  /** `steam_input_mapping` with the range the index conversion needs:
      button usages 1..STEAM_KEYMAP_SIZE are looked up at usage − 1. */
  function InputMapping(usage: Option<Usage>, hasField: bool): (r: Mapping)
    requires usage.Some? ==> 0 <= usage.value.hid < 0x1_0000_0000
    ensures r.Returned?
    ensures usage.None? || !hasField ==> r == Returned(-1, None)
    ensures r.entry.Some? ==>
              r.ret == 1 && r.entry.value < STEAM_KEYMAP_SIZE && Keymap[r.entry.value] != KeyReserved &&
              r.entry.value == UsageId(usage.value.hid) - 1
    ensures r.ret == 1 <==> r.entry.Some?
    ensures r.ret == 0 <==> usage.Some? && hasField && usage.value.collectionIndex == 1 &&
                            UsagePage(usage.value.hid) != HID_UP_BUTTON
    ensures r.ret != 0 && r.ret != 1 ==> r == Returned(-1, None)
  {
    if usage.None? || !hasField then Returned(-1, None)
    else if usage.value.collectionIndex != 1 then Returned(-1, None)
    else
      var key := UsageId(usage.value.hid);
      if UsagePage(usage.value.hid) == HID_UP_BUTTON then
        if key > STEAM_KEYMAP_SIZE || key == 0 then Returned(-1, None)
        else if Keymap[key - 1] == KeyReserved then Returned(-1, None)
        else Returned(1, Some(key - 1))
      else Returned(0, None)
  }

  /** With the intended range every used keymap entry, the joystick centre
      included, is reached by exactly one button usage. */
  lemma EveryEntryReachable(i: nat)
    requires i < STEAM_KEYMAP_SIZE && Keymap[i] != KeyReserved
    ensures InputMapping(Some(Usage(1, HID_UP_BUTTON + i + 1)), true) == Returned(1, Some(i))
    ensures forall hid :: 0 <= hid < 0x1_0000_0000 && InputMapping(Some(Usage(1, hid)), true) == Returned(1, Some(i)) ==>
              hid == HID_UP_BUTTON + i + 1
  {
    EntryReached(i);
    forall hid | 0 <= hid < 0x1_0000_0000 && InputMapping(Some(Usage(1, hid)), true) == Returned(1, Some(i))
      ensures hid == HID_UP_BUTTON + i + 1
    {
      OnlyUsageFor(i, hid);
    }
  }

  lemma EntryReached(i: nat)
    requires i < STEAM_KEYMAP_SIZE && Keymap[i] != KeyReserved
    ensures InputMapping(Some(Usage(1, HID_UP_BUTTON + i + 1)), true) == Returned(1, Some(i))
  {
    ButtonUsage(i + 1);
    ButtonMapped(HID_UP_BUTTON + i + 1);
  }

  lemma ButtonUsage(id: nat)
    requires id < 0x1_0000
    ensures UsagePage(HID_UP_BUTTON + id) == HID_UP_BUTTON && UsageId(HID_UP_BUTTON + id) == id
  {
    assert HID_UP_BUTTON + id == 9 * 0x1_0000 + id;
    UsageSplit(9, id);
  }

  lemma ButtonMapped(hid: int)
    requires 0 <= hid < 0x1_0000_0000 && UsagePage(hid) == HID_UP_BUTTON
    requires 0 < UsageId(hid) <= STEAM_KEYMAP_SIZE && Keymap[UsageId(hid) - 1] != KeyReserved
    ensures InputMapping(Some(Usage(1, hid)), true) == Returned(1, Some(UsageId(hid) - 1))
  {
  }

  lemma OnlyUsageFor(i: nat, hid: int)
    requires 0 <= hid < 0x1_0000_0000 && InputMapping(Some(Usage(1, hid)), true) == Returned(1, Some(i))
    ensures hid == HID_UP_BUTTON + i + 1
  {
    var m := InputMapping(Some(Usage(1, hid)), true);
    assert m.ret != 0 && m.entry == Some(i);
    assert UsagePage(hid) == HID_UP_BUTTON && UsageId(hid) == i + 1;
    assert hid == UsagePage(hid) + UsageId(hid);
  }

  /** The two agree except at usage 0 and at the last keymap entry. */
  lemma InputMappingAgrees(usage: Usage, hasField: bool)
    requires 0 <= usage.hid < 0x1_0000_0000
    requires UsagePage(usage.hid) != HID_UP_BUTTON || 0 < UsageId(usage.hid) < STEAM_KEYMAP_SIZE ||
             UsageId(usage.hid) > STEAM_KEYMAP_SIZE
    ensures InputMapping(Some(usage), hasField) == InputMappingAsWritten(Some(usage), hasField)
  {
  }

  /** The keys the device announces at setup: every used keymap entry. */
  function AnnouncedKeys(): (keys: set<KeyCode>)
    ensures KeyReserved !in keys
    ensures forall i :: 0 <= i < |Keymap| && Keymap[i] != KeyReserved ==> Keymap[i] in keys
  {
    set i | 0 <= i < |Keymap| && Keymap[i] != KeyReserved :: Keymap[i]
  }

  /** Every key the mapping hook can assign was announced at setup. */
  lemma MappedKeysAnnounced(usage: Option<Usage>, hasField: bool)
    requires usage.Some? ==> 0 <= usage.value.hid < 0x1_0000_0000
    ensures var r := InputMapping(usage, hasField);
            r.entry.Some? ==> Keymap[r.entry.value] in AnnouncedKeys()
  {
  }
}

=== FILE: steam_report.dfy ===
/** Steam Controller: input-report layout, the little-endian field decoder,
    the 16-bit "negate" used on trackpad Y axes, the in-place rewrite of a
    controller-state report, the wireless-event handler and the raw-event
    dispatcher. */
module SteamReport {
  import opened Common

  /** Message types in the header's type byte. */
  const ID_CONTROLLER_STATE: int := 1
  const ID_CONTROLLER_WIRELESS: int := 3
  const ID_CONTROLLER_STATUS: int := 4

  /** Wireless event types. */
  const WIRELESS_EVENT_DISCONNECT: int := 1
  const WIRELESS_EVENT_CONNECT: int := 2
  const WIRELESS_EVENT_PAIR: int := 3

  /** The only report id the driver rewrites. */
  const REPORT_ID: int := 0

  /** The header is a 16-bit version (always 1), a type byte and a length
      byte; the payload follows it. */
  const REPORT_PAYLOAD_OFFSET: int := 4
  const REPORT_CONTROLLER_STATE_SIZE: int := 44

  /** Field offsets of a controller-state report, each field following the
      previous one. */
  const REPORT_PACKETNUM_OFFSET: int := REPORT_PAYLOAD_OFFSET
  const REPORT_BUTTONS_LOW_OFFSET: int := 4 + REPORT_PACKETNUM_OFFSET
  const REPORT_BUTTONS_HIGH_OFFSET: int := 4 + REPORT_BUTTONS_LOW_OFFSET
  const REPORT_LEFT_TP_X_OFFSET: int := 4 + REPORT_BUTTONS_HIGH_OFFSET
  const REPORT_LEFT_TP_Y_OFFSET: int := 2 + REPORT_LEFT_TP_X_OFFSET
  const REPORT_RIGHT_TP_X_OFFSET: int := 2 + REPORT_LEFT_TP_Y_OFFSET
  const REPORT_RIGHT_TP_Y_OFFSET: int := 2 + REPORT_RIGHT_TP_X_OFFSET
  const REPORT_LEFT_TRIGGER_OFFSET: int := 2 + REPORT_RIGHT_TP_Y_OFFSET
  const REPORT_RIGHT_TRIGGER_OFFSET: int := 2 + REPORT_LEFT_TRIGGER_OFFSET
  const REPORT_ACCEL_X_OFFSET: int := 2 + REPORT_RIGHT_TRIGGER_OFFSET
  const REPORT_ACCEL_Y_OFFSET: int := 2 + REPORT_ACCEL_X_OFFSET
  const REPORT_ACCEL_Z_OFFSET: int := 2 + REPORT_ACCEL_Y_OFFSET
  const REPORT_GYRO_X_OFFSET: int := 2 + REPORT_ACCEL_Z_OFFSET
  const REPORT_GYRO_Y_OFFSET: int := 2 + REPORT_GYRO_X_OFFSET
  const REPORT_GYRO_Z_OFFSET: int := 2 + REPORT_GYRO_Y_OFFSET
  const REPORT_GYRO_QUAT_W_OFFSET: int := 2 + REPORT_GYRO_Z_OFFSET
  const REPORT_GYRO_QUAT_X_OFFSET: int := 2 + REPORT_GYRO_QUAT_W_OFFSET
  const REPORT_GYRO_QUAT_Y_OFFSET: int := 2 + REPORT_GYRO_QUAT_X_OFFSET
  const REPORT_GYRO_QUAT_Z_OFFSET: int := 2 + REPORT_GYRO_QUAT_Y_OFFSET

  /** The offsets in declaration order, as consecutive fields. */
  const FieldOffsets: seq<int> := [
    REPORT_PACKETNUM_OFFSET, REPORT_BUTTONS_LOW_OFFSET, REPORT_BUTTONS_HIGH_OFFSET,
    REPORT_LEFT_TP_X_OFFSET, REPORT_LEFT_TP_Y_OFFSET, REPORT_RIGHT_TP_X_OFFSET,
    REPORT_RIGHT_TP_Y_OFFSET, REPORT_LEFT_TRIGGER_OFFSET, REPORT_RIGHT_TRIGGER_OFFSET,
    REPORT_ACCEL_X_OFFSET, REPORT_ACCEL_Y_OFFSET, REPORT_ACCEL_Z_OFFSET,
    REPORT_GYRO_X_OFFSET, REPORT_GYRO_Y_OFFSET, REPORT_GYRO_Z_OFFSET,
    REPORT_GYRO_QUAT_W_OFFSET, REPORT_GYRO_QUAT_X_OFFSET, REPORT_GYRO_QUAT_Y_OFFSET,
    REPORT_GYRO_QUAT_Z_OFFSET]

  /** Widths of the fields above: a 32-bit packet number, two 32-bit button
      words, then 16-bit values. */
  const FieldWidths: seq<int> := [4, 4, 4, 2, 2, 2, 2, 2, 2, 2, 2, 2, 2, 2, 2, 2, 2, 2, 2]

  /** The fields tile the report from the payload offset without gaps, and
      the last one (quaternion Z) ends exactly at header plus
      controller-state size. */
  lemma FieldsTileThePayload()
    ensures |FieldOffsets| == |FieldWidths| == 19
    ensures FieldOffsets[0] == REPORT_PAYLOAD_OFFSET
    ensures forall i :: 0 <= i < 18 ==> FieldOffsets[i + 1] == FieldOffsets[i] + FieldWidths[i]
    ensures FieldOffsets[18] == 46
    ensures FieldOffsets[18] + FieldWidths[18] == REPORT_PAYLOAD_OFFSET + REPORT_CONTROLLER_STATE_SIZE
  {
  }

  /** Button bits (of the low button word) of the left trackpad. */
  const LTP_UP: nat := 8
  const LTP_RIGHT: nat := 9
  const LTP_LEFT: nat := 10
  const LTP_DOWN: nat := 11
  const LTP_CENTER: nat := 17
  const LTP_TOUCH: nat := 19

  /** `data_to_val`: the little-endian value of the first `n` bytes, or the
      32-bit pattern of -EINVAL when more than four bytes are asked for. */
  function DataToVal(data: seq<Byte>, n: nat): (r: int)
    requires n > 4 || n <= |data|
    ensures 0 <= r < 0x1_0000_0000
    ensures n > 4 ==> r == ToU32(-EINVAL) == 0xFFFF_FFEA
    ensures n <= 4 ==> r == LittleEndian(data[..n]) && r < Pow2(8 * n)
  {
    if n > 4 then ToU32(-EINVAL)
    else
      assert Pow2(8 * n) <= Pow2(32) by { Pow2Monotone(8 * n, 32); }
      assert Pow2(32) == 0x1_0000_0000 by { Pow2Of32(); }
      LittleEndian(data[..n])
  }

  lemma {:induction false} Pow2Monotone(a: nat, b: nat)
    requires a <= b
    ensures Pow2(a) <= Pow2(b)
    decreases b
  {
    if a < b {
      Pow2Monotone(a, b - 1);
    }
  }

  lemma Pow2Of32()
    ensures Pow2(32) == 0x1_0000_0000
  {
    Pow2Add8(0);
    Pow2Add8(1);
    Pow2Add8(2);
    Pow2Add8(3);
  }

  /** Two bytes decode to `Le16`. */
  lemma DataToValTwoBytes(data: seq<Byte>)
    requires |data| >= 2
    ensures DataToVal(data, 2) == Le16(data[0], data[1])
  {
    assert data[..2][1..] == [data[1]];
    assert data[..2][1..][1..] == [];
    assert LittleEndian(data[..2][1..][1..]) == 0;
    assert LittleEndian(data[..2][1..]) == data[1];
  }

  /** `negate_short_val` on a decoded value: positive values map to -v-1,
      -32768 to 32767, and every other value to -v. */
  function NegateShort(v: int): (n: int)
    requires -0x8000 <= v < 0x8000
    ensures -0x8000 <= n < 0x8000
    ensures v > 0 ==> n < 0 && n == -v - 1
    ensures v == 0 ==> n == 0
    ensures v < 0 ==> n > 0
  {
    if v == -0x8000 then 0x7FFF
    else if v > 0 then 0 - v - 1
    else 0 - v
  }

  /** The negation reverses the order of values (not strictly: -32768 and
      -32767 both become 32767, the only collision). */
  lemma NegateShortAntitone(v: int, w: int)
    requires -0x8000 <= v <= w < 0x8000
    ensures NegateShort(w) <= NegateShort(v)
    ensures NegateShort(v) == NegateShort(w) ==> v == w || (v == -0x8000 && w == -0x7FFF)
  {
  }

  /** The result is never -1, so the map is not onto. */
  lemma NegateShortNeverMinusOne(v: int)
    requires -0x8000 <= v < 0x8000
    ensures NegateShort(v) != -1
  {
  }

  /** Negating twice moves every value other than 0, 32767 and -32768 one
      step away from zero, and no value other than 0 is its own negation. */
  lemma NegateShortTwice(v: int)
    requires -0x8000 <= v < 0x8000
    ensures 0 < v < 0x7FFF ==> NegateShort(NegateShort(v)) == v + 1
    ensures -0x8000 < v < 0 ==> NegateShort(NegateShort(v)) == v - 1
    ensures v != 0 ==> NegateShort(v) != v
  {
  }

  /** `negate_short_val` on the two bytes at `at`: decode as a signed
      little-endian short, negate, and write back low byte first. */
  function NegateAt(data: seq<Byte>, at: nat): (r: seq<Byte>)
    requires at + 1 < |data|
    ensures |r| == |data|
    ensures forall i :: 0 <= i < |data| && i != at && i != at + 1 ==> r[i] == data[i]
    ensures ToShort(Le16(r[at], r[at + 1])) == NegateShort(ToShort(Le16(data[at], data[at + 1])))
  {
    var v := ToShort(DataToVal(data[at..at + 2], 2));
    DataToValTwoBytes(data[at..at + 2]);
    var n := NegateShort(v);
    var b := Le16Bytes(n);
    Le16RoundTrip(n);
    data[at := b[0]][at + 1 := b[1]]
  }

  /** Bit `k` (0..7) of an 8-bit pattern. */
  predicate BvBit(b: bv8, k: nat)
    requires k < 8
  {
    (b >> k) & 1 == 1
  }

  /** Clearing bit `k` of an 8-bit pattern leaves the other seven alone. */
  function ClearBv(b: bv8, k: nat): (r: bv8)
    requires k < 8
    ensures !BvBit(r, k)
    ensures forall j: nat :: j < 8 && j != k ==> (BvBit(r, j) <==> BvBit(b, j))
  {
    match k
    case 0 => b & 0xFE
    case 1 => b & 0xFD
    case 2 => b & 0xFB
    case 3 => b & 0xF7
    case 4 => b & 0xEF
    case 5 => b & 0xDF
    case 6 => b & 0xBF
    case _ => b & 0x7F
  }

  /** Bit `k` (0..7) of a byte. */
  predicate ByteBit(b: Byte, k: nat)
    requires k < 8
  {
    BvBit(b as bv8, k)
  }

  /** Clearing bit `k` (0..7) of a byte, leaving the other seven alone. */
  function ClearBit(b: Byte, k: nat): (r: Byte)
    requires k < 8
    ensures !ByteBit(r, k)
    ensures forall j: nat :: j < 8 && j != k ==> (ByteBit(r, j) <==> ByteBit(b, j))
  {
    ClearBv(b as bv8, k) as int
  }

  /** A button bit of the low word: bit `n` is bit `n % 8` of byte `n / 8`
      of the word. */
  predicate ButtonBit(data: seq<Byte>, n: nat)
    requires n < 32 && REPORT_BUTTONS_LOW_OFFSET + 4 <= |data|
  {
    ByteBit(data[REPORT_BUTTONS_LOW_OFFSET + n / 8], n % 8)
  }

  predicate LeftPadEdgePressed(data: seq<Byte>)
    requires REPORT_BUTTONS_LOW_OFFSET + 4 <= |data|
  {
    ButtonBit(data, LTP_UP) || ButtonBit(data, LTP_RIGHT) || ButtonBit(data, LTP_LEFT) || ButtonBit(data, LTP_DOWN)
  }

  /** Rewrite outcome: the return value and the buffer afterwards. */
  datatype Rewrite = Rewrite(ret: int, data: seq<Byte>)

  /** The centre click of the left pad is released when one of its edges
      is pressed, leaving the hid core to report the edge alone. */
  function ReleaseCenter(data: seq<Byte>): (r: seq<Byte>)
    requires |data| >= REPORT_PAYLOAD_OFFSET + REPORT_CONTROLLER_STATE_SIZE
    ensures |r| == |data|
    ensures forall i :: 0 <= i < |data| && i != 10 ==> r[i] == data[i]
    ensures LeftPadEdgePressed(data) ==> !ByteBit(r[10], 1)
    ensures forall j: nat :: j < 8 && (j != 1 || !LeftPadEdgePressed(data)) ==> (ByteBit(r[10], j) <==> ByteBit(data[10], j))
  {
    var center := REPORT_BUTTONS_LOW_OFFSET + LTP_CENTER / 8;
    if LeftPadEdgePressed(data) then data[center := ClearBit(data[center], LTP_CENTER % 8)] else data
  }

  /** The left pad's position: zeroed when it comes from a touch, its Y
      word negated otherwise. */
  function RewriteLeftPad(data: seq<Byte>, touched: bool): (r: seq<Byte>)
    requires |data| >= REPORT_PAYLOAD_OFFSET + REPORT_CONTROLLER_STATE_SIZE
    ensures |r| == |data|
    ensures forall i :: 0 <= i < |data| && !(16 <= i < 20) ==> r[i] == data[i]
    ensures touched ==> r[16] == r[17] == r[18] == r[19] == 0
    ensures !touched ==>
              r[16] == data[16] && r[17] == data[17] &&
              ToShort(Le16(r[18], r[19])) == NegateShort(ToShort(Le16(data[18], data[19])))
  {
    if !touched then NegateAt(data, REPORT_LEFT_TP_Y_OFFSET)
    else data[16 := 0][17 := 0][18 := 0][19 := 0]
  }

  /** The body of `parse_controller_state` once all checks passed. */
  function RewriteState(data: seq<Byte>): (r: seq<Byte>)
    requires |data| >= REPORT_PAYLOAD_OFFSET + REPORT_CONTROLLER_STATE_SIZE
    ensures |r| == |data|
    ensures forall i :: 0 <= i < |data| && i != 10 && !(16 <= i < 20) && i != 22 && i != 23 ==> r[i] == data[i]
    ensures LeftPadEdgePressed(data) ==> !ByteBit(r[10], 1)
    ensures forall j: nat :: j < 8 && (j != 1 || !LeftPadEdgePressed(data)) ==> (ByteBit(r[10], j) <==> ByteBit(data[10], j))
    ensures ButtonBit(data, LTP_TOUCH) ==> r[16] == r[17] == r[18] == r[19] == 0
    ensures !ButtonBit(data, LTP_TOUCH) ==>
              r[16] == data[16] && r[17] == data[17] &&
              ToShort(Le16(r[18], r[19])) == NegateShort(ToShort(Le16(data[18], data[19])))
    ensures ToShort(Le16(r[22], r[23])) == NegateShort(ToShort(Le16(data[22], data[23])))
  {
    var d1 := ReleaseCenter(data);
    var d2 := RewriteLeftPad(d1, ButtonBit(data, LTP_TOUCH));
    assert d2[10] == d1[10] && d2[22] == data[22] && d2[23] == data[23];
    NegateAt(d2, REPORT_RIGHT_TP_Y_OFFSET)
  }

  /** The buffer holds every byte the state parser reads: the fixed-offset
      fields are read only once the length byte passes its check, and the
      length byte is never compared with the buffer's size. */
  predicate HoldsStateFields(data: seq<Byte>, length: Byte)
  {
    length < REPORT_CONTROLLER_STATE_SIZE || |data| >= REPORT_PAYLOAD_OFFSET + REPORT_CONTROLLER_STATE_SIZE
  }

  /** `parse_controller_state`: `length` is the header's length byte;
      `deviceMatches` says whether the report belongs to this device and
      `hasInputs` whether its input list is non-empty. */
  function ParseControllerState(data: seq<Byte>, length: Byte, deviceMatches: bool, hasInputs: bool): (r: Rewrite)
    requires HoldsStateFields(data, length)
    ensures length < REPORT_CONTROLLER_STATE_SIZE ==> r == Rewrite(-EINVAL, data)
    ensures length >= REPORT_CONTROLLER_STATE_SIZE && !deviceMatches ==> r == Rewrite(-EINVAL, data)
    ensures length >= REPORT_CONTROLLER_STATE_SIZE && deviceMatches && !hasInputs ==> r == Rewrite(-ENODEV, data)
    ensures r.ret == 0 <==> length >= REPORT_CONTROLLER_STATE_SIZE && deviceMatches && hasInputs
    ensures r.ret == 0 ==> r.data == RewriteState(data)
    ensures |r.data| == |data|
  {
    if length < REPORT_CONTROLLER_STATE_SIZE then Rewrite(-EINVAL, data)
    else if !deviceMatches then Rewrite(-EINVAL, data)
    else if !hasInputs then Rewrite(-ENODEV, data)
    else Rewrite(0, RewriteState(data))
  }

  /** Once the checks pass, bytes outside the button byte 10 and the
      trackpad Y words (and the left X word, when touched) come through
      untouched, and the header in particular is never altered. */
  lemma HeaderUntouched(data: seq<Byte>, length: Byte, deviceMatches: bool, hasInputs: bool)
    requires HoldsStateFields(data, length)
    ensures var r := ParseControllerState(data, length, deviceMatches, hasInputs);
            forall i :: 0 <= i < |data| && (i < REPORT_BUTTONS_LOW_OFFSET + 2 || i >= REPORT_LEFT_TRIGGER_OFFSET) ==>
              r.data[i] == data[i]
  {
  }

  /** Outcome of the wireless-event handler: return value, and whether the
      re-initialisation work is scheduled. */
  datatype WirelessOutcome = WirelessOutcome(ret: int, scheduleInit: bool)

  /** `parse_controller_wireless`: `numEndpoints` is the interface's
      endpoint count, `eventType` the payload's first byte. */
  function ParseControllerWireless(eventType: Byte, numEndpoints: int): (r: WirelessOutcome)
    ensures r.scheduleInit <==> numEndpoints == 1 && eventType == WIRELESS_EVENT_CONNECT
    ensures r.ret == 1 <==> numEndpoints == 1 && eventType in {WIRELESS_EVENT_DISCONNECT, WIRELESS_EVENT_CONNECT, WIRELESS_EVENT_PAIR}
    ensures r.ret != 1 ==> r.ret == -EINVAL
  {
    if numEndpoints != 1 then WirelessOutcome(-EINVAL, false)
    else if eventType == WIRELESS_EVENT_DISCONNECT then WirelessOutcome(1, false)
    else if eventType == WIRELESS_EVENT_CONNECT then WirelessOutcome(1, true)
    else if eventType == WIRELESS_EVENT_PAIR then WirelessOutcome(1, false)
    else WirelessOutcome(-EINVAL, false)
  }

  /** Outcome of `steam_raw_event`. */
  datatype RawOutcome = RawOutcome(ret: int, data: seq<Byte>, scheduleInit: bool)

  /** The report holds its header, the first payload byte, and the
      controller-state fields whenever its length byte lets the state
      parser read them. The length byte may announce more than the buffer
      holds. */
  predicate WellFormedReport(data: seq<Byte>)
  {
    |data| >= REPORT_PAYLOAD_OFFSET + 1 && HoldsStateFields(data, data[3])
  }

  /** `steam_raw_event`: reports with another id, or whose version is not
      1, pass through with 0; without driver data (`hasData`) the report is
      refused; otherwise dispatch on the type byte. */
  function RawEvent(reportId: int, data: seq<Byte>, hasData: bool, deviceMatches: bool, hasInputs: bool, numEndpoints: int): (r: RawOutcome)
    requires WellFormedReport(data)
    ensures reportId != REPORT_ID || data[0] != 1 || data[1] != 0 ==> r == RawOutcome(0, data, false)
    ensures reportId == REPORT_ID && data[0] == 1 && data[1] == 0 && !hasData ==> r == RawOutcome(-EINVAL, data, false)
    ensures r.data != data ==> reportId == REPORT_ID && data[..3] == [1, 0, ID_CONTROLLER_STATE]
    ensures r.scheduleInit ==> data[2] == ID_CONTROLLER_WIRELESS
    ensures reportId == REPORT_ID && data[0] == 1 && data[1] == 0 && hasData &&
            data[2] !in {ID_CONTROLLER_STATE, ID_CONTROLLER_WIRELESS, ID_CONTROLLER_STATUS} ==>
              r == RawOutcome(-EINVAL, data, false)
    ensures reportId == REPORT_ID && data[0] == 1 && data[1] == 0 && hasData && data[2] == ID_CONTROLLER_STATUS ==>
              r == RawOutcome(1, data, false)
  {
    if reportId != REPORT_ID then RawOutcome(0, data, false)
    else if data[0] != 1 || data[1] != 0 then RawOutcome(0, data, false)
    else if !hasData then RawOutcome(-EINVAL, data, false)
    else if data[2] == ID_CONTROLLER_STATE then
      var s := ParseControllerState(data, data[3], deviceMatches, hasInputs);
      RawOutcome(s.ret, s.data, false)
    else if data[2] == ID_CONTROLLER_WIRELESS then
      var w := ParseControllerWireless(data[REPORT_PAYLOAD_OFFSET], numEndpoints);
      RawOutcome(w.ret, data, w.scheduleInit)
    else if data[2] == ID_CONTROLLER_STATUS then RawOutcome(1, data, false)
    else RawOutcome(-EINVAL, data, false)
  }

  /** A controller-state report that the dispatcher accepts is rewritten
      exactly as the state parser would, and the result is again a
      well-formed report with the same header. */
  lemma RawEventRewritesStateReports(data: seq<Byte>, deviceMatches: bool, hasInputs: bool, numEndpoints: int)
    requires WellFormedReport(data) && data[0] == 1 && data[1] == 0 && data[2] == ID_CONTROLLER_STATE
    ensures var r := RawEvent(REPORT_ID, data, true, deviceMatches, hasInputs, numEndpoints);
            r == RawOutcome(ParseControllerState(data, data[3], deviceMatches, hasInputs).ret,
                            ParseControllerState(data, data[3], deviceMatches, hasInputs).data, false) &&
            WellFormedReport(r.data) && r.data[..4] == data[..4]
  {
    HeaderUntouched(data, data[3], deviceMatches, hasInputs);
  }

  /** A full-size 64-byte state report whose length byte announces 255
      bytes is still dispatched and rewritten: only the lower bound on the
      length byte is checked. */
  lemma OversizedLengthAccepted(data: seq<Byte>)
    requires |data| == 64 && data[..4] == [1, 0, ID_CONTROLLER_STATE, 0xFF]
    ensures WellFormedReport(data)
    ensures RawEvent(REPORT_ID, data, true, true, true, 1) == RawOutcome(0, RewriteState(data), false)
  {
    assert data[0] == 1 && data[1] == 0 && data[2] == ID_CONTROLLER_STATE && data[3] == 0xFF by {
      assert data[..4][0] == data[0] && data[..4][3] == data[3];
      assert data[..4][1] == data[1] && data[..4][2] == data[2];
    }
  }
}

=== FILE: synaptics_i2c.dfy ===
/** The Synaptics RMI4 I2C transport: register addresses are 16 bits, the
    high byte selecting a register page. The driver caches the current
    page and writes the page-select register only when the page changes;
    every bus operation makes up to ten attempts. Bus transfers are
    oracles indexed by attempt number. */
module SynapticsI2c {
  import opened Common

  const SYN_I2C_RETRY_TIMES: nat := 10
  const MASK_8BIT: nat := 0xFF
  /** The page-select frame is the register byte and the page: two bytes. */
  const PAGE_SELECT_LEN: int := 2

  /** The page of a register address. */
  function PageOf(addr: nat): (p: Byte)
    requires addr < 0x1_0000
    ensures p * 256 <= addr < p * 256 + 256
  {
    (addr / 256) % 256
  }

  /** The register byte within the page. */
  function RegisterOf(addr: nat): (b: Byte)
    requires addr < 0x1_0000
    ensures b == addr - PageOf(addr) * 256
  {
    addr % 256
  }

  /** An address is its page and register byte. */
  lemma AddressSplits(addr: nat)
    requires addr < 0x1_0000
    ensures PageOf(addr) * 256 + RegisterOf(addr) == addr
    ensures forall a: nat :: a < 0x1_0000 && PageOf(a) == PageOf(addr) && RegisterOf(a) == RegisterOf(addr) ==> a == addr
  {
  }

  /** The outcome of a page selection: the return value, the cached page
      after it, and the frames sent (one per attempt). */
  datatype PageOutcome = PageOutcome(ret: int, currentPage: Byte, frames: seq<seq<Byte>>)

  /** `synaptics_rmi4_i2c_set_page`: `send(i)` is what the bus returns for
      the i-th attempt to send the page-select frame. */
  function SetPage(currentPage: Byte, addr: nat, send: nat -> int): (r: PageOutcome)
    requires addr < 0x1_0000
    ensures PageOf(addr) == currentPage ==> r == PageOutcome(PAGE_SELECT_LEN, currentPage, [])
    ensures r.ret == PAGE_SELECT_LEN <==> r.currentPage == PageOf(addr)
    ensures r.currentPage == PageOf(addr) || r.currentPage == currentPage
    ensures 0 <= |r.frames| <= SYN_I2C_RETRY_TIMES
    ensures forall i :: 0 <= i < |r.frames| ==> r.frames[i] == [MASK_8BIT, PageOf(addr)]
    ensures forall i :: 0 <= i < |r.frames| - 1 ==> send(i) != PAGE_SELECT_LEN
    ensures r.ret != PAGE_SELECT_LEN ==> |r.frames| == SYN_I2C_RETRY_TIMES && r.ret == send(SYN_I2C_RETRY_TIMES - 1)
  {
    var page := PageOf(addr);
    if page == currentPage then PageOutcome(PAGE_SELECT_LEN, currentPage, [])
    else
      var frame: seq<Byte> := [MASK_8BIT, page];
      match FirstSuccess((i: nat) => send(i) == PAGE_SELECT_LEN, 0, SYN_I2C_RETRY_TIMES)
      case Some(i) => PageOutcome(PAGE_SELECT_LEN, page, seq(i + 1, _ => frame))
      case None => PageOutcome(send(SYN_I2C_RETRY_TIMES - 1), currentPage, seq(SYN_I2C_RETRY_TIMES, _ => frame))
  }

  /** Selecting a page twice costs one selection: the second finds the page
      cached and sends nothing. */
  lemma SetPageIdempotent(currentPage: Byte, addr: nat, send: nat -> int, send2: nat -> int)
    requires addr < 0x1_0000
    ensures var first := SetPage(currentPage, addr, send);
            first.ret == PAGE_SELECT_LEN ==>
              SetPage(first.currentPage, addr, send2) == PageOutcome(PAGE_SELECT_LEN, first.currentPage, [])
  {
  }

  /** A page change succeeds exactly when one of the ten attempts sends the
      whole frame. */
  lemma SetPageSucceedsIffSomeAttempt(currentPage: Byte, addr: nat, send: nat -> int)
    requires addr < 0x1_0000 && PageOf(addr) != currentPage
    ensures SetPage(currentPage, addr, send).ret == PAGE_SELECT_LEN <==>
              exists i :: 0 <= i < SYN_I2C_RETRY_TIMES && send(i) == PAGE_SELECT_LEN
  {
    var ok := (i: nat) => send(i) == PAGE_SELECT_LEN;
    var first := FirstSuccess(ok, 0, SYN_I2C_RETRY_TIMES);
    if first.Some? {
      assert send(first.value) == PAGE_SELECT_LEN;
    }
  }

  /** The outcome of a register read or write: the return value, the cached
      page, the page-select frames and the number of data transfers tried. */
  datatype BusOutcome = BusOutcome(ret: int, currentPage: Byte, pageFrames: seq<seq<Byte>>, transfers: nat)

  /** The common shape of read and write: select the page, then try the
      data transfer up to ten times; `done(i)` is whether the i-th transfer
      completed. */
  function Transact(currentPage: Byte, addr: nat, length: nat, pageSend: nat -> int, done: nat -> bool): (r: BusOutcome)
    requires addr < 0x1_0000
    ensures var p := SetPage(currentPage, addr, pageSend);
            r.currentPage == p.currentPage && r.pageFrames == p.frames &&
            (p.ret != PAGE_SELECT_LEN ==> r.ret == -EIO && r.transfers == 0)
    ensures r.ret == length || r.ret == -EIO
    ensures r.transfers <= SYN_I2C_RETRY_TIMES
    ensures forall i :: 0 <= i < r.transfers - 1 ==> !done(i)
    ensures r.ret == length ==> r.transfers >= 1 && done(r.transfers - 1)
    ensures r.ret != length ==>
              r.transfers == 0 || (r.transfers == SYN_I2C_RETRY_TIMES && !done(SYN_I2C_RETRY_TIMES - 1))
  {
    var p := SetPage(currentPage, addr, pageSend);
    if p.ret != PAGE_SELECT_LEN then BusOutcome(-EIO, p.currentPage, p.frames, 0)
    else
      match FirstSuccess(done, 0, SYN_I2C_RETRY_TIMES)
      case Some(i) => BusOutcome(length, p.currentPage, p.frames, i + 1)
      case None => BusOutcome(-EIO, p.currentPage, p.frames, SYN_I2C_RETRY_TIMES)
  }

  /** `synaptics_rmi4_i2c_read`: each attempt is one combined transfer of
      the register byte out and `length` bytes in; `transfer(i)` is the
      number of messages the bus completed in attempt i. The register byte
      sent is returned alongside. */
  function Read(currentPage: Byte, addr: nat, length: nat, pageSend: nat -> int, transfer: nat -> int): (r: (BusOutcome, Byte))
    requires addr < 0x1_0000 && length < 0x1_0000
    ensures r.1 == RegisterOf(addr)
    ensures r.0.ret == length <==>
              SetPage(currentPage, addr, pageSend).ret == PAGE_SELECT_LEN &&
              exists i :: 0 <= i < SYN_I2C_RETRY_TIMES && transfer(i) == 2
  {
    var out := Transact(currentPage, addr, length, pageSend, (i: nat) => transfer(i) == 2);
    RetriesFindSuccess(currentPage, addr, length, pageSend, (i: nat) => transfer(i) == 2);
    (out, RegisterOf(addr))
  }

  /** `synaptics_rmi4_i2c_write`: the frame is the register byte followed
      by the payload, sent as one message per attempt; `transfer(i)` is
      the number of messages the bus completed in attempt i. */
  function Write(currentPage: Byte, addr: nat, data: seq<Byte>, pageSend: nat -> int, transfer: nat -> int): (r: (BusOutcome, seq<Byte>))
    requires addr < 0x1_0000 && |data| < 0x1_0000
    ensures |r.1| == |data| + 1 && r.1[0] == RegisterOf(addr) && r.1[1..] == data
    ensures r.0.ret == |data| <==>
              SetPage(currentPage, addr, pageSend).ret == PAGE_SELECT_LEN &&
              exists i :: 0 <= i < SYN_I2C_RETRY_TIMES && transfer(i) == 1
  {
    var out := Transact(currentPage, addr, |data|, pageSend, (i: nat) => transfer(i) == 1);
    RetriesFindSuccess(currentPage, addr, |data|, pageSend, (i: nat) => transfer(i) == 1);
    (out, [RegisterOf(addr)] + data)
  }

  /** A transaction succeeds exactly when the page is selected and one of
      the ten data attempts completes. */
  lemma RetriesFindSuccess(currentPage: Byte, addr: nat, length: nat, pageSend: nat -> int, done: nat -> bool)
    requires addr < 0x1_0000 && length < 0x1_0000
    ensures Transact(currentPage, addr, length, pageSend, done).ret == length <==>
              SetPage(currentPage, addr, pageSend).ret == PAGE_SELECT_LEN &&
              exists i :: 0 <= i < SYN_I2C_RETRY_TIMES && done(i)
  {
    var first := FirstSuccess(done, 0, SYN_I2C_RETRY_TIMES);
    if first.Some? {
      assert done(first.value);
    }
  }

  /** A failed page selection leaves the cached page as it was and never
      reaches the data transfer, for reads and writes alike. */
  lemma PageFailureStopsTransfer(currentPage: Byte, addr: nat, data: seq<Byte>, pageSend: nat -> int, transfer: nat -> int)
    requires addr < 0x1_0000 && |data| < 0x1_0000
    requires SetPage(currentPage, addr, pageSend).ret != PAGE_SELECT_LEN
    ensures var rd := Read(currentPage, addr, |data|, pageSend, transfer).0;
            rd.ret == -EIO && rd.transfers == 0 && rd.currentPage == currentPage
    ensures var wr := Write(currentPage, addr, data, pageSend, transfer).0;
            wr.ret == -EIO && wr.transfers == 0 && wr.currentPage == currentPage
  {
  }
}

=== FILE: tegra_cpufreq.dfy ===
/** Tegra CPU frequency table (`tegra_cpufreq_table_get`), in both of its
    build variants: the Tegra K1 (T124) table stitched from the LP and G CPU
    dvfs ladders, and the T132 table of fixed 25.5 MHz steps followed by
    the G ladder. Rates in the table are in kHz, clock rates in Hz. */
module TegraCpufreq {
  import opened Common

  /** Step of the G CPU table between the LP maximum and G Vmin (kHz). */
  const CPU_FREQ_STEP: nat := 102000

  /** The dvfs header's ladder bound (that header is not part of this
      model), and the table size derived from it. */
  const MAX_DVFS_FREQS: nat := 40
  const CPU_FREQ_TABLE_MAX_SIZE: nat := 2 * MAX_DVFS_FREQS + 1

  /** A dvfs ladder: a fixed array of rates (Hz) of which the first
      `numFreqs` are in use. */
  datatype Dvfs = Dvfs(freqs: seq<nat>, numFreqs: nat)

  predicate ValidDvfs(d: Dvfs)
  {
    1 <= |d.freqs| && d.numFreqs <= |d.freqs|
  }

  /** The rates in use, in kHz. */
  function UsedKhz(d: Dvfs): (r: seq<nat>)
    requires ValidDvfs(d)
    ensures |r| == d.numFreqs
    ensures forall k :: 0 <= k < |r| ==> r[k] == d.freqs[k] / 1000
  {
    seq(d.numFreqs, k requires 0 <= k < d.numFreqs => d.freqs[k] / 1000)
  }

  /** What the table builder reads of a CPU clock. */
  datatype Clock = Clock(maxRate: nat, backupRate: nat, dvfs: Option<Dvfs>)

  predicate ValidClock(c: Clock)
  {
    c.dvfs.Some? ==> ValidDvfs(c.dvfs.value)
  }

  /** The table and its special indices. */
  datatype TableData = TableData(freqs: seq<nat>, throttleLowest: int, throttleHighest: int, suspendIndex: int)

  /** Result of one build: no table (a missing input), a table that
      outgrew its array (the kernel's BUG), or a table, with the G CPU
      minimum rate (Hz) the build sets on the way. */
  datatype Build =
    | NoTable
    | Overflow(gMinRate: nat)
    | Built(data: TableData, gMinRate: nat)

  function Last(s: seq<nat>): nat
    requires |s| > 0
  {
    s[|s| - 1]
  }

  function Min(a: nat, b: nat): nat
  {
    if a <= b then a else b
  }

  predicate StrictlyAscending(s: seq<nat>)
  {
    forall i, j :: 0 <= i < j < |s| ==> s[i] < s[j]
  }

  predicate NonDecreasing(s: seq<nat>)
  {
    forall i, j :: 0 <= i < j < |s| ==> s[i] <= s[j]
  }

  // ---------------------------------------------------------------------
  // T124: the LP ladder
  // ---------------------------------------------------------------------

  /** State of the walk along the LP ladder: the table so far, the last
      rate looked at (the source's `freq`), and whether G Vmin is in. */
  datatype Ladder = Ladder(table: seq<nat>, freq: nat, vminDone: bool)

  /** One LP rate above the backup rate: G Vmin goes in first if this is
      the first rate to reach it (and is above it), then the rate itself
      unless it equals the last entry. */
  function Step(acc: Ladder, freq: nat, gvmin: nat): (r: Ladder)
    requires |acc.table| >= 1
    ensures |r.table| >= |acc.table| && r.table[..|acc.table|] == acc.table
    ensures r.freq == freq && Last(r.table) == freq
    ensures r.vminDone <==> acc.vminDone || freq >= gvmin
    ensures forall k :: |acc.table| <= k < |r.table| ==> r.table[k] == freq || r.table[k] == gvmin
  {
    var reach := !acc.vminDone && freq >= gvmin;
    var t1 := if reach && freq > gvmin then acc.table + [gvmin] else acc.table;
    var t2 := if Last(t1) != freq then t1 + [freq] else t1;
    Ladder(t2, freq, acc.vminDone || reach)
  }

  /** The LP ladder walk: rates at or below the backup rate are passed over
      (without the stop test); the walk stops after the LP maximum. */
  function LpLadder(rates: seq<nat>, backup: nat, gvmin: nat, maxFreq: nat, acc: Ladder): (r: Ladder)
    requires |acc.table| >= 1
    ensures |r.table| >= |acc.table| && r.table[..|acc.table|] == acc.table
    ensures forall k :: |acc.table| <= k < |r.table| ==> r.table[k] == gvmin || (r.table[k] in rates && r.table[k] > backup)
    ensures acc.vminDone ==> r.vminDone
    decreases |rates|
  {
    if |rates| == 0 then acc
    else
      var freq := rates[0];
      if freq <= backup then
        var r := LpLadder(rates[1..], backup, gvmin, maxFreq, acc.(freq := freq));
        assert forall x :: x in rates[1..] ==> x in rates;
        r
      else
        var next := Step(acc, freq, gvmin);
        if freq == maxFreq then next
        else
          var r := LpLadder(rates[1..], backup, gvmin, maxFreq, next);
          ExtendTwice(acc.table, next.table, r.table, (x: nat) => x == gvmin || (x in rates && x > backup));
          r
  }

  /** Two extensions of a table make one: the prefix is kept, and an entry
      property that holds of both extensions' new entries holds of all of
      them. */
  lemma ExtendTwice(a: seq<nat>, b: seq<nat>, c: seq<nat>, p: nat -> bool)
    requires |a| <= |b| <= |c| && b[..|a|] == a && c[..|b|] == b
    requires forall k :: |a| <= k < |b| ==> p(b[k])
    requires forall k :: |b| <= k < |c| ==> p(c[k])
    ensures c[..|a|] == a
    ensures forall k :: |a| <= k < |c| ==> p(c[k])
  {
    assert c[..|a|] == c[..|b|][..|a|];
    forall k | |a| <= k < |c|
      ensures p(c[k])
    {
      if k < |b| { assert c[k] == c[..|b|][k]; }
    }
  }

  /** The walk never loses G Vmin: once it is in, it stays in; until it is
      in, every entry and the last rate looked at lie below it. */
  predicate VminKept(l: Ladder, gvmin: nat)
  {
    (l.vminDone ==> gvmin in l.table) &&
    (!l.vminDone ==> l.freq < gvmin && forall k :: 0 <= k < |l.table| ==> l.table[k] < gvmin)
  }

  lemma StepKeepsVmin(acc: Ladder, freq: nat, gvmin: nat)
    requires |acc.table| >= 1 && VminKept(acc, gvmin)
    ensures VminKept(Step(acc, freq, gvmin), gvmin)
  {
    var r := Step(acc, freq, gvmin);
    if acc.vminDone {
      var i :| 0 <= i < |acc.table| && acc.table[i] == gvmin;
      assert r.table[i] == gvmin;
    } else if freq >= gvmin {
      if freq > gvmin {
        assert r.table[|acc.table|] == gvmin;
      } else {
        assert Last(r.table) == gvmin;
      }
    }
  }

  lemma {:induction false} LpLadderKeepsVmin(rates: seq<nat>, backup: nat, gvmin: nat, maxFreq: nat, acc: Ladder)
    requires |acc.table| >= 1 && VminKept(acc, gvmin) && (!acc.vminDone ==> backup < gvmin)
    ensures VminKept(LpLadder(rates, backup, gvmin, maxFreq, acc), gvmin)
    decreases |rates|
  {
    if |rates| > 0 {
      var freq := rates[0];
      if freq <= backup {
        LpLadderKeepsVmin(rates[1..], backup, gvmin, maxFreq, acc.(freq := freq));
      } else {
        var next := Step(acc, freq, gvmin);
        StepKeepsVmin(acc, freq, gvmin);
        if freq != maxFreq {
          LpLadderKeepsVmin(rates[1..], backup, gvmin, maxFreq, next);
        }
      }
    }
  }

  /** Appending a value above the last entry keeps a sequence strictly
      ascending. */
  lemma AppendAscending(t: seq<nat>, x: nat)
    requires StrictlyAscending(t) && (|t| > 0 ==> Last(t) < x)
    ensures StrictlyAscending(t + [x])
  {
    forall i, j | 0 <= i < j < |t + [x]|
      ensures (t + [x])[i] < (t + [x])[j]
    {
      if j == |t| && i < |t| - 1 {
        assert t[i] < Last(t);
      }
    }
  }

  /** A step from an ordered walk onto a rate not below its last entry. */
  lemma StepAscending(acc: Ladder, freq: nat, gvmin: nat)
    requires |acc.table| >= 1 && StrictlyAscending(acc.table) && Last(acc.table) <= freq
    requires !acc.vminDone ==> Last(acc.table) < gvmin
    ensures StrictlyAscending(Step(acc, freq, gvmin).table)
  {
    var reach := !acc.vminDone && freq >= gvmin;
    var t1 := if reach && freq > gvmin then acc.table + [gvmin] else acc.table;
    if reach && freq > gvmin {
      AppendAscending(acc.table, gvmin);
    }
    assert StrictlyAscending(t1) && Last(t1) <= freq;
    if Last(t1) != freq {
      AppendAscending(t1, freq);
    }
  }

  /** With LP rates in non-decreasing order the walk keeps its table
      strictly ascending, every entry at or above the backup rate, and the
      last entry no higher than any rate still to come above the backup. */
  predicate LadderOrdered(l: Ladder, rest: seq<nat>, backup: nat, gvmin: nat)
  {
    |l.table| >= 1 && StrictlyAscending(l.table) && Last(l.table) >= backup &&
    (!l.vminDone ==> Last(l.table) < gvmin) &&
    forall k :: 0 <= k < |rest| && rest[k] > backup ==> rest[k] >= Last(l.table)
  }

  lemma {:induction false} LpLadderAscending(rates: seq<nat>, backup: nat, gvmin: nat, maxFreq: nat, acc: Ladder)
    requires NonDecreasing(rates) && LadderOrdered(acc, rates, backup, gvmin)
    ensures LadderOrdered(LpLadder(rates, backup, gvmin, maxFreq, acc), [], backup, gvmin)
    decreases |rates|
  {
    if |rates| > 0 {
      var freq := rates[0];
      if freq <= backup {
        LpLadderAscending(rates[1..], backup, gvmin, maxFreq, acc.(freq := freq));
      } else {
        var next := Step(acc, freq, gvmin);
        StepAscending(acc, freq, gvmin);
        assert forall k :: 0 <= k < |rates[1..]| ==> rates[1..][k] >= freq by {
          assert forall k :: 0 <= k < |rates[1..]| ==> rates[1..][k] == rates[k + 1];
        }
        assert LadderOrdered(next, rates[1..], backup, gvmin);
        if freq != maxFreq {
          LpLadderAscending(rates[1..], backup, gvmin, maxFreq, next);
        }
      }
    }
  }

  // ---------------------------------------------------------------------
  // T124: between the ladders, and the G ladder
  // ---------------------------------------------------------------------

  /** The hole between the LP maximum `freq` and G Vmin, filled as written:
      n + 1 entries G Vmin − 102000·(n − j), j = 0..n, with
      n = (G Vmin − freq) / 102000. */
  function GapFillAsWritten(freq: nat, gvmin: nat): (r: seq<nat>)
    requires freq < gvmin
    ensures |r| == (gvmin - freq) / CPU_FREQ_STEP + 1
    ensures Last(r) == gvmin && r[0] >= freq
    ensures forall j :: 0 < j < |r| ==> r[j] == r[j - 1] + CPU_FREQ_STEP
  {
    var n := (gvmin - freq) / CPU_FREQ_STEP;
    seq(n + 1, j requires 0 <= j <= n => gvmin - CPU_FREQ_STEP * (n - j))
  }

  /** The hole filled strictly above `last`: the same 102 MHz steps ending
      at G Vmin, but only those above `last`. */
  function GapFrom(last: nat, gvmin: nat): (r: seq<nat>)
    requires last < gvmin
    ensures |r| >= 1 && Last(r) == gvmin && r[0] > last
    ensures r[0] <= last + CPU_FREQ_STEP
    ensures forall j :: 0 < j < |r| ==> r[j] == r[j - 1] + CPU_FREQ_STEP
  {
    var n := (gvmin - last - 1) / CPU_FREQ_STEP;
    seq(n + 1, j requires 0 <= j <= n => gvmin - CPU_FREQ_STEP * (n - j))
  }

  /** The written fill is the fill from `freq` with `freq` itself in front
      exactly when the hole is a whole number of steps. */
  lemma GapFillRepeatsStart(freq: nat, gvmin: nat)
    requires freq < gvmin
    ensures (gvmin - freq) % CPU_FREQ_STEP == 0 ==> GapFillAsWritten(freq, gvmin) == [freq] + GapFrom(freq, gvmin)
    ensures (gvmin - freq) % CPU_FREQ_STEP != 0 ==> GapFillAsWritten(freq, gvmin) == GapFrom(freq, gvmin)
  {
    var d := gvmin - freq;
    var a := GapFillAsWritten(freq, gvmin);
    var b := GapFrom(freq, gvmin);
    if d % CPU_FREQ_STEP == 0 {
      assert (d - 1) / CPU_FREQ_STEP == d / CPU_FREQ_STEP - 1;
      assert a[0] == freq;
      assert a == [freq] + b;
    } else {
      assert (d - 1) / CPU_FREQ_STEP == d / CPU_FREQ_STEP;
      assert a == b;
    }
  }

  /** A fill is strictly ascending. */
  lemma {:induction false} StepsAscend(s: seq<nat>)
    requires forall j :: 0 < j < |s| ==> s[j] == s[j - 1] + CPU_FREQ_STEP
    ensures StrictlyAscending(s)
    decreases |s|
  {
    if |s| > 1 {
      var init := s[..|s| - 1];
      assert forall j :: 0 < j < |init| ==> init[j] == init[j - 1] + CPU_FREQ_STEP;
      StepsAscend(init);
      forall i, j | 0 <= i < j < |s|
        ensures s[i] < s[j]
      {
        if j < |s| - 1 {
          assert s[i] == init[i] && s[j] == init[j];
        } else if i < j - 1 {
          assert s[i] == init[i] && s[j - 1] == init[j - 1];
        }
      }
    }
  }

  /** The G ladder walk: rates above `start` are appended; the walk stops
      after the G maximum. */
  function GLadder(rates: seq<nat>, start: nat, maxFreq: nat): (r: seq<nat>)
    ensures |r| <= |rates|
    ensures forall k :: 0 <= k < |r| ==> r[k] > start && r[k] in rates
  {
    if |rates| == 0 then []
    else
      var freq := rates[0];
      var head := if freq > start then [freq] else [];
      if freq == maxFreq then head
      else
        var tail := GLadder(rates[1..], start, maxFreq);
        assert forall k :: 0 <= k < |tail| ==> tail[k] in rates;
        head + tail
  }

  /** From a strictly ascending G ladder the walk keeps a strictly
      ascending selection. */
  lemma {:induction false} GLadderAscending(rates: seq<nat>, start: nat, maxFreq: nat)
    requires StrictlyAscending(rates)
    ensures StrictlyAscending(GLadder(rates, start, maxFreq))
    decreases |rates|
  {
    if |rates| > 0 && rates[0] != maxFreq {
      var tail := GLadder(rates[1..], start, maxFreq);
      assert StrictlyAscending(rates[1..]);
      GLadderAscending(rates[1..], start, maxFreq);
      forall k | 0 <= k < |tail|
        ensures tail[k] > rates[0]
      {
        assert tail[k] in rates[1..];
      }
    }
  }

  // ---------------------------------------------------------------------
  // T124: the whole table
  // ---------------------------------------------------------------------

  /** The checks before any entry is made: a backup rate, both dvfs
      ladders, and G Vmin not below the backup rate. */
  predicate T124Buildable(lp: Clock, g: Clock)
    requires ValidClock(lp) && ValidClock(g)
  {
    lp.backupRate / 1000 != 0 && lp.dvfs.Some? && g.dvfs.Some? &&
    g.dvfs.value.freqs[0] / 1000 >= lp.backupRate / 1000
  }

  /** G CPU rate at minimum voltage (kHz). */
  function GVmin(g: Clock): nat
    requires ValidClock(g) && g.dvfs.Some?
  {
    g.dvfs.value.freqs[0] / 1000
  }

  /** The table start: backup/4, backup/2 and the backup rate. */
  function BackupSteps(backup: nat): (r: seq<nat>)
    ensures |r| == 3 && Last(r) == backup
  {
    [backup / 4, backup / 2, backup]
  }

  /** The first part of the T124 table: the backup steps and the LP walk. */
  function LpPart(lp: Clock, g: Clock): (r: Ladder)
    requires ValidClock(lp) && ValidClock(g) && T124Buildable(lp, g)
    ensures |r.table| >= 3 && r.table[..3] == BackupSteps(lp.backupRate / 1000)
  {
    var backup := lp.backupRate / 1000;
    var gvmin := GVmin(g);
    LpLadder(UsedKhz(lp.dvfs.value), backup, gvmin, lp.maxRate / 1000,
             Ladder(BackupSteps(backup), backup, gvmin == backup))
  }

  /** The rest of the table as written: the hole is filled from the last LP
      rate looked at, and the G ladder starts above the end of the fill. */
  function RestAsWritten(freq: nat, gvmin: nat, gRates: seq<nat>, gMax: nat): (r: seq<nat>)
    ensures freq < gvmin ==>
              |r| >= |GapFillAsWritten(freq, gvmin)| && r[..|GapFillAsWritten(freq, gvmin)|] == GapFillAsWritten(freq, gvmin)
    ensures forall k :: 0 <= k < |r| ==> r[k] >= freq
  {
    if freq < gvmin then GapFillAsWritten(freq, gvmin) + GLadder(gRates, gvmin, gMax)
    else GLadder(gRates, freq, gMax)
  }

  /** The rest of the table with the hole filled strictly above the last
      entry `last`, and the G ladder started above the new last entry. */
  function Rest(last: nat, gvmin: nat, gRates: seq<nat>, gMax: nat): (r: seq<nat>)
    ensures forall k :: 0 <= k < |r| ==> r[k] > last
    ensures last < gvmin ==> gvmin in r
  {
    if last < gvmin then
      var gap := GapFrom(last, gvmin);
      StepsAscend(gap);
      assert forall k :: 0 <= k < |gap| ==> gap[k] >= gap[0];
      assert gap[|gap| - 1] == gvmin;
      gap + GLadder(gRates, Last(gap), gMax)
    else GLadder(gRates, last, gMax)
  }

  /** Turning the entries into the table data: the BUG when they overflow
      the array; otherwise throttle-low at the backup rate (index 2),
      throttle-high one below the top, suspend at the LP maximum. */
  function Finish(all: seq<nat>, lpCount: nat, gMinRate: nat): (r: Build)
    ensures r.Built? <==> |all| < CPU_FREQ_TABLE_MAX_SIZE
    ensures r.Built? ==> r.data == TableData(all, 2, |all| - 2, lpCount - 1) && r.gMinRate == gMinRate
    ensures r.Overflow? ==> r.gMinRate == gMinRate
  {
    if |all| >= CPU_FREQ_TABLE_MAX_SIZE then Overflow(gMinRate)
    else Built(TableData(all, 2, |all| - 2, lpCount - 1), gMinRate)
  }

  /** The G CPU minimum rate the build sets: the lower of the entry below
      the LP maximum and G Vmin, in Hz, as a 32-bit product. */
  function GMinRate(t: seq<nat>, gvmin: nat): nat
    requires |t| >= 2
  {
    ToU32(Min(t[|t| - 2], gvmin) * 1000)
  }

  /** The T124 `tegra_cpufreq_table_get` build, as written. */
  function BuildT124AsWritten(lp: Clock, g: Clock): (r: Build)
    requires ValidClock(lp) && ValidClock(g)
    ensures r.NoTable? <==> !T124Buildable(lp, g)
  {
    if !T124Buildable(lp, g) then NoTable
    else
      var walk := LpPart(lp, g);
      var rest := RestAsWritten(walk.freq, GVmin(g), UsedKhz(g.dvfs.value), g.maxRate / 1000);
      Finish(walk.table + rest, |walk.table|, GMinRate(walk.table, GVmin(g)))
  }

  /** A board whose only LP rate above the backup rate sits exactly one
      step below G Vmin gets that rate twice. */
  lemma GapFillDuplicatesAsWritten()
    ensures var lp := Clock(204_000_000, 100_000_000, Some(Dvfs([204_000_000], 1)));
            var g := Clock(306_000_000, 0, Some(Dvfs([306_000_000], 1)));
            BuildT124AsWritten(lp, g).Built? &&
            BuildT124AsWritten(lp, g).data.freqs == [25000, 50000, 100000, 204000, 204000, 306000]
  {
    var lp := Clock(204_000_000, 100_000_000, Some(Dvfs([204_000_000], 1)));
    var g := Clock(306_000_000, 0, Some(Dvfs([306_000_000], 1)));
    assert UsedKhz(lp.dvfs.value) == [204000];
    assert UsedKhz(g.dvfs.value) == [306000];
    var start := Ladder([25000, 50000, 100000], 100000, false);
    assert Step(start, 204000, 306000) == Ladder([25000, 50000, 100000, 204000], 204000, false);
    var walk := LpPart(lp, g);
    assert walk == LpLadder([204000], 100000, 306000, 204000, start);
    assert walk == Ladder([25000, 50000, 100000, 204000], 204000, false);
    assert GapFillAsWritten(204000, 306000) == [204000, 306000];
    assert GLadder([306000], 306000, 306000) == [];
    var rest := RestAsWritten(204000, 306000, [306000], 306000);
    assert rest == [204000, 306000];
    assert walk.table + rest == [25000, 50000, 100000, 204000, 204000, 306000];
  }

  /** The T124 build with the hole filled strictly above the last table
      entry, and the G ladder started above the new last entry. */
  function BuildT124(lp: Clock, g: Clock): (r: Build)
    requires ValidClock(lp) && ValidClock(g)
    ensures r.NoTable? <==> !T124Buildable(lp, g)
    ensures r.Built? ==>
              var f := r.data.freqs;
              3 <= |f| < CPU_FREQ_TABLE_MAX_SIZE && f[..3] == BackupSteps(lp.backupRate / 1000) &&
              r.data.throttleLowest == 2 && r.data.throttleHighest == |f| - 2 &&
              2 <= r.data.suspendIndex < |f| &&
              forall k :: r.data.suspendIndex < k < |f| ==> f[k] > f[r.data.suspendIndex]
  {
    if !T124Buildable(lp, g) then NoTable
    else
      var walk := LpPart(lp, g);
      var rest := Rest(Last(walk.table), GVmin(g), UsedKhz(g.dvfs.value), g.maxRate / 1000);
      var all := walk.table + rest;
      assert all[..3] == walk.table[..3];
      Finish(all, |walk.table|, GMinRate(walk.table, GVmin(g)))
  }

  /** The two builds agree on whether a table is made at all. */
  lemma T124BuildsAgreeOnFailure(lp: Clock, g: Clock)
    requires ValidClock(lp) && ValidClock(g)
    ensures BuildT124(lp, g).NoTable? <==> BuildT124AsWritten(lp, g).NoTable?
  {
  }

  /** The LP walk ends either with G Vmin in the table, or with the table
      and the last rate looked at below it. */
  lemma LpPartKeepsVmin(lp: Clock, g: Clock)
    requires ValidClock(lp) && ValidClock(g) && T124Buildable(lp, g)
    ensures VminKept(LpPart(lp, g), GVmin(g))
  {
    var backup := lp.backupRate / 1000;
    var gvmin := GVmin(g);
    var start := Ladder(BackupSteps(backup), backup, gvmin == backup);
    assert VminKept(start, gvmin);
    LpLadderKeepsVmin(UsedKhz(lp.dvfs.value), backup, gvmin, lp.maxRate / 1000, start);
  }

  /** Both builds keep the G CPU rate at minimum voltage in the table,
      whatever the ladders hold. */
  lemma VminInTable(lp: Clock, g: Clock)
    requires ValidClock(lp) && ValidClock(g)
    ensures BuildT124(lp, g).Built? ==> GVmin(g) in BuildT124(lp, g).data.freqs
    ensures BuildT124AsWritten(lp, g).Built? ==> GVmin(g) in BuildT124AsWritten(lp, g).data.freqs
  {
    if T124Buildable(lp, g) {
      var walk := LpPart(lp, g);
      var gvmin := GVmin(g);
      var gRates := UsedKhz(g.dvfs.value);
      LpPartKeepsVmin(lp, g);
      if walk.vminDone {
        var i :| 0 <= i < |walk.table| && walk.table[i] == gvmin;
        assert (walk.table + Rest(Last(walk.table), gvmin, gRates, g.maxRate / 1000))[i] == gvmin;
        assert (walk.table + RestAsWritten(walk.freq, gvmin, gRates, g.maxRate / 1000))[i] == gvmin;
      } else {
        var rest := Rest(Last(walk.table), gvmin, gRates, g.maxRate / 1000);
        var i :| 0 <= i < |rest| && rest[i] == gvmin;
        assert (walk.table + rest)[|walk.table| + i] == gvmin;
        var gap := GapFillAsWritten(walk.freq, gvmin);
        var restW := RestAsWritten(walk.freq, gvmin, gRates, g.maxRate / 1000);
        assert restW[|gap| - 1] == gvmin;
        assert (walk.table + restW)[|walk.table| + |gap| - 1] == gvmin;
      }
    }
  }

  /** Concatenating two strictly ascending sequences, the second wholly
      above the first's last entry. */
  lemma ConcatAscending(a: seq<nat>, b: seq<nat>)
    requires |a| > 0 && StrictlyAscending(a) && StrictlyAscending(b)
    requires forall k :: 0 <= k < |b| ==> b[k] > Last(a)
    ensures StrictlyAscending(a + b)
  {
    forall i, j | 0 <= i < j < |a + b|
      ensures (a + b)[i] < (a + b)[j]
    {
      if i < |a| && j >= |a| {
        assert a[i] <= Last(a);
        assert (a + b)[j] == b[j - |a|];
      }
    }
  }

  /** The intended rest is strictly ascending when the G ladder is. */
  lemma RestAscending(last: nat, gvmin: nat, gRates: seq<nat>, gMax: nat)
    requires StrictlyAscending(gRates)
    ensures StrictlyAscending(Rest(last, gvmin, gRates, gMax))
  {
    if last < gvmin {
      var gap := GapFrom(last, gvmin);
      StepsAscend(gap);
      GLadderAscending(gRates, Last(gap), gMax);
      ConcatAscending(gap, GLadder(gRates, Last(gap), gMax));
    } else {
      GLadderAscending(gRates, last, gMax);
    }
  }

  /** With sorted dvfs ladders (LP non-decreasing, G strictly ascending, in
      kHz) and a backup rate of at least 4 kHz, the intended build is
      strictly ascending. */
  lemma T124Ascending(lp: Clock, g: Clock)
    requires ValidClock(lp) && ValidClock(g) && T124Buildable(lp, g)
    requires lp.backupRate / 1000 >= 4
    requires NonDecreasing(UsedKhz(lp.dvfs.value)) && StrictlyAscending(UsedKhz(g.dvfs.value))
    ensures BuildT124(lp, g).Built? ==> StrictlyAscending(BuildT124(lp, g).data.freqs)
  {
    var backup := lp.backupRate / 1000;
    var gvmin := GVmin(g);
    var rates := UsedKhz(lp.dvfs.value);
    var start := Ladder(BackupSteps(backup), backup, gvmin == backup);
    assert LadderOrdered(start, rates, backup, gvmin);
    LpLadderAscending(rates, backup, gvmin, lp.maxRate / 1000, start);
    var walk := LpPart(lp, g);
    var rest := Rest(Last(walk.table), gvmin, UsedKhz(g.dvfs.value), g.maxRate / 1000);
    RestAscending(Last(walk.table), gvmin, UsedKhz(g.dvfs.value), g.maxRate / 1000);
    ConcatAscending(walk.table, rest);
  }

  // ---------------------------------------------------------------------
  // T132
  // ---------------------------------------------------------------------

  const GRANULARITY_KHZ: nat := 25500
  const GRANULARITY_END: nat := 1020000
  const CPU_THROTTLE_FREQ: nat := 408000
  const CPU_SUSPEND_FREQ: nat := 408000
  const CPU_MIN_FREQ: nat := 204000

  /** The fixed part of the T132 table: the minimum rate, then one entry
      per 25.5 MHz step up to 1020 MHz. */
  function Granular(): (r: seq<nat>)
    ensures |r| == (GRANULARITY_END - CPU_MIN_FREQ) / GRANULARITY_KHZ + 1 == 33
    ensures forall j :: 0 <= j < |r| ==> r[j] == CPU_MIN_FREQ + j * GRANULARITY_KHZ
  {
    seq(33, j requires 0 <= j < 33 => CPU_MIN_FREQ + j * GRANULARITY_KHZ)
  }

  /** The index loop of the T132 build: the last j − 1 (j from `j` up) at
      which the table crosses `threshold` from at-or-below to above. */
  function LastCrossing(t: seq<nat>, threshold: nat, j: nat, acc: int): int
    requires 1 <= j
    decreases |t| - j
  {
    if j >= |t| then acc
    else
      var acc' := if t[j] > threshold && t[j - 1] <= threshold then j - 1 else acc;
      LastCrossing(t, threshold, j + 1, acc')
  }

  /** Where nothing crosses from `j` on, the loop keeps its value. */
  lemma {:induction false} NoLaterCrossing(t: seq<nat>, threshold: nat, j: nat, acc: int)
    requires 1 <= j && forall k :: j <= k + 1 < |t| ==> t[k] > threshold
    ensures LastCrossing(t, threshold, j, acc) == acc
    decreases |t| - j
  {
    if j < |t| {
      NoLaterCrossing(t, threshold, j + 1, acc);
    }
  }

  /** Before the crossing at 9 nothing crosses. */
  lemma {:induction false} CrossingAtNine(t: seq<nat>, j: nat, acc: int)
    requires 1 <= j <= 9 < |t| && forall k :: 0 <= k < 9 ==> t[k] <= CPU_THROTTLE_FREQ
    requires t[9] > CPU_THROTTLE_FREQ && forall k :: 9 <= k < |t| ==> t[k] > CPU_THROTTLE_FREQ
    ensures LastCrossing(t, CPU_THROTTLE_FREQ, j, acc) == 8
    decreases 9 - j
  {
    if j < 9 {
      CrossingAtNine(t, j + 1, acc);
    } else {
      NoLaterCrossing(t, CPU_THROTTLE_FREQ, 10, 8);
    }
  }

  /** `tegra_cpufreq_table_get` for T132. */
  function BuildT132(g: Clock): (r: Build)
    requires ValidClock(g)
    ensures r.NoTable? <==> g.dvfs.None?
    ensures !r.NoTable? ==> r.gMinRate == CPU_MIN_FREQ * 1000
  {
    if g.dvfs.None? then NoTable
    else
      var all := Granular() + GLadder(UsedKhz(g.dvfs.value), GRANULARITY_END, g.maxRate / 1000);
      var low := LastCrossing(all, CPU_THROTTLE_FREQ, 1, 0);
      var suspend := LastCrossing(all, CPU_SUSPEND_FREQ, 1, 0);
      if |all| >= CPU_FREQ_TABLE_MAX_SIZE then Overflow(CPU_MIN_FREQ * 1000)
      else Built(TableData(all, low, |all| - 2, suspend), CPU_MIN_FREQ * 1000)
  }

  /** The T132 table starts with the 33 fixed steps ending at 1020 MHz,
      continues only with G rates above it, and both the throttle floor and
      the suspend index land on 408 MHz, index 8. */
  lemma T132Shape(g: Clock)
    requires ValidClock(g) && BuildT132(g).Built?
    ensures var d := BuildT132(g).data;
            d.freqs[..33] == Granular() && d.freqs[32] == GRANULARITY_END &&
            (forall k :: 33 <= k < |d.freqs| ==> d.freqs[k] > GRANULARITY_END) &&
            d.throttleLowest == 8 && d.suspendIndex == 8 && d.freqs[8] == CPU_THROTTLE_FREQ &&
            d.throttleHighest == |d.freqs| - 2
  {
    var all := BuildT132(g).data.freqs;
    assert all[..33] == Granular();
    assert forall k :: 0 <= k < 9 ==> all[k] <= CPU_THROTTLE_FREQ by {
      assert forall k :: 0 <= k < 9 ==> all[k] == Granular()[k];
    }
    assert forall k :: 9 <= k < |all| ==> all[k] > CPU_THROTTLE_FREQ by {
      assert forall k :: 9 <= k < 33 ==> all[k] == Granular()[k];
    }
    CrossingAtNine(all, 1, 0);
  }

  // ---------------------------------------------------------------------
  // The once-built table
  // ---------------------------------------------------------------------

  /** The driver's static table data: the table once built, and the
      preserve-across-suspend flag. */
  datatype TableState = TableState(built: Option<TableData>, preserveAcrossSuspend: bool)

  /** A call's outcome: the new state, the table returned (None for NULL),
      whether the build hit the size BUG, and the G minimum rate it set. */
  datatype Lookup = Lookup(state: TableState, result: Option<TableData>, bug: bool, gMinRate: Option<nat>)

  /** The T124 build under either semantics. */
  function BuildT124Under(sem: Semantics, lp: Clock, g: Clock): Build
    requires ValidClock(lp) && ValidClock(g)
  {
    if sem == AsWritten then BuildT124AsWritten(lp, g) else BuildT124(lp, g)
  }

  /** `tegra_cpufreq_table_get` (T124) over the static state: a table
      already built is returned as is; otherwise an automotive part is
      marked to keep its rate across suspend, the table is built (with the
      gap fill as written under `AsWritten`, as intended under `Intended`),
      and a built table is stored and returned. */
  function TableGetT124(sem: Semantics, s: TableState, automotive: bool, lp: Clock, g: Clock): (r: Lookup)
    requires ValidClock(lp) && ValidClock(g)
    ensures s.built.Some? ==> r == Lookup(s, s.built, false, None)
    ensures s.built.None? ==>
              var b := if sem == AsWritten then BuildT124AsWritten(lp, g) else BuildT124(lp, g);
              && r.state.preserveAcrossSuspend == (s.preserveAcrossSuspend || automotive)
              && (b.NoTable? ==> r.result.None? && !r.bug && r.gMinRate.None? && r.state.built.None?)
              && (b.Overflow? ==> r.result.None? && r.bug && r.gMinRate == Some(b.gMinRate) && r.state.built.None?)
              && (b.Built? ==> r.result == Some(b.data) && !r.bug && r.gMinRate == Some(b.gMinRate))
    ensures r.result.Some? ==> r.state.built == r.result
  {
    if s.built.Some? then Lookup(s, s.built, false, None)
    else
      var s1 := if automotive then s.(preserveAcrossSuspend := true) else s;
      match BuildT124Under(sem, lp, g)
      case NoTable => Lookup(s1, None, false, None)
      case Overflow(gMin) => Lookup(s1, None, true, Some(gMin))
      case Built(d, gMin) => Lookup(s1.(built := Some(d)), Some(d), false, Some(gMin))
  }

  /** Once a table is returned, every later call returns the same table,
      whatever the clocks say then. */
  lemma TableBuiltOnce(sem: Semantics, s: TableState, automotive: bool, lp: Clock, g: Clock, automotive2: bool, lp2: Clock, g2: Clock)
    requires ValidClock(lp) && ValidClock(g) && ValidClock(lp2) && ValidClock(g2)
    requires TableGetT124(sem, s, automotive, lp, g).result.Some?
    ensures var r1 := TableGetT124(sem, s, automotive, lp, g);
            var r2 := TableGetT124(sem, r1.state, automotive2, lp2, g2);
            r2.result == r1.result && r2.state == r1.state
  {
  }

  /** As written, the board of `GapFillDuplicatesAsWritten` gets a table
      with 204000 kHz twice, and that table is stored and returned. */
  lemma TableGetKeepsDuplicateAsWritten(s: TableState, automotive: bool)
    requires s.built.None?
    ensures var lp := Clock(204_000_000, 100_000_000, Some(Dvfs([204_000_000], 1)));
            var g := Clock(306_000_000, 0, Some(Dvfs([306_000_000], 1)));
            var r := TableGetT124(AsWritten, s, automotive, lp, g);
            r.result.Some? && r.result.value.freqs == [25000, 50000, 100000, 204000, 204000, 306000] &&
            r.state.built == r.result
  {
    GapFillDuplicatesAsWritten();
  }

  /** As intended, a table returned for sorted dvfs ladders strictly
      ascends, whether it was just built or built by an earlier call. */
  lemma TableGetAscendsAsIntended(s: TableState, automotive: bool, lp: Clock, g: Clock)
    requires ValidClock(lp) && ValidClock(g) && T124Buildable(lp, g)
    requires lp.backupRate / 1000 >= 4
    requires NonDecreasing(UsedKhz(lp.dvfs.value)) && StrictlyAscending(UsedKhz(g.dvfs.value))
    requires s.built.Some? ==> StrictlyAscending(s.built.value.freqs)
    ensures var r := TableGetT124(Intended, s, automotive, lp, g);
            r.result.Some? ==> StrictlyAscending(r.result.value.freqs)
  {
    T124Ascending(lp, g);
  }
}

=== FILE: tegra_emc.dfy ===
/** Tegra memory-bus (EMC) and mselect votes derived from the CPU rate:
    the step-function votes, the device-tree limit table with its
    validation, the T124 and T132 `tegra_emc_cpu_limit`, the mselect rate
    and the limit-table source switch. CPU rates are in kHz, bus rates in
    Hz; `unsigned long` is 32 bits wide on this platform. */
module TegraEmc {
  import opened Common

  function Min(a: nat, b: nat): nat
  {
    if a <= b then a else b
  }

  // ---------------------------------------------------------------------
  // Step-function votes
  // ---------------------------------------------------------------------

  /** A step of a vote: from `threshold` kHz upwards the vote is `rate` Hz. */
  datatype Step = Step(threshold: nat, rate: nat)

  /** A vote table from the highest threshold down, read from index
      `from`: the rate of the first step the CPU rate reaches, 0 below all
      of them. */
  function StepVote(steps: seq<Step>, cpuRate: nat, from: nat): (r: nat)
    ensures r == 0 || exists k :: from <= k < |steps| && steps[k].threshold <= cpuRate && r == steps[k].rate
    ensures (forall k :: from <= k < |steps| ==> cpuRate < steps[k].threshold) ==> r == 0
    decreases |steps| - from
  {
    if from >= |steps| then 0
    else if cpuRate >= steps[from].threshold then steps[from].rate
    else StepVote(steps, cpuRate, from + 1)
  }

  /** Thresholds strictly falling and rates not rising, from the top. */
  predicate Descending(steps: seq<Step>)
  {
    forall k :: 0 <= k && k + 1 < |steps| ==> steps[k + 1].threshold < steps[k].threshold && steps[k + 1].rate <= steps[k].rate
  }

  /** Past the first step the vote never exceeds the step above. */
  lemma {:induction false} StepVoteBounded(steps: seq<Step>, a: nat, from: nat)
    requires Descending(steps) && 1 <= from <= |steps|
    ensures StepVote(steps, a, from) <= steps[from - 1].rate
    decreases |steps| - from
  {
    if from < |steps| && a < steps[from].threshold {
      StepVoteBounded(steps, a, from + 1);
    }
  }

  /** Over a descending table a higher CPU rate never gets a lower vote. */
  lemma {:induction false} StepVoteMonotone(steps: seq<Step>, a: nat, b: nat, from: nat)
    requires Descending(steps) && a <= b
    ensures StepVote(steps, a, from) <= StepVote(steps, b, from)
    decreases |steps| - from
  {
    if from < |steps| && a < steps[from].threshold {
      if b >= steps[from].threshold {
        StepVoteBounded(steps, a, from + 1);
      } else {
        StepVoteMonotone(steps, a, b, from + 1);
      }
    }
  }

  /** The steps of `tegra_emc_to_cpu_ratio`, topped by the EMC maximum. */
  function RatioSteps(emcMax: nat): seq<Step>
  {
    [Step(1300000, emcMax), Step(975000, 550000000), Step(725000, 350000000),
     Step(500000, 150000000), Step(275000, 50000000)]
  }

  /** `tegra_emc_to_cpu_ratio`: `emcMax` is the EMC clock's rounded maximum
      rate, fetched once. */
  function EmcToCpuRatio(cpuRate: nat, emcMax: nat): (r: nat)
    ensures cpuRate >= 1300000 ==> r == emcMax
    ensures cpuRate < 275000 ==> r == 0
    ensures 275000 <= cpuRate < 1300000 ==> r in {50000000, 150000000, 350000000, 550000000}
  {
    if cpuRate >= 1300000 then emcMax
    else if cpuRate >= 975000 then 550000000
    else if cpuRate >= 725000 then 350000000
    else if cpuRate >= 500000 then 150000000
    else if cpuRate >= 275000 then 50000000
    else 0
  }

  /** The ratio vote is its step table, and rises with the CPU rate as long
      as the EMC maximum is at least the 550 MHz step. */
  lemma EmcToCpuRatioMonotone(a: nat, b: nat, emcMax: nat)
    requires a <= b && emcMax >= 550000000
    ensures EmcToCpuRatio(a, emcMax) == StepVote(RatioSteps(emcMax), a, 0)
    ensures EmcToCpuRatio(a, emcMax) <= EmcToCpuRatio(b, emcMax)
  {
    var s := RatioSteps(emcMax);
    RatioIsSteps(a, emcMax);
    RatioIsSteps(b, emcMax);
    RatioStepsDescending(emcMax);
    StepVoteMonotone(s, a, b, 0);
  }

  lemma RatioStepsDescending(emcMax: nat)
    requires emcMax >= 550000000
    ensures Descending(RatioSteps(emcMax))
  {
    var s := RatioSteps(emcMax);
    forall k | 0 <= k && k + 1 < |s|
      ensures s[k + 1].threshold < s[k].threshold && s[k + 1].rate <= s[k].rate
    {
      assert k in {0, 1, 2, 3};
    }
  }

  lemma RatioIsSteps(c: nat, emcMax: nat)
    ensures EmcToCpuRatio(c, emcMax) == StepVote(RatioSteps(emcMax), c, 0)
  {
    var s := RatioSteps(emcMax);
    assert StepVote(s, c, 5) == 0;
    assert StepVote(s, c, 4) == EmcToCpuRatio(c, emcMax) || c >= 500000;
    assert StepVote(s, c, 3) == EmcToCpuRatio(c, emcMax) || c >= 725000;
    assert StepVote(s, c, 2) == EmcToCpuRatio(c, emcMax) || c >= 975000;
    assert StepVote(s, c, 1) == EmcToCpuRatio(c, emcMax) || c >= 1300000;
  }

  /** The steps of `default_emc_cpu_limit`, topped by the EMC maximum. */
  function DefaultSteps(emcMax: nat): seq<Step>
  {
    [Step(1734000, emcMax), Step(1326000, 792000000), Step(1224000, 600000000),
     Step(1044000, 528000000), Step(960000, 396000000), Step(828000, 300000000),
     Step(696000, 204000000), Step(564000, 102000000), Step(312000, 50000000)]
  }

  /** `default_emc_cpu_limit`. */
  function DefaultEmcCpuLimit(cpuRate: nat, emcMax: nat): (r: nat)
    ensures cpuRate >= 1734000 ==> r == emcMax
    ensures cpuRate < 312000 ==> r == 0
    ensures 312000 <= cpuRate < 1734000 ==> 50000000 <= r <= 792000000
  {
    if cpuRate >= 1734000 then emcMax
    else if cpuRate >= 1326000 then 792000000
    else if cpuRate >= 1224000 then 600000000
    else if cpuRate >= 1044000 then 528000000
    else if cpuRate >= 960000 then 396000000
    else if cpuRate >= 828000 then 300000000
    else if cpuRate >= 696000 then 204000000
    else if cpuRate >= 564000 then 102000000
    else if cpuRate >= 312000 then 50000000
    else 0
  }

  /** The default limit is its step table, and rises with the CPU rate as
      long as the EMC maximum is at least the 792 MHz step. */
  lemma DefaultEmcCpuLimitMonotone(a: nat, b: nat, emcMax: nat)
    requires a <= b && emcMax >= 792000000
    ensures DefaultEmcCpuLimit(a, emcMax) == StepVote(DefaultSteps(emcMax), a, 0)
    ensures DefaultEmcCpuLimit(a, emcMax) <= DefaultEmcCpuLimit(b, emcMax)
  {
    var s := DefaultSteps(emcMax);
    DefaultIsSteps(a, emcMax);
    DefaultIsSteps(b, emcMax);
    DefaultStepsDescending(emcMax);
    StepVoteMonotone(s, a, b, 0);
  }

  lemma DefaultStepsDescending(emcMax: nat)
    requires emcMax >= 792000000
    ensures Descending(DefaultSteps(emcMax))
  {
    var s := DefaultSteps(emcMax);
    forall k | 0 <= k && k + 1 < |s|
      ensures s[k + 1].threshold < s[k].threshold && s[k + 1].rate <= s[k].rate
    {
      assert k in {0, 1, 2, 3, 4, 5, 6, 7};
    }
  }

  lemma DefaultIsSteps(c: nat, emcMax: nat)
    ensures DefaultEmcCpuLimit(c, emcMax) == StepVote(DefaultSteps(emcMax), c, 0)
  {
    var s := DefaultSteps(emcMax);
    assert StepVote(s, c, 9) == 0;
    assert StepVote(s, c, 8) == DefaultEmcCpuLimit(c, emcMax) || c >= 564000;
    assert StepVote(s, c, 7) == DefaultEmcCpuLimit(c, emcMax) || c >= 696000;
    assert StepVote(s, c, 6) == DefaultEmcCpuLimit(c, emcMax) || c >= 828000;
    assert StepVote(s, c, 5) == DefaultEmcCpuLimit(c, emcMax) || c >= 960000;
    assert StepVote(s, c, 4) == DefaultEmcCpuLimit(c, emcMax) || c >= 1044000;
    assert StepVote(s, c, 3) == DefaultEmcCpuLimit(c, emcMax) || c >= 1224000;
    assert StepVote(s, c, 2) == DefaultEmcCpuLimit(c, emcMax) || c >= 1326000;
    assert StepVote(s, c, 1) == DefaultEmcCpuLimit(c, emcMax) || c >= 1734000;
  }

  // ---------------------------------------------------------------------
  // The device-tree limit table
  // ---------------------------------------------------------------------

  /** The table as fetched: its u32 cells (cpu kHz, emc kHz pairs) or the
      error pointer. */
  datatype EmcTable = Cells(cells: seq<nat>) | NoData

  /** `cpufreq_emc_table_get`: `propBytes` is the byte length of the
      limit-table property (None when the scaling node or the property is
      missing), `allocOk` whether the buffer could be allocated, and
      `cells` what reading the property yields (None on a read failure). */
  function EmcTableGet(propBytes: Option<nat>, allocOk: bool, cells: Option<seq<nat>>): (r: EmcTable)
    requires propBytes.Some? && cells.Some? ==> |cells.value| == propBytes.value / 4
    ensures r.Cells? <==> propBytes.Some? && propBytes.value != 0 && propBytes.value % 8 == 0 && allocOk && cells.Some?
    ensures r.Cells? ==> |r.cells| > 0 && |r.cells| % 2 == 0 && r.cells == cells.value
  {
    if propBytes.None? then NoData
    else if propBytes.value == 0 || propBytes.value % 8 != 0 then NoData
    else if !allocOk then NoData
    else if cells.None? then NoData
    else Cells(cells.value)
  }

  /** The scan of `dt_emc_cpu_limit`: the first even index from `i` whose
      cpu threshold is above the CPU rate, or the first even index at or
      past the end. */
  function Scan(table: seq<nat>, cpuRate: nat, i: nat): (r: nat)
    requires i % 2 == 0
    ensures r % 2 == 0 && r >= i && (r < |table| || r >= |table|)
    ensures r < |table| ==> cpuRate < table[r]
    ensures forall k :: i <= k < r && k % 2 == 0 ==> k < |table| && table[k] <= cpuRate
    ensures r >= |table| ==> r < |table| + 2 || i >= |table|
    decreases |table| - i
  {
    if i >= |table| then i
    else if cpuRate < table[i] then i
    else Scan(table, cpuRate, i + 2)
  }

  /** `dt_emc_cpu_limit`: the emc entry of the pair before the scan stop,
      in Hz (a 32-bit product), capped by the EMC maximum; 0 when the
      first threshold is already above the CPU rate. */
  function DtEmcCpuLimit(table: seq<nat>, cpuRate: nat, emcMax: nat): (r: nat)
    requires |table| % 2 == 0
    ensures |table| == 0 || cpuRate < table[0] ==> r == 0
    ensures r <= emcMax
  {
    var i := Scan(table, cpuRate, 0);
    if i == 0 then 0 else Min(emcMax, ToU32(table[i - 1] * 1000))
  }

  /** Pairs with ascending cpu thresholds. */
  predicate ThresholdsAscending(table: seq<nat>)
  {
    forall i, j :: 0 <= i < j < |table| && i % 2 == 0 && j % 2 == 0 ==> table[i] < table[j]
  }

  /** With ascending thresholds the limit comes from the last pair whose
      threshold the CPU rate reaches. */
  lemma DtLimitFromLastReachedPair(table: seq<nat>, cpuRate: nat, emcMax: nat, p: nat)
    requires |table| % 2 == 0 && ThresholdsAscending(table)
    requires 2 * p + 1 < |table| && table[2 * p] <= cpuRate
    requires 2 * p + 3 >= |table| || cpuRate < table[2 * p + 2]
    ensures DtEmcCpuLimit(table, cpuRate, emcMax) == Min(emcMax, ToU32(table[2 * p + 1] * 1000))
  {
    var i := Scan(table, cpuRate, 0);
  }

  // ---------------------------------------------------------------------
  // tegra_emc_cpu_limit
  // ---------------------------------------------------------------------

  /** Where the limit table comes from. The values are defined by the
      cpufreq header, which is not part of this model; only their being
      distinct matters here. */
  const CPU_EMC_TABLE_SRC_DT: int := 1
  const CPU_EMC_TABLE_SRC_DEFAULT: int := 2

  /** The driver's statics: the EMC maximum (0 until known), the table
      (None until fetched; a failed fetch is kept as NoData) and the source. */
  datatype EmcState = EmcState(emcMax: nat, table: Option<EmcTable>, source: int)

  const InitialEmcState: EmcState := EmcState(0, None, CPU_EMC_TABLE_SRC_DT)

  /** Result of a limit request: the rate (an unsigned long) and the statics. */
  datatype LimitOutcome = LimitOutcome(rate: nat, state: EmcState)

  predicate ValidEmcState(s: EmcState)
  {
    s.table.Some? && s.table.value.Cells? ==> |s.table.value.cells| % 2 == 0
  }

  /** `tegra_emc_cpu_limit` (T124): `emcClock` is the EMC clock's rounded
      maximum (None if there is no such clock), `fetch` what a table fetch
      would return now. */
  function EmcCpuLimit(s: EmcState, cpuRate: nat, emcClock: Option<nat>, fetch: EmcTable): (r: LimitOutcome)
    requires ValidEmcState(s) && (fetch.Cells? ==> |fetch.cells| % 2 == 0)
    ensures s.emcMax == 0 && emcClock.None? ==> r == LimitOutcome(ToU32(-ENODEV), s)
    ensures ValidEmcState(r.state) && r.state.source == s.source
    ensures s.table.Some? ==> r.state.table == s.table
    ensures s.table.None? && (s.emcMax != 0 || emcClock.Some?) ==> r.state.table == Some(fetch)
    ensures (s.emcMax != 0 || emcClock.Some?) && (s.source == CPU_EMC_TABLE_SRC_DEFAULT || r.state.table.value.NoData?) ==>
              r.rate == DefaultEmcCpuLimit(cpuRate, r.state.emcMax)
    ensures (s.emcMax != 0 || emcClock.Some?) && s.source != CPU_EMC_TABLE_SRC_DEFAULT && r.state.table.value.Cells? ==>
              r.rate == DtEmcCpuLimit(r.state.table.value.cells, cpuRate, r.state.emcMax)
  {
    if s.emcMax == 0 && emcClock.None? then LimitOutcome(ToU32(-ENODEV), s)
    else
      var emcMax := if s.emcMax == 0 then emcClock.value else s.emcMax;
      var table := if s.table.None? then fetch else s.table.value;
      var s1 := EmcState(emcMax, Some(table), s.source);
      if s.source == CPU_EMC_TABLE_SRC_DEFAULT || table.NoData? then
        LimitOutcome(DefaultEmcCpuLimit(cpuRate, emcMax), s1)
      else LimitOutcome(DtEmcCpuLimit(table.cells, cpuRate, emcMax), s1)
  }

  /** A failed table fetch is kept: every later request falls back to the
      default steps and never fetches again. */
  lemma FailedFetchNotRetried(s: EmcState, cpuRate: nat, emcClock: Option<nat>, fetch: EmcTable,
                              cpuRate2: nat, emcClock2: Option<nat>, fetch2: EmcTable)
    requires ValidEmcState(s) && (fetch.Cells? ==> |fetch.cells| % 2 == 0) && (fetch2.Cells? ==> |fetch2.cells| % 2 == 0)
    requires s.table.None? && emcClock.Some? && emcClock.value != 0 && fetch.NoData?
    ensures var r1 := EmcCpuLimit(s, cpuRate, emcClock, fetch);
            var r2 := EmcCpuLimit(r1.state, cpuRate2, emcClock2, fetch2);
            r2.state == r1.state && r2.rate == DefaultEmcCpuLimit(cpuRate2, r1.state.emcMax)
  {
  }

  /** `tegra_emc_cpu_limit` (T132): A01/A02 parts get 600 MHz above
      1020 MHz and a 300 MHz floor otherwise, and wait for the DFLL when the
      vote goes down; later revisions get 0 and the statics stay. */
  datatype T132Outcome = T132Outcome(rate: nat, settleDelay: bool, last: nat)

  function EmcCpuLimitT132(earlyRevision: bool, cpuRate: nat, last: nat): (r: T132Outcome)
    ensures !earlyRevision ==> r == T132Outcome(0, false, last)
    ensures earlyRevision ==> r.rate == r.last && r.rate in {300000000, 600000000}
    ensures earlyRevision ==> (r.rate == 600000000 <==> cpuRate > 1020000)
    ensures r.settleDelay <==> earlyRevision && r.rate < last
  {
    if !earlyRevision then T132Outcome(0, false, last)
    else
      var rate := if cpuRate > 1020000 then 600000000 else 300000000;
      T132Outcome(rate, rate < last, rate)
  }

  /** On an early part the vote rises with the CPU rate, and a settle delay
      happens only when a higher vote is followed by a lower one. */
  lemma T132VoteMonotone(a: nat, b: nat, last: nat)
    requires a <= b
    ensures EmcCpuLimitT132(true, a, last).rate <= EmcCpuLimitT132(true, b, last).rate
    ensures var r1 := EmcCpuLimitT132(true, b, last);
            EmcCpuLimitT132(true, a, r1.last).settleDelay ==> r1.rate == 600000000 && a <= 1020000 < b
  {
  }

  // ---------------------------------------------------------------------
  // mselect
  // ---------------------------------------------------------------------

  const MSELECT_MAX_RATE: nat := 102000000

  /** The mselect rate for a CPU rate: half the CPU rate rounded up, in Hz
      (a 32-bit product), capped at 102 MHz. */
  function MselectRate(cpuRate: nat): (r: nat)
    ensures r <= MSELECT_MAX_RATE
  {
    Min(ToU32(ToU32(cpuRate + 1) / 2 * 1000), MSELECT_MAX_RATE)
  }

  /** Below the 32-bit wrap the rate is half the CPU rate, rounded up, up
      to the cap: at least half, less than half plus 1 kHz. */
  lemma MselectHalvesCpuRate(cpuRate: nat)
    requires cpuRate <= 204000
    ensures 1000 * cpuRate <= 2 * MselectRate(cpuRate) < 1000 * cpuRate + 2000
  {
  }

  lemma MselectCapped(cpuRate: nat)
    requires 204000 <= cpuRate < 8589934
    ensures MselectRate(cpuRate) == MSELECT_MAX_RATE
  {
  }

  /** Outcome of `tegra_update_mselect_rate`: the return value and the rate
      asked of the clock, if any. */
  datatype MselectOutcome = MselectOutcome(ret: int, requested: Option<nat>)

  /** `tegra_update_mselect_rate`: `clockFound` whether the mselect clock
      exists, `setRate` the clock framework's answer to a rate request. */
  function UpdateMselect(clockFound: bool, cpuRate: nat, setRate: nat -> int): (r: MselectOutcome)
    ensures !clockFound ==> r == MselectOutcome(-ENODEV, None)
    ensures clockFound ==> r.requested == Some(MselectRate(cpuRate)) && r.ret == setRate(MselectRate(cpuRate))
  {
    if !clockFound then MselectOutcome(-ENODEV, None)
    else MselectOutcome(setRate(MselectRate(cpuRate)), Some(MselectRate(cpuRate)))
  }

  // ---------------------------------------------------------------------
  // The table source switch
  // ---------------------------------------------------------------------

  datatype SourceOutcome = SourceOutcome(ret: int, source: int)

  /** `set_cpu_emc_limit_table_source`. */
  function SetTableSource(current: int, requested: int): (r: SourceOutcome)
    ensures r.ret == 0 <==> requested in {CPU_EMC_TABLE_SRC_DT, CPU_EMC_TABLE_SRC_DEFAULT}
    ensures r.ret == 0 ==> r.source == requested
    ensures r.ret != 0 ==> r == SourceOutcome(-1, current)
  {
    if requested != CPU_EMC_TABLE_SRC_DT && requested != CPU_EMC_TABLE_SRC_DEFAULT then SourceOutcome(-1, current)
    else SourceOutcome(0, requested)
  }

  /** Choosing the default source makes every later limit request use the
      default steps, whatever the table holds. */
  lemma DefaultSourceUsesDefaultSteps(s: EmcState, cpuRate: nat, emcClock: Option<nat>, fetch: EmcTable)
    requires ValidEmcState(s) && (fetch.Cells? ==> |fetch.cells| % 2 == 0) && (s.emcMax != 0 || emcClock.Some?)
    ensures var s1 := s.(source := SetTableSource(s.source, CPU_EMC_TABLE_SRC_DEFAULT).source);
            var r := EmcCpuLimit(s1, cpuRate, emcClock, fetch);
            r.rate == DefaultEmcCpuLimit(cpuRate, r.state.emcMax)
  {
  }
}
